=== FILE: README.md ===
# CricSim core in Dafny

A model of the game logic of CricSim, a turn-based T20 cricket simulator
written in TypeScript for React Native, with proofs about that model. The
model covers:

- the ball outcome generator (`simulateBall`, `weightedRandom`);
- the match helpers: the bowling lineup scheduler, dismissal texts, the
  fielding classifier, the over display and the result token;
- the innings of the match screen, written as a pure per-delivery reducer;
- the result screens: winner and margin text, net run rate, the
  man-of-the-match pick and the merge of the user's player stats;
- the three league tables (standings, fixtures and the user's players),
  each a sequence of rows with every SQL statement a function on it;
- the squad, match-centre, toss, aggression, fielding, scorecard, season,
  dashboard and club screens, as far as they compute something.

Every `Math.random()` call is an explicit parameter in `[0, 1)`. Weights,
ratings and net run rates are exact `real`s. Where the source keeps a piece
of React state beside `GameState` and reads it from a closure, that piece is
a field of the model's match state. The active pair, the batting order, the
next batsman, the bowling lineup, the current bowler, the pending pair held
for the wicket alert, the fielding setting and the alert flags are all such
fields. The behaviours listed below are the source's own, and the model
keeps them:

- a six can never be drawn in the powerplay;
- aggression is never read by the generator;
- a tie is announced as a win for the side batting second;
- a man-of-the-match wicket is worth 20 points;
- the lineup builder can fail with exactly five bowlers;
- a wicket on the sixth ball of an over cancels that over's change of ends;
- in the first innings `battingTeam` stays `'user'`;
- the scorecard header rounds the over count instead of flooring it.

The nine base weights of the generator add up to 0.94, not 1.
`Generator.AdjustedTotalAtLeast` shows that the adjusted total stays at or
above 0.9, so the renormalisation never divides by zero.

Files, one module each: `common.dfy` (Option, Result, Player),
`text.dfy` (decimal text, lower-casing, substring search),
`generator.dfy`, `helpers.dfy`, `lineup.dfy`, `innings.dfy`,
`innings_start.dfy`, `innings_steps.dfy`, `innings_facts.dfy`,
`result.dfy`, `standings.dfy`, `fixtures.dfy`, `players_db.dfy`,
`squad.dfy`, `match_center.dfy`, `toss.dfy`, `active_player.dfy`,
`fielding_selection.dfy`, `scoreboard.dfy`, `season.dfy`, `dashboard.dfy`,
`club.dfy`.

## Model

| member | source | states |
|---|---|---|
| Generator.PhasePass | src/services/matchService.ts:64-89 | the first phase switch never touches the three-run, wide or no-ball weights |
| Generator.SkillPass | src/services/matchService.ts:91-95 | afterwards dot ≥ 0.05 and wicket ≥ 0.01, each exactly the reduced value when that is above its floor; one run gains 0.5·factor and four 0.3·factor; every other weight is kept |
| Generator.FieldingPass | src/services/matchService.ts:97-98 | only the wicket weight moves: +0.02 for attacking, −0.01 for defensive, no change for neutral |
| Generator.SecondPhasePass | src/services/matchService.ts:100-118 | the second phase switch never touches the one-, two- or three-run, wide or no-ball weights |
| Generator.WicketFloorNotFinal | src/services/matchService.ts:95-105 | the wicket floor holds straight after the skill pass, but the later passes can take the wicket weight below 0.01 |
| Generator.AdjustedTotalAtLeast | src/services/matchService.ts:52-120 | for any skills, fielding and phase the adjusted weights add up to at least 0.9, so normalising is safe |
| Generator.Normalize | src/services/matchService.ts:120-123 | dividing by a positive total gives weights that add up to 1 |
| Generator.Distribution | src/services/matchService.ts:52-123 | the distribution `simulateBall` samples from adds up to 1 for every input |
| Generator.Scan | src/services/matchService.ts:38-43 | the loop stops at the first key whose running remainder is ≤ 0, and falls through only when no remainder ever is |
| Generator.WeightedRandom | src/services/matchService.ts:36-44 | a key is returned exactly when the map is non-empty, and it is one of the map's keys |
| Generator.WeightedRandomFirstCrossing | src/services/matchService.ts:36-44 | when some remainder reaches ≤ 0, the key returned is the one at the first such crossing |
| Generator.WeightedRandomFallback | src/services/matchService.ts:43 | when no remainder reaches ≤ 0, the first key of the map is returned |
| Generator.NegativeWeightNeverPicked | src/services/matchService.ts:39-41 | a key after the first whose weight is negative is never the one the loop stops at |
| Generator.KeyOutcome | src/services/matchService.ts:127-152 | each bucket maps to its outcome: runs 1/2/3 with a leg bye exactly when the draw is < 0.05, a wicket of kind `[bowled, caught, runOut, lbw][floor(4·draw)]`, and any other key maps to a dot |
| Generator.SimulateBall | src/services/matchService.ts:46-153 | a run outcome carries 1 to 3 runs, and its leg-bye flag is set exactly when the leg-bye draw is < 0.05 |
| Generator.OutcomeIgnoresTactics | src/services/matchService.ts:46-123 | two calls with equal skills, fielding, phase and draws give the same outcome, whatever the aggression, order, captaincy, bowler type, chase or wickets lost |
| Generator.PowerplaySixWeightNegative | src/services/matchService.ts:57-103 | in the powerplay the six weight ends negative, both before and after normalising |
| Generator.NormalizeKeepsNegativeSix | src/services/matchService.ts:120-123 | normalising by a positive total keeps a negative six weight negative |
| Generator.SixNeverDrawn | src/services/matchService.ts:36-44 | a negative six weight is never drawn by the cumulative sampler |
| Generator.NoSixInPowerplay | src/services/matchService.ts:46-153 | no delivery in overs 0-5 is a six, for any players, fielding or draws |
| MatchHelper.MapToPlayers | src/helper/matchHelper.ts:5-19 | one player per raw entry with every field kept; the position becomes the 1-based index exactly when asked |
| MatchHelper.IndexedPositionsDistinct | src/helper/matchHelper.ts:17 | positions numbered from the index are pairwise different |
| MatchHelper.RunToken | src/helper/matchHelper.ts:44-48 | a run's token is its digit, followed by `lb` exactly for a leg bye |
| MatchHelper.ResultTokenDistinguishes | src/helper/matchHelper.ts:40-73 | two valid outcomes get the same token exactly when they are equal or both wickets, so the token determines every non-wicket outcome |
| MatchHelper.FourRunsLookLikeBoundary | src/helper/matchHelper.ts:47-52 | a four run out would print the same token as a boundary four |
| MatchHelper.CandidatesMembers | src/helper/matchHelper.ts:80-82 | the candidates are exactly the players other than the excluded name that match the role filter when one is given |
| MatchHelper.RandomFielder | src/helper/matchHelper.ts:75-87 | there is no fielder exactly when nobody qualifies; otherwise the pick is one of the candidates |
| MatchHelper.RandomFielderQualifies | src/helper/matchHelper.ts:80-86 | a picked fielder is in the list, is not the excluded player and has the required role |
| MatchHelper.RandomFielderNone | src/helper/matchHelper.ts:80-84 | no fielder is drawn exactly when no player qualifies |
| MatchHelper.FielderNotBowler | src/helper/matchHelper.ts:112-121 | the catcher or run-out fielder is a lineup entry with a name other than the bowler's, unless every entry carries the bowler's name, in which case it is the bowler |
| MatchHelper.GetOutType | src/helper/matchHelper.ts:89-135 | the bowler is credited exactly when the kind is not a run out; the texts are `b. B`, `lbw B`, `b. B c. F` and `run out (F)` |
| MatchHelper.CreditFromText | src/helper/matchHelper.ts:98-127 | the bowler is credited exactly when the dismissal text does not start with `run out (` |
| MatchHelper.GetFieldingType | src/helper/matchHelper.ts:137-141 | attacking exactly when the lower-cased text contains "attacking"; defensive exactly when it does not but contains "defensive"; neutral otherwise |
| MatchHelper.FieldingTypeIgnoresCase | src/helper/matchHelper.ts:138-139 | lower-casing the setting first does not change its kind |
| MatchHelper.AttackingIffOccurs | src/helper/matchHelper.ts:138 | attacking exactly when "attacking" occurs at some offset of the lower-cased text |
| MatchHelper.JsRem | src/helper/matchHelper.ts:145 | JavaScript's `%`: what the quotient truncated toward zero leaves over, so `a = q·b + r` with r strictly between −b and b, and both `q` and `r` take the sign of the dividend |
| MatchHelper.FloorDiv | src/helper/matchHelper.ts:144 | `Math.floor(a / b)` is the largest q with q·b ≤ a |
| MatchHelper.BallsToOverRoundTrip | src/helper/matchHelper.ts:143-147 | for a non-negative count the text is `<balls div 6>.<balls mod 6>` and reads back to the same count |
| MatchHelper.BallsToOverInjective | src/helper/matchHelper.ts:143-147 | different ball counts show different over texts |
| MatchHelper.NegativeBallsDisplay | src/helper/matchHelper.ts:143-147 | −1 balls displays as `-1.-1`, since the floor and the remainder round in different directions |
| Lineup.Bowlers | src/helper/matchHelper.ts:150 | the bowlers are exactly the players with role BOWL or AR |
| Lineup.PoolMembers | src/helper/matchHelper.ts:159-162 | the pool holds exactly the bowlers |
| Lineup.PoolNameCount | src/helper/matchHelper.ts:159-162 | every name appears in the pool four times as often as among the bowlers |
| Lineup.AvailableMembers | src/helper/matchHelper.ts:167-169 | the available entries are exactly the pool entries whose name differs from the last over's bowler |
| Lineup.FirstWithName | src/helper/matchHelper.ts:181 | `findIndex` by name gives the first entry carrying that name |
| Lineup.PickStep | src/helper/matchHelper.ts:177-182 | pushing the drawn record and splicing out the first pool entry with its name keeps the names of lineup and pool together, only shrinks the pool and keeps consecutive names apart |
| Lineup.FillSound | src/helper/matchHelper.ts:166-183 | the loop either fails with the no-valid-lineup error or fills 20 overs, with no back-to-back bowler, every over a record from the lineup so far or the pool, each name used no more often than it was available |
| Lineup.FillExtends | src/helper/matchHelper.ts:166-179 | the loop only appends: a finished lineup starts with the overs already chosen |
| Lineup.FillPicksDrawn | src/helper/matchHelper.ts:167-179 | each over of a finished lineup is the very record the draw for that over selects among the pool entries not named like the previous bowler |
| Lineup.GenerateBowlingLineup | src/helper/matchHelper.ts:149-186 | fails with the too-few-bowlers error exactly when fewer than five players bowl; a lineup has 20 overs, no bowler twice in a row, only BOWL/AR players, each name at most four times per squad player of that name, and its first over is the record the first draw selects |
| Lineup.AtMostFourOvers | src/helper/matchHelper.ts:156-182 | with distinct bowler names, nobody bowls more than four overs |
| Lineup.FiveBowlersRun | src/helper/matchHelper.ts:166-175 | with five bowlers drawn in pool order, the builder reaches a point where only the last over's bowler is left and fails |
| Lineup.FiveBowlersCanFail | src/helper/matchHelper.ts:149-175 | the builder can throw with exactly five eligible bowlers, for the draws that always take the first available entry |
| Innings.WithInning | src/screens/MatchScreen.tsx:724-727 | the updated innings is written under the current innings key, and the other innings and the side fields are kept |
| Innings.FindBowler | src/screens/MatchScreen.tsx:472 | a bowler record found by name carries that name; when none is found no record does |
| Innings.Register | src/screens/MatchScreen.tsx:236-244 | a name already present keeps the list's length; a new name appends one zeroed record |
| Innings.BowlersOfShape | src/screens/MatchScreen.tsx:235-244 | every record is zeroed and belongs to a lineup player, and every lineup player has a record |
| Innings.BowlersOfDistinct | src/screens/MatchScreen.tsx:235-244 | the records are keyed by distinct names, as object keys are |
| Innings.UpdateBatsman | src/screens/MatchScreen.tsx:480-484 | the entries with the given name get the update and all others are unchanged |
| Innings.FindBatsman | src/screens/MatchScreen.tsx:667-669 | a found entry is on the card and carries the name; otherwise no entry does |
| Innings.AddLegalBall | src/screens/MatchScreen.tsx:519-523 | one more legal ball for the bowler: the ball count wraps from 6 to 0 with an extra over, and runs and wickets are kept |
| Innings.OutcomeEffect | src/screens/MatchScreen.tsx:526-710 | the outcome switch leaves the ball counts, the bowler list and the current bowler id alone |
| Innings.NextBatsman | src/screens/MatchScreen.tsx:664-696 | bringing in the next batsman changes no score, ball count or bowler and always raises the wicket flag |
| Innings.Deliver | src/screens/MatchScreen.tsx:381-476 | when no ball can be played the game, the active pair and the pending pair stay as they were |
| Innings.Acknowledge | src/screens/MatchScreen.tsx:963-970 | the wicket alert's OK restores the pending pair when there is one, clears it and the flags, and leaves the game alone |
| Innings.PhaseOf | src/screens/MatchScreen.tsx:495 | powerplay exactly for overs below 6 and death exactly from over 16 on |
| Innings.DrawOutcome | src/screens/MatchScreen.tsx:486-499 | the outcome drawn for a delivery is always a well-formed one |
| Innings.SyncFielding | src/screens/MatchScreen.tsx:272-290 | the fielding effects change only the fielding setting |
| Innings.ChooseFielding | src/screens/MatchScreen.tsx:983-987 | the picker's OK stores the chosen setting, enables the Simulate button and changes nothing else |
| Innings.ChangeAggression | src/screens/MatchScreen.tsx:860-871 | the player at the chosen end gets the new level; the other end and the rest of the state are unchanged, and an empty end stays empty |
| InningsStart.Card | src/screens/MatchScreen.tsx:215-220 | the card lists the batting order with zero runs and balls, the first two active and the rest inactive |
| InningsStart.OpeningPair | src/screens/MatchScreen.tsx:222-225 | the openers are order[0] and order[1], each at aggression 3 with nothing scored |
| InningsStart.FirstBowlerId | src/screens/MatchScreen.tsx:257 | the first bowler is the first lineup name, or the empty name for an empty lineup |
| InningsStart.Init | src/screens/MatchScreen.tsx:184-259 | without both squads nothing happens; otherwise the side chosen by the toss bats with its openers in, the next batsman is the third, the first bowler is the first of the lineup, and `battingTeam` is left untouched; a lineup error is reported |
| InningsStart.StartSecondInnings | src/screens/MatchScreen.tsx:315-379 | the sides swap, the first innings is kept, a fresh second innings starts with the other side's openers, and the innings counter becomes 2 |
| InningsStart.SidesSwap | src/screens/MatchScreen.tsx:188-193 | the side bowling in the first innings bats in the second, and between them the two innings use both squads as batting orders |
| InningsStart.FirstInningsBattingTeamStaysUser | src/screens/MatchScreen.tsx:246-249 | when the opponent bats first, the record still names the user as the batting side and also as the bowling side |
| InningsStart.TossOutcomes | src/screens/MatchScreen.tsx:188-190 | the user bats first for (user, bat) and for an opponent win with any choice but bat, and in no other case |
| InningsSteps.BowlerIndex | src/screens/MatchScreen.tsx:471-472 | the current bowler is a valid index into the innings' bowler list whenever a ball can be played |
| InningsSteps.InningsOverRaisesAlert | src/screens/MatchScreen.tsx:409-469 | when the target is reached, ten wickets are down or 120 balls are bowled, the state is unchanged apart from the innings alert, which ends the game in the second innings |
| InningsSteps.DisabledKeepsState | src/screens/MatchScreen.tsx:382 | with the Simulate button disabled a press changes nothing |
| InningsSteps.ExtraBall | src/screens/MatchScreen.tsx:702-709 | a wide or no ball adds one run to the innings and to the bowler and changes no ball count, batsman, pair or bowler |
| InningsSteps.LegalBall | src/screens/MatchScreen.tsx:516-524 | a legal ball adds one ball to the innings and to the bowler, with the wrap to a new over on the sixth ball, and no other bowler changes |
| InningsSteps.RunBall | src/screens/MatchScreen.tsx:527-720 | n runs go to the innings; the striker's and bowler's runs rise only without a leg bye; the striker faces one more ball; odd runs swap the ends, and a run off the last ball of an over swaps them once more and brings on the next lineup bowler (lines 712-720) |
| InningsSteps.Boundary | src/screens/MatchScreen.tsx:569-720 | a four or six adds 4 or 6 to the innings, the bowler and the striker, who faces one more ball and keeps strike within the over; off the last ball of an over the ends change and the next lineup bowler comes on (lines 712-720) |
| InningsSteps.WicketBall | src/screens/MatchScreen.tsx:627-700 | a wicket adds one to the innings' wickets and none to its runs, credits the bowler except for a run out, and raises the wicket alert |
| InningsSteps.DismissedEntries | src/screens/MatchScreen.tsx:653-685 | on the card the delivery leaves, the striker's entries are out with the dismissal text and one more ball, the incoming batsman's entries are active with their runs, and every other entry is unchanged |
| InningsSteps.NextBatsmanComesIn | src/screens/MatchScreen.tsx:664-696 | the next player in the order comes in as striker at aggression 3, the index advances, and the pending pair the alert restores holds the newcomer and the non-striker |
| InningsSteps.NoBatsmanLeft | src/screens/MatchScreen.tsx:664 | with the order exhausted no batsman comes in and the pending pair is untouched |
| InningsSteps.DotEndsOver | src/screens/MatchScreen.tsx:712-719 | a dot that completes an over swaps the ends, moves to the next bowler in the lineup (kept when that name is empty) and counts the ball |
| InningsSteps.WicketOnSixthBallKeepsEnds | src/screens/MatchScreen.tsx:688-719 | a wicket on the sixth ball swaps the ends on screen, but the alert's OK restores the pair from before the swap |
| InningsFacts.TotalUpdate | src/screens/MatchScreen.tsx:721 | writing one bowler record back changes a column total by that record's difference |
| InningsFacts.FreshInningValid | src/screens/MatchScreen.tsx:246-258 | a new innings satisfies the invariant |
| InningsFacts.InitValid | src/screens/MatchScreen.tsx:184-259 | the state after the first innings starts satisfies the invariant |
| InningsFacts.StartSecondInningsValid | src/screens/MatchScreen.tsx:315-379 | the state after the second innings starts satisfies the invariant |
| InningsFacts.EffectDeltas | src/screens/MatchScreen.tsx:526-710 | an outcome adds one wicket exactly for a wicket, at most that many to the bowler, and never more runs to the bowler than to the innings |
| InningsFacts.DeliverValid | src/screens/MatchScreen.tsx:381-729 | every delivery keeps the invariant: at most ten wickets and 120 balls, every bowler's balls below six, bowler balls adding up to the innings' balls, bowler wickets and runs at most the innings' |
| InningsFacts.BallValid | src/screens/MatchScreen.tsx:478-727 | a played ball keeps the invariant |
| InningsFacts.Bounds | src/screens/MatchScreen.tsx:403-432 | in a valid state the innings has at most 10 wickets and 120 balls, and every bowler fewer than six balls in the over |
| MatchResult.ReadBodyOf | src/screens/MatchSummaryScreen.tsx:59-65 | the `<winner> won by <n>` part of a result line reads back to the winner and the number |
| MatchResult.ReadLineOf | src/screens/MatchSummaryScreen.tsx:63-65 | a full result line reads back to the winner, which side won and the margin |
| MatchResult.WinTextReadsBack | src/screens/MatchSummaryScreen.tsx:55-65 | the result line names the winner (the first side exactly when it scored more), which side won and the margin, runs or wickets left |
| MatchResult.TieGoesToSecondSide | src/screens/MatchSummaryScreen.tsx:55-64 | with equal scores the side batting second is named the winner, by ten minus its wickets |
| MatchResult.Standing | src/screens/MatchSummaryScreen.tsx:67-80 | the winner's name with the runs per over it scored minus the runs per over it conceded (an opponent that faced nothing counts as one over), or 0 when the winner faced nothing |
| MatchResult.NrrOpposite | src/screens/MatchSummaryScreen.tsx:67-78 | when both sides faced a ball the two net run rates are opposite |
| MatchResult.AlertAgreesWithSummary | src/components/InningsAlert.tsx:37-45 | the innings alert computes the same difference and the same result line as the summary screen |
| MatchResult.RoundedOvers | src/components/InningsAlert.tsx:76-77 | `(ball / 6).toFixed(0)` is the whole number nearest balls/6, halves up |
| MatchResult.RoundedOversVsCompleted | src/components/InningsAlert.tsx:76-77 | the rounded figure equals the completed overs exactly in the first half of an over and is one more in the second half |
| MatchResult.FindStats | src/screens/MatchSummaryScreen.tsx:108-123 | `statsMap.get` finds the entry with that name, if any |
| MatchResult.AddRunsAt | src/screens/MatchSummaryScreen.tsx:106-119 | adding a batsman's runs credits that name only, keeps one entry per name and creates an entry when missing |
| MatchResult.AddWicketsAt | src/screens/MatchSummaryScreen.tsx:121-134 | adding a bowler's wickets credits that name only, keeps one entry per name and creates an entry when missing |
| MatchResult.MergeBattingAt | src/screens/MatchSummaryScreen.tsx:106-119 | after the batting pass each name holds its batting runs, its wickets are unchanged, and it has an entry exactly when it had one or batted |
| MatchResult.MergeBowlingAt | src/screens/MatchSummaryScreen.tsx:121-134 | after the bowling pass each name holds its wickets, its runs are unchanged, and it has an entry exactly when it had one or bowled |
| MatchResult.MergedStatsCorrect | src/screens/MatchSummaryScreen.tsx:88-136 | the merged stats have one entry per name for exactly the user's batsmen and bowlers, with their batting runs and bowling wickets |
| MatchResult.MergedEntries | src/screens/MatchSummaryScreen.tsx:104-136 | every merged entry carries its player's batting runs and bowling wickets |
| MatchResult.Eligible | src/screens/MatchSummaryScreen.tsx:170-173 | the candidates are exactly the winning innings' BOWL and AR batsmen |
| MatchResult.Candidates | src/screens/MatchSummaryScreen.tsx:174-194 | one score per eligible batsman, in batting order |
| MatchResult.BestIndex | src/screens/MatchSummaryScreen.tsx:198-200 | the reduce picks a candidate with the most points and no earlier one with as many |
| MatchResult.MotmOf | src/screens/MatchSummaryScreen.tsx:155-203 | no man of the match exactly when the second innings is missing or nobody is eligible; otherwise the earliest candidate with the most points |
| MatchResult.ScorePoints | src/screens/MatchSummaryScreen.tsx:163-192 | a candidate's points are runs plus 20 per wicket, because both wicket terms read the losing innings' bowlers |
| MatchResult.MotmPoints | src/screens/MatchSummaryScreen.tsx:163-200 | the man of the match has runs plus 20 points per wicket |
| MatchResult.UserWinsByScore | src/screens/MatchSummaryScreen.tsx:217-228 | the user's side won exactly when it outscored the opponent, or tied while batting second |
| MatchResult.ScoreAndStatsSameSide | src/screens/MatchSummaryScreen.tsx:217-228 | the score written to the fixture and the stats merge read the same innings for the user |
| Standings.RecordRow | src/database/standings.ts:159-180 | an update never changes a row's id, name, logo, colour or ties, and leaves rows of other teams alone |
| Standings.Record | src/database/standings.ts:161-180 | the statement applies the row update to every row and keeps the row count |
| Standings.RecordRows | src/database/standings.ts:159-180 | the winner's row gains a win, two points and +x; the loser's a loss and −x; any other row is unchanged |
| Standings.RowEffect | src/database/standings.ts:164-168 | the CASE expressions of one row: the winner's and the loser's changes |
| Standings.RecordSums | src/database/standings.ts:161-180 | the column sums grow by the number of winner rows (wins, twice that in points) and loser rows (losses); ties are unchanged |
| Standings.RecordNrr | src/database/standings.ts:168 | the net run rate sum gains x for a winner row and loses x for a loser row |
| Standings.RecordConserves | src/database/standings.ts:159-180 | with one row per side, a match adds one win, one loss and two points and leaves the ties and the net run rate sum unchanged |
| Standings.RecordKeepsPoints | src/database/standings.ts:161-180 | points stay twice the wins |
| Standings.RecordKeepsNames | src/database/standings.ts:161-180 | the names are unchanged |
| Standings.Insert | src/database/standings.ts:103-105 | inserting a row into the ordered list adds exactly that row |
| Standings.InsertOrdered | src/database/standings.ts:103-105 | inserting keeps the list ordered by points, then net run rate, descending |
| Standings.Sort | src/database/standings.ts:103-105 | the ordered list is a permutation of the table |
| Standings.SortOrdered | src/database/standings.ts:103-105 | the ordered list is sorted by points descending, then net run rate descending |
| Standings.InsertNamed | src/database/standings.ts:103-105 | inserting adds one row of that name |
| Standings.SortNamed | src/database/standings.ts:103-105 | sorting keeps the number of rows of every name |
| Standings.GetStandings | src/database/standings.ts:100-120 | one standing per row, in sorted order, with position = index + 1 |
| Standings.GetStandingsOrdered | src/database/standings.ts:103-116 | no later standing is better than an earlier one, and the rows are those of the table |
| Standings.NamedPositive | src/database/standings.ts:186-188 | a row's own name is counted |
| Standings.UniqueDistinct | src/database/standings.ts:186-188 | with unique names, two rows have different names |
| Standings.NamedSplit | src/database/standings.ts:186-188 | two rows with the same name make it counted twice |
| Standings.SortUnique | src/database/standings.ts:184-188 | sorting keeps the names unique |
| Standings.RecordUnique | src/database/standings.ts:161-180 | an update keeps the names unique |
| Standings.Remaining | src/database/standings.ts:186-188 | the remaining teams are exactly the names other than the two sides, without repeats when the names are distinct |
| Standings.Pairs | src/database/standings.ts:190-193 | consecutive pairs of the remaining teams; the odd team out is skipped |
| Standings.SimNrr | src/database/standings.ts:197 | a simulated net run rate change lies in [0.2, 2.0) |
| Standings.SimulateConserves | src/database/standings.ts:190-209 | the simulated matches add one win, one loss and two points each, leave the ties and the net run rate sum alone and keep the names |
| Standings.SimulateKeepsPoints | src/database/standings.ts:190-209 | points stay twice the wins through the simulated matches |
| Standings.IndexOfName | src/database/standings.ts:223-224 | `findIndex` by name: the first match, or −1 when none |
| Standings.RoundPairs | src/database/standings.ts:184-193 | there are no more simulated matches than rows |
| Standings.GameEndOf | src/database/standings.ts:212-235 | the season ends exactly when team1's row in the final order has played seven; the report gives team1's 1-based place and team2's place, 0 when team2 has no row |
| Standings.EndOfSorted | src/database/standings.ts:214-233 | the same report read off an already ordered table |
| Standings.UpdateStanding | src/database/standings.ts:150-240 | the report is read off the table after the round; with one row per team and a real fixture the round adds as many wins as losses (at least one), two points a win, no ties, and keeps the net run rate sum; two points a win survive |
| Standings.RoundFixtures | src/database/standings.ts:186-193 | with unique names, every simulated pair is two different teams of the table |
| Standings.RoundConserves | src/database/standings.ts:159-209 | a round adds as many wins as losses (at least one), two points per win, no ties, and leaves the net run rate sum unchanged |
| Standings.RoundKeepsPoints | src/database/standings.ts:159-209 | a round keeps points at twice the wins |
| Standings.GetUserPosition | src/database/standings.ts:122-148 | no user team gives none; otherwise the 1-based place of the first standing with that name, or none when no standing has it |
| Standings.GetTeamByPosition | src/database/standings.ts:242-267 | the team at the 1-based place of the ordered table with that position, none beyond the table, the leader for a place below 1 |
| Standings.ResetStats | src/database/standings.ts:269-295 | every row keeps its id, name, logo and colour and has all figures zeroed |
| Standings.ResetSums | src/database/standings.ts:283-295 | after a reset every column sums to zero, points are twice the wins and the names are unchanged |
| Fixtures.Opponents | src/database/fixturesDB.ts:68 | the opponents are the teams without the selected name |
| Fixtures.FindTeam | src/database/fixturesDB.ts:61 | the selected team's row, or none when no row has the name |
| Fixtures.InsertAll | src/database/fixturesDB.ts:70-78 | the existing rows are kept, and one new fixture per opponent is appended in order with consecutive ids |
| Fixtures.SetFixtures | src/database/fixturesDB.ts:56-81 | nothing is inserted for an unknown team; otherwise one incomplete fixture against each other team is appended in standings order |
| Fixtures.IncompleteAppend | src/database/fixturesDB.ts:70-78 | the incomplete count of two lists joined is the sum of their counts |
| Fixtures.InsertAllIncomplete | src/database/fixturesDB.ts:70-78 | inserting adds one incomplete fixture per opponent |
| Fixtures.SetFixturesAdds | src/database/fixturesDB.ts:56-81 | each call, a second one included, adds one incomplete fixture per other team |
| Fixtures.SetFixturesIds | src/database/fixturesDB.ts:70-78 | the ids stay increasing and below the next id |
| Fixtures.InsertAllIds | src/database/fixturesDB.ts:70-78 | inserting keeps the ids increasing |
| Fixtures.GetFixtures | src/database/fixturesDB.ts:83-97 | all fixtures, in ascending id order |
| Fixtures.FirstIncomplete | src/database/fixturesDB.ts:138-143 | the first incomplete row, or none when every row is complete |
| Fixtures.GetNextOpponent | src/database/fixturesDB.ts:99-118 | none exactly when no fixture is incomplete; otherwise the opponent of the incomplete fixture with the lowest id |
| Fixtures.IncompleteNone | src/database/fixturesDB.ts:106-111 | the incomplete count is zero exactly when every fixture is complete |
| Fixtures.MarkFirstIncomplete | src/database/fixturesDB.ts:120-149 | a no-op when all are complete; otherwise exactly the first incomplete row is completed with the five result fields, and every other row is unchanged |
| Fixtures.IncompleteUpdate | src/database/fixturesDB.ts:130-145 | replacing a row changes the incomplete count by the change in that row |
| Fixtures.MarkProgress | src/database/fixturesDB.ts:120-149 | marking keeps the ids ordered, lowers the incomplete count by exactly one when a fixture is pending, and never reopens a completed one |
| Fixtures.MarkedIsNextOpponent | src/database/fixturesDB.ts:99-145 | the fixture marked is the one whose opponent `GetNextOpponent` reported |
| Fixtures.InsertAllPlayedFirst | src/database/fixturesDB.ts:70-78 | appending incomplete fixtures keeps the completed ones before the pending ones |
| Fixtures.SetFixturesPlayedFirst | src/database/fixturesDB.ts:56-81 | setting fixtures keeps the completed ones before the pending ones |
| Fixtures.MarkPlayedFirst | src/database/fixturesDB.ts:130-145 | marking keeps the completed fixtures before the pending ones |
| PlayersDb.Seed | src/database/userPlayersDB.ts:72-111 | a no-op on a non-empty table; otherwise one row per player in order with position = index + 1 and missing counters as 0 |
| PlayersDb.Insert | src/database/userPlayersDB.ts:117 | inserting into the ordered list adds exactly that row |
| PlayersDb.Sort | src/database/userPlayersDB.ts:117 | the ordered list is a permutation of the table |
| PlayersDb.InsertByPosition | src/database/userPlayersDB.ts:117 | inserting keeps the list in position order |
| PlayersDb.SortByPosition | src/database/userPlayersDB.ts:117 | the ordered list runs in ascending position |
| PlayersDb.SortKeepsOrdered | src/database/userPlayersDB.ts:117 | a table already in position order is returned as it is |
| PlayersDb.GetPlayers | src/database/userPlayersDB.ts:113-129 | every row, in ascending position |
| PlayersDb.SeedThenGet | src/database/userPlayersDB.ts:72-129 | after seeding an empty table, reading returns the players in seed order, numbered from 1 |
| PlayersDb.UpdatePosition | src/database/userPlayersDB.ts:130-141 | only the position of the rows with that name changes |
| PlayersDb.FindEntry | src/database/userPlayersDB.ts:157-164 | the first row with the name, or none |
| PlayersDb.UpdateOne | src/database/userPlayersDB.ts:156-196 | a name not in the table changes nothing; no player record and no other row changes |
| PlayersDb.UpdateUserPlayers | src/database/userPlayersDB.ts:153-200 | the row count and every player record are kept |
| PlayersDb.UpdateOneUnique | src/database/userPlayersDB.ts:166-193 | with unique names, the named row gains one match, the runs delta and the wickets delta, in both the season and the career counters |
| PlayersDb.UpdateUserPlayersUnique | src/database/userPlayersDB.ts:153-200 | with unique names each row gains one match per mention and the summed runs and wickets deltas, season and career alike |
| PlayersDb.UpdateConsistent | src/database/userPlayersDB.ts:168-173 | with non-negative deltas, career figures stay at least the season figures |
| PlayersDb.ResetSeason | src/database/userPlayersDB.ts:202-219 | played, runs and wickets become 0 on every row, and the player and career figures are kept |
| PlayersDb.ResetConsistent | src/database/userPlayersDB.ts:206-211 | career figures stay at least the season figures after a reset |
| PlayersDb.Filter | src/database/userPlayersDB.ts:236-240 | exactly the rows whose role is listed for the discipline |
| PlayersDb.GetStatistics | src/database/userPlayersDB.ts:221-264 | exactly the rows listed for the discipline, in position order, each with runs, wickets, total runs or total wickets as asked |
| PlayersDb.CareerAtLeastSeason | src/database/userPlayersDB.ts:230-234 | in a consistent table the career list matches the season list row for row, and each season figure is at most the career figure |
| PlayersDb.ResetStatistics | src/database/userPlayersDB.ts:206-211 | after a reset every season figure reads 0 |
| Squad.Lookup | src/screens/SquadScreen.tsx:89-91 | `Map.get`: the value stored under the key, none when absent |
| Squad.MapSet | src/screens/SquadScreen.tsx:89-91 | `Map.set` keeps the key order, appending a new key at the end |
| Squad.MapSetLookup | src/screens/SquadScreen.tsx:89-91 | after setting, the key reads the new value and every other key its old one |
| Squad.MapSetDistinct | src/screens/SquadScreen.tsx:89-91 | setting keeps the keys distinct |
| Squad.Swapped | src/screens/SquadScreen.tsx:77-85 | the squad keeps its size |
| Squad.Press | src/screens/SquadScreen.tsx:66-96 | with no target the pressed player becomes the target; pressing the target clears it; pressing another player exchanges the two positions, changes nobody else and clears the target |
| Squad.PressRecords | src/screens/SquadScreen.tsx:89-95 | after a swap the changes record the new position of both players, and every other entry is unchanged |
| Squad.SwapMultiset | src/screens/SquadScreen.tsx:77-85 | exchanging two values keeps the multiset |
| Squad.PressPermutes | src/screens/SquadScreen.tsx:77-87 | a press keeps the multiset of positions |
| Squad.PressCoherent | src/screens/SquadScreen.tsx:66-96 | a press keeps the recorded changes in agreement with the positions shown |
| Squad.WriteBack | src/screens/SquadScreen.tsx:98-104 | writing the changes back keeps every row and name |
| Squad.WriteBackPositions | src/screens/SquadScreen.tsx:98-104 | a row whose name was changed gets the recorded position; every other row is unchanged |
| Squad.BackStoresScreen | src/screens/SquadScreen.tsx:98-104 | leaving the screen stores the position shown for each changed player |
| Squad.Rating | src/screens/SquadScreen.tsx:121-134 | batting for BAT and WK, bowling for BOWL, the floored mean otherwise, overridden by the Bat or Ball option |
| Squad.RatingBetween | src/screens/SquadScreen.tsx:121-134 | the rating shown lies between the two skills |
| Squad.Split | src/screens/SquadScreen.tsx:293-304 | sorted by position, the first eleven form the XI and the rest the bench, nobody on the bench ahead of the XI |
| MatchCenter.PlayingXI | src/screens/MatchCenterScreen.tsx:80-82 | exactly the players at positions 1 to 11 |
| MatchCenter.GotoToss | src/screens/MatchCenterScreen.tsx:79-112 | the toss opens exactly when the XI has eleven players, five BOWL/AR and a keeper; otherwise the first failed check, in the order size, bowlers, keeper, is reported |
| MatchCenter.PlayingXICount | src/screens/MatchCenterScreen.tsx:80-82 | the XI's size is the number of positions in 1..11 |
| MatchCenter.NumberedSquadHasEleven | src/screens/MatchCenterScreen.tsx:80-99 | a squad numbered 1..n with n ≥ 11 always passes the size check |
| MatchCenter.SeedNumbers | src/database/userPlayersDB.ts:85-98 | seeding numbers the squad 1..n |
| MatchCenter.SwapKeepsEleven | src/screens/MatchCenterScreen.tsx:80-99 | swapping positions on the squad screen keeps an eleven-player XI |
| Toss.TossResult | src/screens/TossScreen.tsx:77-97 | the user wins exactly when the call matches the flip, with no choice yet; otherwise the opponent wins and bats on a draw below 0.5 |
| Toss.CallWinsHalf | src/screens/TossScreen.tsx:77-87 | heads wins on a flip below 0.5, tails on the rest |
| Toss.BatBallChoice | src/screens/TossScreen.tsx:158-164 | without a toss nothing happens; otherwise the winner is kept and the choice set |
| Toss.WhoBatsFirst | src/screens/TossScreen.tsx:87-97 | a user who wins the toss bats exactly by choosing to bat; after a lost toss the user bats exactly when the opponent chose to bowl |
| Toss.OverallRating | src/screens/TossScreen.tsx:129-131 | the mean of the two skills |
| Toss.TeamRatingNonNegative | src/screens/TossScreen.tsx:137-142 | non-negative skills give a non-negative team rating |
| Toss.Percentage | src/screens/TossScreen.tsx:144-148 | 50 when the ratings add up to 0, otherwise the floored share in percent |
| Toss.PercentageBounds | src/screens/TossScreen.tsx:144-148 | for non-negative ratings the percentage lies in 0..100 |
| Toss.PercentagesComplement | src/screens/TossScreen.tsx:144-148 | the two sides' percentages add up to 99 or 100 |
| Toss.WinPercentageBounds | src/screens/TossScreen.tsx:133-149 | the win percentage is in 0..100, and 100 against a missing opponent list |
| ActivePlayerSection.ChangeAggression | src/screens/MatchScreen.tsx:860-871 | the player at that end gets the level and the other end is unchanged; an empty end stays empty |
| ActivePlayerSection.ChangeAggressionAgrees | src/screens/MatchScreen.tsx:860-871 | the buttons' level change and the match screen's handler give the same state |
| ActivePlayerSection.Increase | src/components/ActivePlayerSection.tsx:38-41 | the level rises by one only below 5 and the other end is unchanged |
| ActivePlayerSection.Decrease | src/components/ActivePlayerSection.tsx:43-46 | the level falls by one only above 0 and the other end is unchanged |
| ActivePlayerSection.ButtonsKeepRange | src/components/ActivePlayerSection.tsx:38-46 | both buttons keep the levels in 0..5 |
| ActivePlayerSection.IncreaseDecrease | src/components/ActivePlayerSection.tsx:38-46 | a decrease undoes an increase from below 5, and an increase undoes a decrease from above 0 |
| ActivePlayerSection.AggressionText | src/components/ActivePlayerSection.tsx:48-64 | the label is empty exactly for a missing or zero level |
| ActivePlayerSection.LabelsDistinct | src/components/ActivePlayerSection.tsx:52-62 | the five levels have five different labels |
| FieldingSelection.Allowed | src/components/FieldingSelection.tsx:19-35 | two settings before over 6 and six afterwards, all of them from the full list |
| FieldingSelection.Pick | src/components/FieldingSelection.tsx:50-59 | the value handed back is one of those offered, an attacking one before over 6 |
| FieldingSelection.PowerplayOffersAttacking | src/components/FieldingSelection.tsx:19-35 | before over 6 every setting offered reads as attacking |
| FieldingSelection.LaterOversOfferEveryKind | src/components/FieldingSelection.tsx:21-35 | from over 6 the rows read attacking, attacking, neutral, neutral, defensive, defensive |
| FieldingSelection.SyncFieldingFollowsPhase | src/screens/MatchScreen.tsx:272-290 | the screen's own setting is one of the six; while the opponent bowls its kind follows the phase, and when the user bowls it is attacking |
| ScoreBoard.Shown | src/components/ScoreBoard.tsx:27-29 | the first tab shows the first innings; the second shows nothing until that innings exists |
| ScoreBoard.Keep | src/components/ScoreBoard.tsx:40-48 | `filter`: exactly the entries passing the test, in order |
| ScoreBoard.Batting | src/components/ScoreBoard.tsx:40-42 | the table holds only players at the crease or out, in card order |
| ScoreBoard.YetToBat | src/components/ScoreBoard.tsx:44 | the "Yet to Bat" line holds only inactive players, in card order |
| ScoreBoard.BattingPartition | src/components/ScoreBoard.tsx:40-44 | every player on the card appears exactly once, in the table or on the "Yet to Bat" line |
| ScoreBoard.ListedBowlers | src/components/ScoreBoard.tsx:46-48 | exactly the bowlers with a legal ball, in order |
| ScoreBoard.ExtrasOnlyBowlerHidden | src/components/ScoreBoard.tsx:46-48 | a bowler with only wides and no balls is not listed |
| ScoreBoard.ListedIffLegalBall | src/components/ScoreBoard.tsx:46-48 | a bowler is listed exactly when a legal ball has been bowled |
| ScoreBoard.HalfUp | src/components/ScoreBoard.tsx:172-173 | the whole number nearest n/d, halves up |
| ScoreBoard.ToFixed0 | src/components/ScoreBoard.tsx:122 | `toFixed(0)`: a minus sign exactly for a negative numerator, then digits that read back to the whole number nearest the magnitude of num/den, halves up |
| ScoreBoard.HeaderOvers | src/components/ScoreBoard.tsx:122-123 | the header's over figure is the rounded over count, a point and balls mod 6 |
| ScoreBoard.HalfUpOfSixth | src/components/ScoreBoard.tsx:122 | rounding a sixth halves up is adding three before dividing |
| ScoreBoard.HeaderMatchesAlert | src/components/ScoreBoard.tsx:122-123 | the header shows the same over figure as the innings alert |
| ScoreBoard.HeaderVsBallsToOver | src/components/ScoreBoard.tsx:122-123 | the header agrees with `ballsToOver` exactly in the first half of an over |
| ScoreBoard.SameOverTail | src/components/ScoreBoard.tsx:122-123 | two over figures ending in the same ball digit are equal exactly when their over counts are |
| ScoreBoard.Render | src/components/ScoreBoard.tsx:88-93 | "Innings not started" exactly for the second tab before that innings; otherwise the card splits the batsmen into the two lists and lists only bowlers with a legal ball |
| ScoreBoard.OversDecimalIsBallsToOver | src/components/ScoreBoard.tsx:210 | with the ball counter in 0..5 the bowler's overs column equals `ballsToOver` of the bowler's legal balls |
| ScoreBoard.StrikeRate | src/components/ScoreBoard.tsx:172-174 | '0.0' before the first ball; otherwise 100·runs/balls rounded to a whole number |
| ScoreBoard.StrikeRatePlaceholderDistinct | src/components/ScoreBoard.tsx:172-174 | the placeholder never equals a computed strike rate |
| ScoreBoard.Economy | src/components/ScoreBoard.tsx:211-215 | no figure exactly before the first legal ball; otherwise six times the runs per legal ball |
| ScoreBoard.ListedHaveEconomy | src/components/ScoreBoard.tsx:209-215 | every listed bowler has an economy figure |
| SeasonSummary.EndSeason | src/screens/SeasonSummaryScreen.tsx:53-78 | without a leader nothing happens; otherwise the leader is recorded, the next year opened and the three resets done, in that order |
| SeasonSummary.EndSeasonRecordsChampion | src/screens/SeasonSummaryScreen.tsx:57-74 | the champion recorded is the leader of the finished table; afterwards every team stands on zero points and the players keep their career runs |
| SeasonSummary.EndSeasonConsistent | src/screens/SeasonSummaryScreen.tsx:72-73 | ending a season keeps career figures at least the season figures |
| SeasonSummary.FindTeam | src/screens/SeasonSummaryScreen.tsx:92 | `find` by name: the first entry with the name, or none |
| SeasonSummary.YouWonIffChampion | src/screens/SeasonSummaryScreen.tsx:89-100 | the user is congratulated exactly when the season has ended with the user's side on top of the final table |
| SeasonSummary.Reduce | src/screens/SeasonSummaryScreen.tsx:121 | the reduce keeps the first entry with the largest figure |
| SeasonSummary.Top | src/screens/SeasonSummaryScreen.tsx:120-126 | none exactly for an empty list; otherwise the first entry holding the largest figure |
| SeasonSummary.ListedInStatistics | src/screens/SeasonSummaryScreen.tsx:117-118 | every listed player of the table is among the statistics |
| SeasonSummary.StatisticsFromTable | src/screens/SeasonSummaryScreen.tsx:117-118 | every statistic is a listed row of the table with its season figure |
| SeasonSummary.StatisticsByPosition | src/screens/SeasonSummaryScreen.tsx:117-118 | the statistics run in position order |
| SeasonSummary.TopPerformer | src/screens/SeasonSummaryScreen.tsx:114-130 | the pick is a player of the discipline with the most season runs or wickets, no such player with as many stands ahead of it, and there is a pick exactly when the table has such a player |
| Dashboard.PositionText | src/screens/DashboardScreen.tsx:85-99 | never empty; '-' exactly for a missing or zero place; '1ST', '2ND', '3RD'; any other value, negatives included, is its number followed by 'th' |
| Dashboard.PositionTextRoundTrip | src/screens/DashboardScreen.tsx:85-99 | every place from 1 reads back from its text, and a missing place reads as none |
| Dashboard.PositionTextInjective | src/screens/DashboardScreen.tsx:85-99 | different places show different texts |
| Club.TeamAverage | src/screens/ClubScreen.tsx:60-64 | none for an empty squad, otherwise the floor of the mean rating |
| Club.SumWithin | src/screens/ClubScreen.tsx:60 | n ratings within [lo, hi] add up to a total within [n·lo, n·hi] |
| Club.AverageBetween | src/screens/ClubScreen.tsx:60-64 | when every rating lies between two whole numbers, so does the average |
| Club.AverageAmongRatings | src/screens/ClubScreen.tsx:60-64 | in bat or ball mode the average lies between the lowest and the highest rating of the squad |
| Club.MinIndex | src/screens/ClubScreen.tsx:49-58 | a player holding the lowest rating |
| Club.MaxIndex | src/screens/ClubScreen.tsx:49-58 | a player holding the highest rating |

## Left out

- Commentary text (`getBallCommentary`, the `COMMENTARY` tables and the random pick among lines) is not modelled; only the result token is.
- The match screen's ball token strip (`getBallToken` and the last-six-balls list) is display only and is not modelled.
- Run-rate, required-rate and "runs to win" subtitles of the match screen, and the subtitle timer, are display only and are left out.
- Floating point: weights, ratings, net run rates and economies are exact reals; `toFixed(2)` digits and `parseFloat(x.toFixed(2))` rounding of the simulated net run rate change are not modelled.
- ScoreBoard.Economy: gives the exact real rate, not the two-digit text `toFixed(2)` prints.
- The order SQL gives rows tied on every ORDER BY column is not fixed by the database; the model uses a stable insertion sort over the rows in id order.
- Database errors and the `catch` blocks that log them are not modelled; every statement succeeds.
- `Promise.all` fan-out in `seedPlayers` and `updateUserPlayers`, and the season-end resets racing the top-performer load on the season summary screen, are modelled as sequential calls.
- React state batching and stale closures are not modelled: each handler reads the model state it is given.
- `seedTeams`, table creation and dropping, and the `getDB` singletons are storage plumbing and are left out.
- `HistoryDB.updateWinner`, `HistoryDB.setOngoing` and `FixturesDB.resetFixturesStats` are not part of this model; the season end logs them as opaque calls in order.
- An empty squad, lineup or club gives `NaN` in the source where the model gives no value (`None`).
- The `default` branch of `getOutType` (text 'out') cannot be reached with the four wicket kinds of the model's datatype.
- MatchHelper.GetFieldingType: lower-cases ASCII letters only, where `toLowerCase` folds all of Unicode; every setting the app passes is one of the six ASCII fielding names, on which the two agree.
- Animations, music, modals, tab navigation and the coin spin are user interface only.
- Generator.PhasePass: the contract names only the weights the first phase switch leaves alone; the exact deltas are in its body and are used through `PowerplaySixWeightNegative` and `WicketFloorNotFinal`.
- Generator.SecondPhasePass: the contract names only the weights the second phase switch leaves alone, for the same reason.
- Innings.Deliver: its own contract covers only the case where no ball is played; the played cases are stated by the `InningsSteps` lemmas (extras, legal balls, runs and boundaries with or without the end of an over, wickets, dot balls ending an over) and the invariant by `InningsFacts.DeliverValid`.
- InningsStart.OpeningPair: with a batting order shorter than two, the model has no right-hand batter at all, so `Innings.Playable` is false and no ball is played. The source still builds a right-hand object whose player is undefined, which passes the check at MatchScreen.tsx:474-476. The user's side reaches the toss only with an eleven-player XI (`MatchCenter.GotoToss`).
- Innings.SyncFielding: its own contract states only that nothing but the fielding changes; which setting it chooses is stated by `FieldingSelection.SyncFieldingFollowsPhase`.
- PlayersDb.UpdateUserPlayersUnique: the per-row sums are stated only for tables with unique player names. It is assumed that the predefined squads the app seeds have distinct names; nothing in the storage layer enforces it. With a repeated name, every row with that name is set to the first row's counters plus the delta, as `PlayersDb.UpdateOne` states.
- ActivePlayerSection.IncreaseDecrease: the round trip is stated for levels within 0..5, the only levels the buttons can produce.

=== FILE: active_player.dfy ===
/** The aggression buttons of the batting pair
    (`src/components/ActivePlayerSection.tsx`) and the handler of the match
    screen that stores the new level on the player at that end
    (`src/screens/MatchScreen.tsx`). */
module ActivePlayerSection {
  import opened Common
  import opened Innings

  datatype End = LeftEnd | RightEnd

  function At(p: Pair, e: End): Option<ActivePlayer> {
    match e
    case LeftEnd => p.left
    case RightEnd => p.right
  }

  /** `activePlayers[side]?.aggression || 0`. */
  function Current(p: Pair, e: End): int {
    match At(p, e)
    case None => 0
    case Some(a) => a.aggression
  }

  /** `onChangeAggression`: sets the level of the player at that end; an
      empty end stays empty. */
  function ChangeAggression(p: Pair, e: End, level: int): (r: Pair)
    ensures At(r, e).None? <==> At(p, e).None?
    ensures At(p, e).Some? ==> At(r, e) == Some(At(p, e).value.(aggression := level))
    ensures At(r, Other(e)) == At(p, Other(e))
  {
    match e
    case LeftEnd => if p.left.None? then p else p.(left := Some(p.left.value.(aggression := level)))
    case RightEnd => if p.right.None? then p else p.(right := Some(p.right.value.(aggression := level)))
  }

  /** The buttons' handler and the match screen's `onChangeAggression`
      are one operation: the screen stores exactly the pair this gives. */
  lemma ChangeAggressionAgrees(s: MatchState, e: End, level: int)
    ensures Innings.ChangeAggression(s, e == LeftEnd, level) == s.(active := ChangeAggression(s.active, e, level))
  {
  }

  function Other(e: End): End {
    if e == LeftEnd then RightEnd else LeftEnd
  }

  /** `handleIncrease`: one more, up to 5. */
  function Increase(p: Pair, e: End): (r: Pair)
    ensures At(r, Other(e)) == At(p, Other(e))
    ensures At(p, e).Some? ==>
      At(r, e) == Some(At(p, e).value.(aggression := if Current(p, e) < 5 then Current(p, e) + 1 else Current(p, e)))
    ensures At(p, e).None? ==> r == p
  {
    var c := Current(p, e);
    if c < 5 then ChangeAggression(p, e, c + 1) else p
  }

  /** `handleDecrease`: one less, down to 0. */
  function Decrease(p: Pair, e: End): (r: Pair)
    ensures At(r, Other(e)) == At(p, Other(e))
    ensures At(p, e).Some? ==>
      At(r, e) == Some(At(p, e).value.(aggression := if Current(p, e) > 0 then Current(p, e) - 1 else Current(p, e)))
    ensures At(p, e).None? ==> r == p
  {
    var c := Current(p, e);
    if c > 0 then ChangeAggression(p, e, c - 1) else p
  }

  predicate InRange(p: Pair) {
    0 <= Current(p, LeftEnd) <= 5 && 0 <= Current(p, RightEnd) <= 5
  }

  /** Starting in 0..5, neither button leaves that range. */
  lemma ButtonsKeepRange(p: Pair, e: End)
    requires InRange(p)
    ensures InRange(Increase(p, e)) && InRange(Decrease(p, e))
  {
    assert Other(Other(e)) == e;
  }

  /** Within 0..5, a press up and a press down cancel out below the top,
      and a press down and a press up above the bottom. */
  lemma IncreaseDecrease(p: Pair, e: End)
    requires At(p, e).Some?
    ensures 0 <= Current(p, e) < 5 ==> Decrease(Increase(p, e), e) == p
    ensures 0 < Current(p, e) <= 5 ==> Increase(Decrease(p, e), e) == p
  {
    var a := At(p, e).value;
    if 0 <= a.aggression < 5 {
      var q := Increase(p, e);
      assert At(q, e) == Some(a.(aggression := a.aggression + 1));
      assert Current(q, e) == a.aggression + 1;
      assert At(Decrease(q, e), e) == Some(a.(aggression := a.aggression + 1).(aggression := a.aggression));
      assert a.(aggression := a.aggression + 1).(aggression := a.aggression) == a;
      SameEnds(Decrease(q, e), p, e);
    }
    if 0 < a.aggression <= 5 {
      var q := Decrease(p, e);
      assert At(q, e) == Some(a.(aggression := a.aggression - 1));
      assert Current(q, e) == a.aggression - 1;
      assert At(Increase(q, e), e) == Some(a.(aggression := a.aggression - 1).(aggression := a.aggression));
      assert a.(aggression := a.aggression - 1).(aggression := a.aggression) == a;
      SameEnds(Increase(q, e), p, e);
    }
  }

  /** A pair is determined by its two ends. */
  lemma SameEnds(x: Pair, y: Pair, e: End)
    requires At(x, e) == At(y, e) && At(x, Other(e)) == At(y, Other(e))
    ensures x == y
  {
  }

  /** `getAgressioText`: empty for a missing or zero level, a label for
      1..5, and 'neutral' for anything else. */
  function AggressionText(a: Option<int>): (s: string)
    ensures s == "" <==> a.None? || a == Some(0)
  {
    match a
    case None => ""
    case Some(n) =>
      if n == 0 then ""
      else if n == 1 then "Very Deffensive"
      else if n == 2 then "Deffensive"
      else if n == 3 then "Neutral"
      else if n == 4 then "Agressive"
      else if n == 5 then "Very Agressive"
      else "neutral"
  }

  /** The five levels have five different labels. */
  lemma LabelsDistinct(a: int, b: int)
    requires 1 <= a <= 5 && 1 <= b <= 5 && a != b
    ensures AggressionText(Some(a)) != AggressionText(Some(b))
  {
  }
}

=== FILE: club.dfy ===
/** The team ratings of the club screen (`src/screens/ClubScreen.tsx`,
    `returnAverageRating`): one rating per player in squad order and the
    floored mean of them. */
module Club {
  import opened Common

  datatype Mode = Ovr | BatMode | BallMode

  /** The rating of one player under a mode. */
  function RatingOf(p: Player, m: Mode): real {
    match m
    case Ovr => (p.batting + p.bowling) as real / 2.0
    case BatMode => p.batting as real
    case BallMode => p.bowling as real
  }

  /** `item.players.map(...)`. */
  function Ratings(ps: seq<Player>, m: Mode): (r: seq<real>)
    ensures |r| == |ps|
    ensures forall i :: 0 <= i < |ps| ==> r[i] == RatingOf(ps[i], m)
    ensures m == Ovr ==> forall i :: 0 <= i < |ps| ==> 2.0 * r[i] == (ps[i].batting + ps[i].bowling) as real
    ensures m == BatMode ==> forall i :: 0 <= i < |ps| ==> r[i] == ps[i].batting as real
    ensures m == BallMode ==> forall i :: 0 <= i < |ps| ==> r[i] == ps[i].bowling as real
  {
    seq(|ps|, i requires 0 <= i < |ps| => RatingOf(ps[i], m))
  }

  function Sum(r: seq<real>): real {
    if |r| == 0 then 0.0 else r[0] + Sum(r[1..])
  }

  /** `Math.floor(sum / length)`; an empty squad gives no number. */
  function TeamAverage(ps: seq<Player>, m: Mode): (a: Option<int>)
    ensures a.None? <==> |ps| == 0
    ensures a.Some? ==>
      var mean := Sum(Ratings(ps, m)) / |ps| as real;
      a.value as real <= mean < a.value as real + 1.0
  {
    if |ps| == 0 then None
    else Some((Sum(Ratings(ps, m)) / |ps| as real).Floor)
  }

  /** Every rating is at least `lo` and at most `hi`. */
  predicate Within(r: seq<real>, lo: real, hi: real) {
    forall i :: 0 <= i < |r| ==> lo <= r[i] <= hi
  }

  lemma {:induction false} SumWithin(r: seq<real>, lo: real, hi: real)
    requires Within(r, lo, hi)
    ensures |r| as real * lo <= Sum(r) <= |r| as real * hi
    decreases |r|
  {
    if |r| > 0 {
      assert Within(r[1..], lo, hi) by {
        forall i | 0 <= i < |r[1..]| ensures lo <= r[1..][i] <= hi {
          assert r[1..][i] == r[i + 1];
        }
      }
      SumWithin(r[1..], lo, hi);
      assert lo <= r[0] <= hi;
    }
  }

  /** In the bat and ball modes the ratings are whole numbers, so the
      average lies between the lowest and the highest rating of the
      squad; in the overall mode it lies between the floor of the lowest
      and the highest. */
  lemma AverageBetween(ps: seq<Player>, m: Mode, lo: int, hi: int)
    requires |ps| > 0
    requires forall i :: 0 <= i < |ps| ==> lo as real <= RatingOf(ps[i], m) <= hi as real
    ensures lo <= TeamAverage(ps, m).value <= hi
  {
    var r := Ratings(ps, m);
    RatingsWithin(ps, m, lo as real, hi as real);
    SumWithin(r, lo as real, hi as real);
    var a := (Sum(r) / |r| as real).Floor;
    assert TeamAverage(ps, m) == Some(a);
    FloorOfMeanWithin(Sum(r), |r|, lo, hi, a);
  }

  lemma RatingsWithin(ps: seq<Player>, m: Mode, lo: real, hi: real)
    requires forall i :: 0 <= i < |ps| ==> lo <= RatingOf(ps[i], m) <= hi
    ensures Within(Ratings(ps, m), lo, hi)
  {
  }

  /** A whole number at most a mean of values in `lo..hi` and within one
      of it lies in `lo..hi` too. */
  lemma FloorOfMeanWithin(s: real, n: nat, lo: int, hi: int, a: int)
    requires n > 0 && n as real * lo as real <= s <= n as real * hi as real
    requires a == (s / n as real).Floor
    ensures lo <= a <= hi
  {
    MeanWithin(s, n as real, lo as real, hi as real);
  }

  lemma MeanWithin(s: real, n: real, lo: real, hi: real)
    requires n > 0.0 && n * lo <= s <= n * hi
    ensures lo <= s / n <= hi
  {
    assert s / n * n == s;
  }

  /** Some player holds the lowest rating and some the highest, so the
      average is never below every rating nor above every rating. */
  lemma AverageAmongRatings(ps: seq<Player>, m: Mode)
    requires |ps| > 0 && m != Ovr
    ensures exists i :: 0 <= i < |ps| && RatingOf(ps[i], m) <= TeamAverage(ps, m).value as real
    ensures exists i :: 0 <= i < |ps| && TeamAverage(ps, m).value as real <= RatingOf(ps[i], m)
  {
    var lo, hi := MinIndex(ps, m), MaxIndex(ps, m);
    var l := if m == BatMode then ps[lo].batting else ps[lo].bowling;
    var h := if m == BatMode then ps[hi].batting else ps[hi].bowling;
    AverageBetween(ps, m, l, h);
  }

  /** A player with the lowest rating. */
  function MinIndex(ps: seq<Player>, m: Mode): (k: nat)
    requires |ps| > 0
    ensures k < |ps| && forall i :: 0 <= i < |ps| ==> RatingOf(ps[k], m) <= RatingOf(ps[i], m)
  {
    if |ps| == 1 then 0
    else
      var j := MinIndex(ps[1..], m) + 1;
      assert forall i :: 1 <= i < |ps| ==> ps[1..][i - 1] == ps[i];
      if RatingOf(ps[0], m) <= RatingOf(ps[j], m) then 0 else j
  }

  /** A player with the highest rating. */
  function MaxIndex(ps: seq<Player>, m: Mode): (k: nat)
    requires |ps| > 0
    ensures k < |ps| && forall i :: 0 <= i < |ps| ==> RatingOf(ps[i], m) <= RatingOf(ps[k], m)
  {
    if |ps| == 1 then 0
    else
      var j := MaxIndex(ps[1..], m) + 1;
      assert forall i :: 1 <= i < |ps| ==> ps[1..][i - 1] == ps[i];
      if RatingOf(ps[0], m) >= RatingOf(ps[j], m) then 0 else j
  }
}

=== FILE: common.dfy ===
/** Shared vocabulary of the model: optional values, results, the player
    record every screen passes around, and small sequence helpers. */
module Common {

  /** A value that may be absent (`null` / `undefined` in the source). */
  datatype Option<+T> = None | Some(value: T) {
    function GetOr(default: T): T {
      match this
      case Some(v) => v
      case None => default
    }
  }

  /** A value or an error (a thrown `Error` in the source). */
  datatype Result<+T, +E> = Ok(value: T) | Err(error: E)

  /** Player roles. The source stores a free string; the four named roles
      are the ones every filter tests, anything else is kept verbatim. */
  datatype Role = Bat | Bowl | AllRounder | Keeper | OtherRole(tag: string)

  /** The `Player` interface of `src/types/match.ts`. */
  datatype Player = Player(
    name: string,
    role: Role,
    orderType: string,
    isCaptain: bool,
    batting: int,
    bowling: int,
    bowlingType: Option<string>,
    position: int)

  /** BOWL or AR: the roles allowed to bowl. */
  predicate CanBowl(r: Role) {
    r == Bowl || r == AllRounder
  }

  /** Number of entries of `s` equal to `x`. */
  function Count<T(==)>(s: seq<T>, x: T): (n: nat)
    ensures n <= |s|
    ensures n == multiset(s)[x]
  {
    if |s| == 0 then 0
    else
      assert s == [s[0]] + s[1..];
      (if s[0] == x then 1 else 0) + Count(s[1..], x)
  }

  /** The names of a list of players, in order. */
  function Names(ps: seq<Player>): (ns: seq<string>)
    ensures |ns| == |ps|
  {
    if |ps| == 0 then [] else [ps[0].name] + Names(ps[1..])
  }

  lemma {:induction false} NamesAt(ps: seq<Player>, i: nat)
    requires i < |ps|
    ensures Names(ps)[i] == ps[i].name
    decreases i
  {
    if i > 0 {
      NamesAt(ps[1..], i - 1);
    }
  }

  lemma {:induction false} NamesAppend(a: seq<Player>, b: seq<Player>)
    ensures Names(a + b) == Names(a) + Names(b)
    decreases |a|
  {
    if |a| == 0 {
      assert a + b == b;
    } else {
      assert (a + b)[1..] == a[1..] + b;
      NamesAppend(a[1..], b);
    }
  }

  /** No two entries are equal. */
  predicate Distinct<T(==)>(s: seq<T>) {
    forall i, j :: 0 <= i < j < |s| ==> s[i] != s[j]
  }

  /** The index of a uniform draw `d` in [0,1) over `n` choices:
      `Math.floor(Math.random() * n)`. */
  function DrawIndex(d: real, n: nat): (k: nat)
    requires 0.0 <= d < 1.0
    requires n > 0
    ensures k < n
  {
    var x := d * (n as real);
    assert 0.0 <= x < n as real;
    x.Floor
  }

  /** A zero draw picks the first choice. */
  lemma DrawIndexZero(n: nat)
    requires n > 0
    ensures DrawIndex(0.0, n) == 0
  {
    assert 0.0 * (n as real) == 0.0;
  }
}

=== FILE: dashboard.dfy ===
/** The league position shown on the dashboard
    (`src/screens/DashboardScreen.tsx`, `returnUserPosition`). */
module Dashboard {
  import opened Common
  import opened Text

  /** '-' for a missing or zero position, '1ST', '2ND' and '3RD' for the
      podium, and the number followed by a lower-case 'th' for any other
      value, negative ones included. */
  function PositionText(position: Option<int>): (s: string)
    ensures |s| > 0
    ensures s == "-" <==> position.None? || position == Some(0)
    ensures position == Some(1) ==> s == "1ST"
    ensures position == Some(2) ==> s == "2ND"
    ensures position == Some(3) ==> s == "3RD"
    ensures position.Some? && position.value !in {0, 1, 2, 3} ==>
      |s| >= 3 && s[|s| - 2..] == "th" && s[..|s| - 2] == IntToString(position.value)
  {
    match position
    case None => "-"
    case Some(n) =>
      if n == 0 then "-"
      else if n == 1 then "1ST"
      else if n == 2 then "2ND"
      else if n == 3 then "3RD"
      else
        var s := IntToString(n) + "th";
        assert s[..|s| - 2] == IntToString(n);
        s
  }

  /** Reads a place back from its text; '-' and anything unrecognised
      read as no place. */
  function ReadPosition(s: string): Option<nat> {
    if s == "1ST" then Some(1)
    else if s == "2ND" then Some(2)
    else if s == "3RD" then Some(3)
    else if |s| > 2 && s[|s| - 2..] == "th" && AllDigits(s[..|s| - 2]) then Some(ParseNat(s[..|s| - 2]))
    else None
  }

  /** Every place from 1 upwards reads back from its text, and a missing
      place reads as none. */
  lemma PositionTextRoundTrip(n: nat)
    ensures n > 0 ==> ReadPosition(PositionText(Some(n))) == Some(n)
    ensures ReadPosition(PositionText(None)) == None
  {
    if n > 3 {
      var s := PositionText(Some(n));
      assert s[..|s| - 2] == NatToString(n);
      ParseNatToString(n);
    }
  }

  /** Different places show different texts. */
  lemma PositionTextInjective(a: nat, b: nat)
    requires a > 0 && b > 0 && PositionText(Some(a)) == PositionText(Some(b))
    ensures a == b
  {
    PositionTextRoundTrip(a);
    PositionTextRoundTrip(b);
  }
}

=== FILE: fielding_selection.dfy ===
/** The fielding picker (`src/components/FieldingSelection.tsx`): in the
    first six overs only the two attacking settings are offered, later all
    six; the value handed back is the one pressed. */
module FieldingSelection {
  import opened Common
  import opened Text
  import opened Generator
  import opened MatchHelper
  import Innings

  const AttackingFieldings: seq<string> := ["Attacking 1", "Attacking 2"]

  const AllFieldings: seq<string> :=
    ["Attacking 1", "Attacking 2", "Neutral 1", "Neutral 2", "Defensive 1", "Defensive 2"]

  /** `over < 6 ? ATTACKING_FIELDINGS : ALL_FIELDINGS`. */
  function Allowed(over: int): (r: seq<string>)
    ensures over < 6 ==> |r| == 2
    ensures over >= 6 ==> |r| == 6
    ensures forall i :: 0 <= i < |r| ==> r[i] in AllFieldings
  {
    if over < 6 then AttackingFieldings else AllFieldings
  }

  /** Pressing the `k`-th row hands its setting to `onOk`. */
  function Pick(over: int, k: nat): (r: string)
    requires k < |Allowed(over)|
    ensures r in Allowed(over)
    ensures over < 6 ==> r in AttackingFieldings
  {
    Allowed(over)[k]
  }

  lemma AttackingLower(n: char)
    requires n == '1' || n == '2'
    ensures GetFieldingType("Attacking " + [n]) == Attacking
  {
    var s := "Attacking " + [n];
    assert ToLower(s) == "attacking " + [n];
    assert ToLower(s)[..9] == "attacking";
  }

  /** In the powerplay every setting offered reads as attacking to the
      ball generator. */
  lemma PowerplayOffersAttacking(over: int, k: nat)
    requires over < 6 && k < |Allowed(over)|
    ensures GetFieldingType(Pick(over, k)) == Attacking
  {
    assert Pick(over, k) == AllFieldings[k];
    RowKind(k);
  }

  /** No occurrence of `sub` can start at an offset whose character is not
      the first of `sub`. */
  lemma NoOccurrence(s: string, sub: string)
    requires |sub| > 0
    requires forall i :: 0 <= i && i + |sub| <= |s| ==> s[i] != sub[0]
    ensures !Contains(s, sub)
  {
    ContainsAt(s, sub);
    forall i ensures !OccursAt(s, sub, i) {
      if 0 <= i && i + |sub| <= |s| {
        assert s[i..i + |sub|][0] == s[i];
      }
    }
  }

  lemma NeutralLower(n: char)
    requires n == '1' || n == '2'
    ensures GetFieldingType("Neutral " + [n]) == NeutralField
  {
    var s := "Neutral " + [n];
    assert ToLower(s) == "neutral " + [n];
    NoOccurrence(ToLower(s), "attacking");
    NoOccurrence(ToLower(s), "defensive");
  }

  lemma DefensiveLower(n: char)
    requires n == '1' || n == '2'
    ensures GetFieldingType("Defensive " + [n]) == Defensive
  {
    var s := "Defensive " + [n];
    assert ToLower(s) == "defensive " + [n];
    NoOccurrence(ToLower(s), "attacking");
    assert ToLower(s)[..9] == "defensive";
  }

  /** The kind of each of the six settings, in order. */
  function KindOfRow(k: nat): Fielding {
    if k < 2 then Attacking else if k < 4 then NeutralField else Defensive
  }

  lemma RowKind(k: nat)
    requires k < 6
    ensures GetFieldingType(AllFieldings[k]) == KindOfRow(k)
  {
    var n := if k % 2 == 0 then '1' else '2';
    if k < 2 {
      AttackingLower(n);
      assert AllFieldings[k] == "Attacking " + [n];
    } else if k < 4 {
      NeutralLower(n);
      assert AllFieldings[k] == "Neutral " + [n];
    } else {
      DefensiveLower(n);
      assert AllFieldings[k] == "Defensive " + [n];
    }
  }

  /** From the seventh over the picker offers two settings of each kind, in
      the order attacking, neutral, defensive. */
  lemma LaterOversOfferEveryKind(over: int, k: nat)
    requires over >= 6 && k < |Allowed(over)|
    ensures GetFieldingType(Pick(over, k)) == KindOfRow(k)
  {
    RowKind(k);
  }

  /** The kind of fielding that belongs to a phase of the innings. */
  function KindOfPhase(p: Phase): Fielding {
    match p
    case Powerplay => Attacking
    case Middle => NeutralField
    case Death => Defensive
  }

  /** The fielding the match screen sets by itself is always one of the
      six settings: while the opponent bowls its kind follows the phase of
      the coming over (attacking in the powerplay, neutral in overs 7-16,
      defensive from the seventeenth), and when the user bowls it is reset
      to an attacking one. */
  lemma SyncFieldingFollowsPhase(s: Innings.MatchState)
    ensures var r, over := Innings.SyncFielding(s), Innings.CurrentInning(s.game).balls / 6;
      r.fielding in AllFieldings &&
      (s.game.bowlingTeam == Innings.Opp ==> GetFieldingType(r.fielding) == KindOfPhase(Innings.PhaseOf(over))) &&
      (s.game.bowlingTeam != Innings.Opp ==> GetFieldingType(r.fielding) == Attacking)
  {
    OppFieldingKind(Innings.CurrentInning(s.game).balls / 6);
    RowKind(0);
  }

  lemma OppFieldingKind(over: int)
    ensures Innings.OppFielding(over) in AllFieldings
    ensures GetFieldingType(Innings.OppFielding(over)) == KindOfPhase(Innings.PhaseOf(over))
  {
    var k := OppFieldingRow(over);
    RowKind(k);
  }

  /** The row of the six settings the opponent's fielding sits in. */
  function OppFieldingRow(over: int): (k: nat)
    ensures k < 6 && AllFieldings[k] == Innings.OppFielding(over)
    ensures KindOfRow(k) == KindOfPhase(Innings.PhaseOf(over))
  {
    if over < 3 then 0 else if over < 6 then 1 else if over < 10 then 2 else if over < 16 then 3 else 4
  }
}

=== FILE: fixtures.dfy ===
/** The season's fixtures (`src/database/fixturesDB.ts`). The table is a
    sequence of rows in id order together with the next id the
    `AUTOINCREMENT` key hands out. */
module Fixtures {
  import opened Common
  import Standings

  datatype Fixture = Fixture(
    id: int, completed: bool,
    yourTeam: string, yourLogo: string, oppTeam: string, oppLogo: string,
    yourRun: Option<int>, yourWicket: Option<int>, oppRun: Option<int>, oppWicket: Option<int>,
    winText: Option<string>)

  datatype Db = Db(rows: seq<Fixture>, nextId: int)

  /** Ids increase along the table and stay below the next id. */
  predicate IdsOrdered(db: Db) {
    (forall i, j :: 0 <= i < j < |db.rows| ==> db.rows[i].id < db.rows[j].id) &&
    (forall i :: 0 <= i < |db.rows| ==> db.rows[i].id < db.nextId)
  }

  /** The number of fixtures still to play. */
  function Incomplete(rows: seq<Fixture>): nat {
    if |rows| == 0 then 0 else (if rows[0].completed then 0 else 1) + Incomplete(rows[1..])
  }

  // ---------------------------------------------------------------------
  // `setFixtures`
  // ---------------------------------------------------------------------

  function NewFixture(id: int, you: Standings.Row, opp: Standings.Row): Fixture {
    Fixture(id, false, you.name, you.logo, opp.name, opp.logo, None, None, None, None, None)
  }

  /** `teams.filter(t => t.name !== selectedTeam)`. */
  function Opponents(teams: seq<Standings.Row>, selected: string): (r: seq<Standings.Row>)
    ensures |r| + Standings.Named(teams, selected) == |teams|
    ensures forall i :: 0 <= i < |r| ==> r[i].name != selected
    decreases |teams|
  {
    if |teams| == 0 then []
    else if teams[0].name != selected then [teams[0]] + Opponents(teams[1..], selected)
    else Opponents(teams[1..], selected)
  }

  /** `teams.find(t => t.name === selectedTeam)`. */
  function FindTeam(teams: seq<Standings.Row>, selected: string): (r: Option<Standings.Row>)
    ensures r.Some? ==> r.value in teams && r.value.name == selected
    ensures r.None? ==> forall i :: 0 <= i < |teams| ==> teams[i].name != selected
    decreases |teams|
  {
    if |teams| == 0 then None
    else if teams[0].name == selected then Some(teams[0])
    else FindTeam(teams[1..], selected)
  }

  /** The inserts of the loop, one id each. */
  function InsertAll(db: Db, you: Standings.Row, opps: seq<Standings.Row>): (r: Db)
    ensures |r.rows| == |db.rows| + |opps| && r.rows[..|db.rows|] == db.rows
    ensures r.nextId == db.nextId + |opps|
    ensures forall i :: |db.rows| <= i < |r.rows| ==>
      r.rows[i] == NewFixture(db.nextId + (i - |db.rows|), you, opps[i - |db.rows|])
    decreases |opps|
  {
    if |opps| == 0 then db
    else InsertAll(Db(db.rows + [NewFixture(db.nextId, you, opps[0])], db.nextId + 1), you, opps[1..])
  }

  /** `setFixtures`, given the rows of `getStandings` in order: one new,
      unplayed fixture against every other team, in that order; nothing
      when the selected team has no row. Nothing checks for an existing
      batch. */
  function SetFixtures(db: Db, teams: seq<Standings.Row>, selected: string): (r: Db)
    ensures FindTeam(teams, selected).None? ==> r == db
    ensures FindTeam(teams, selected).Some? ==>
      var opps := Opponents(teams, selected);
      |r.rows| == |db.rows| + |opps| && r.rows[..|db.rows|] == db.rows &&
      forall i :: |db.rows| <= i < |r.rows| ==>
        !r.rows[i].completed && r.rows[i].yourTeam == selected &&
        r.rows[i].oppTeam == opps[i - |db.rows|].name != selected
  {
    match FindTeam(teams, selected)
    case None => db
    case Some(you) => InsertAll(db, you, Opponents(teams, selected))
  }

  lemma {:induction false} IncompleteAppend(a: seq<Fixture>, b: seq<Fixture>)
    ensures Incomplete(a + b) == Incomplete(a) + Incomplete(b)
    decreases |a|
  {
    if |a| > 0 {
      assert (a + b)[1..] == a[1..] + b;
      IncompleteAppend(a[1..], b);
    } else {
      assert a + b == b;
    }
  }

  lemma {:induction false} InsertAllIncomplete(db: Db, you: Standings.Row, opps: seq<Standings.Row>)
    ensures Incomplete(InsertAll(db, you, opps).rows) == Incomplete(db.rows) + |opps|
    decreases |opps|
  {
    if |opps| > 0 {
      var f := NewFixture(db.nextId, you, opps[0]);
      IncompleteAppend(db.rows, [f]);
      assert Incomplete([f]) == 1;
      InsertAllIncomplete(Db(db.rows + [f], db.nextId + 1), you, opps[1..]);
    }
  }

  /** Each call adds one fixture to play per other team, so a second call
      adds a second batch. */
  lemma SetFixturesAdds(db: Db, teams: seq<Standings.Row>, selected: string)
    ensures FindTeam(teams, selected).Some? ==>
      Incomplete(SetFixtures(db, teams, selected).rows) ==
      Incomplete(db.rows) + |teams| - Standings.Named(teams, selected)
  {
    if FindTeam(teams, selected).Some? {
      InsertAllIncomplete(db, FindTeam(teams, selected).value, Opponents(teams, selected));
    }
  }

  /** Ids stay ordered: each insert takes the next id. */
  lemma SetFixturesIds(db: Db, teams: seq<Standings.Row>, selected: string)
    requires IdsOrdered(db)
    ensures IdsOrdered(SetFixtures(db, teams, selected))
  {
    if FindTeam(teams, selected).Some? {
      InsertAllIds(db, FindTeam(teams, selected).value, Opponents(teams, selected));
    }
  }

  lemma {:induction false} InsertAllIds(db: Db, you: Standings.Row, opps: seq<Standings.Row>)
    requires IdsOrdered(db)
    ensures IdsOrdered(InsertAll(db, you, opps))
    decreases |opps|
  {
    if |opps| > 0 {
      InsertAllIds(Db(db.rows + [NewFixture(db.nextId, you, opps[0])], db.nextId + 1), you, opps[1..]);
    }
  }

  // ---------------------------------------------------------------------
  // Reading
  // ---------------------------------------------------------------------

  /** `SELECT * FROM fixtures ORDER BY id ASC`. */
  function GetFixtures(db: Db): (r: seq<Fixture>)
    requires IdsOrdered(db)
    ensures multiset(r) == multiset(db.rows)
    ensures forall i, j :: 0 <= i < j < |r| ==> r[i].id < r[j].id
  {
    db.rows
  }

  /** The index of the first fixture still to play. */
  function FirstIncomplete(rows: seq<Fixture>): (r: Option<nat>)
    ensures r.Some? ==> r.value < |rows| && !rows[r.value].completed &&
                        forall j :: 0 <= j < r.value ==> rows[j].completed
    ensures r.None? ==> forall j :: 0 <= j < |rows| ==> rows[j].completed
    decreases |rows|
  {
    if |rows| == 0 then None
    else if !rows[0].completed then Some(0)
    else match FirstIncomplete(rows[1..])
      case Some(i) => Some(i + 1)
      case None => None
  }

  /** `GetNextOpponent`: the opponent of the lowest-id fixture still to
      play. */
  function GetNextOpponent(db: Db): (r: Option<string>)
    requires IdsOrdered(db)
    ensures r.None? <==> Incomplete(db.rows) == 0
    ensures r.Some? ==>
      exists i :: 0 <= i < |db.rows| && !db.rows[i].completed && db.rows[i].oppTeam == r.value &&
        forall j :: 0 <= j < |db.rows| && !db.rows[j].completed ==> db.rows[i].id <= db.rows[j].id
  {
    IncompleteNone(db.rows);
    match FirstIncomplete(db.rows)
    case None => None
    case Some(i) => Some(db.rows[i].oppTeam)
  }

  lemma {:induction false} IncompleteNone(rows: seq<Fixture>)
    ensures Incomplete(rows) == 0 <==> forall j :: 0 <= j < |rows| ==> rows[j].completed
    decreases |rows|
  {
    if |rows| > 0 {
      IncompleteNone(rows[1..]);
      assert (forall j :: 0 <= j < |rows| ==> rows[j].completed) <==>
             rows[0].completed && forall j :: 0 <= j < |rows[1..]| ==> rows[1..][j].completed;
    }
  }

  // ---------------------------------------------------------------------
  // `markFirstIncompleteFixtureCompleted`
  // ---------------------------------------------------------------------

  /** Completes the lowest-id fixture still to play with the score and the
      result line; nothing when every fixture is played. */
  function MarkFirstIncomplete(db: Db, yourRun: int, yourWicket: int, oppRun: int, oppWicket: int,
                               winText: string): (r: Db)
    ensures r.nextId == db.nextId && |r.rows| == |db.rows|
    ensures FirstIncomplete(db.rows).None? ==> r == db
    ensures FirstIncomplete(db.rows).Some? ==>
      var i := FirstIncomplete(db.rows).value;
      r.rows[i] == db.rows[i].(completed := true, yourRun := Some(yourRun), yourWicket := Some(yourWicket),
                               oppRun := Some(oppRun), oppWicket := Some(oppWicket), winText := Some(winText)) &&
      forall j :: 0 <= j < |db.rows| && j != i ==> r.rows[j] == db.rows[j]
  {
    match FirstIncomplete(db.rows)
    case None => db
    case Some(i) =>
      var f := db.rows[i];
      db.(rows := db.rows[i := f.(completed := true, yourRun := Some(yourRun), yourWicket := Some(yourWicket),
                                  oppRun := Some(oppRun), oppWicket := Some(oppWicket), winText := Some(winText))])
  }

  lemma {:induction false} IncompleteUpdate(rows: seq<Fixture>, i: nat, f: Fixture)
    requires i < |rows|
    ensures Incomplete(rows[i := f]) ==
      Incomplete(rows) - (if rows[i].completed then 0 else 1) + (if f.completed then 0 else 1)
    decreases i
  {
    if i > 0 {
      assert rows[i := f][1..] == rows[1..][i - 1 := f];
      IncompleteUpdate(rows[1..], i - 1, f);
    }
  }

  /** Marking plays exactly one pending fixture, never un-plays one, and
      keeps the ids. */
  lemma MarkProgress(db: Db, yourRun: int, yourWicket: int, oppRun: int, oppWicket: int, winText: string)
    requires IdsOrdered(db)
    ensures var r := MarkFirstIncomplete(db, yourRun, yourWicket, oppRun, oppWicket, winText);
      IdsOrdered(r) &&
      (Incomplete(db.rows) > 0 ==> Incomplete(r.rows) == Incomplete(db.rows) - 1) &&
      (Incomplete(db.rows) == 0 ==> r == db) &&
      forall j :: 0 <= j < |db.rows| && db.rows[j].completed ==> r.rows[j].completed
  {
    IncompleteNone(db.rows);
    var r := MarkFirstIncomplete(db, yourRun, yourWicket, oppRun, oppWicket, winText);
    if FirstIncomplete(db.rows).Some? {
      var i := FirstIncomplete(db.rows).value;
      IncompleteUpdate(db.rows, i, r.rows[i]);
      assert r.rows == db.rows[i := r.rows[i]];
    }
  }

  /** The fixture marked is the one `GetNextOpponent` announced. */
  lemma MarkedIsNextOpponent(db: Db, yourRun: int, yourWicket: int, oppRun: int, oppWicket: int, winText: string)
    requires IdsOrdered(db) && GetNextOpponent(db).Some?
    ensures var r := MarkFirstIncomplete(db, yourRun, yourWicket, oppRun, oppWicket, winText);
      exists i :: 0 <= i < |db.rows| && !db.rows[i].completed && r.rows[i].completed &&
        r.rows[i].oppTeam == GetNextOpponent(db).value && r.rows[i].winText == Some(winText)
  {
    var i := FirstIncomplete(db.rows).value;
    var r := MarkFirstIncomplete(db, yourRun, yourWicket, oppRun, oppWicket, winText);
    assert !db.rows[i].completed && r.rows[i].completed;
  }

  /** Played fixtures form a prefix of the table. */
  predicate PlayedFirst(rows: seq<Fixture>) {
    forall i, j :: 0 <= i < j < |rows| && rows[j].completed ==> rows[i].completed
  }

  lemma {:induction false} InsertAllPlayedFirst(db: Db, you: Standings.Row, opps: seq<Standings.Row>)
    requires PlayedFirst(db.rows)
    ensures PlayedFirst(InsertAll(db, you, opps).rows)
    decreases |opps|
  {
    if |opps| > 0 {
      InsertAllPlayedFirst(Db(db.rows + [NewFixture(db.nextId, you, opps[0])], db.nextId + 1), you, opps[1..]);
    }
  }

  /** Fixtures are played in id order: the played ones stay a prefix
      when a batch is added ... */
  lemma SetFixturesPlayedFirst(db: Db, teams: seq<Standings.Row>, selected: string)
    requires PlayedFirst(db.rows)
    ensures PlayedFirst(SetFixtures(db, teams, selected).rows)
  {
    if FindTeam(teams, selected).Some? {
      InsertAllPlayedFirst(db, FindTeam(teams, selected).value, Opponents(teams, selected));
    }
  }

  /** ... and when one is played. */
  lemma MarkPlayedFirst(db: Db, yourRun: int, yourWicket: int, oppRun: int, oppWicket: int, winText: string)
    requires PlayedFirst(db.rows)
    ensures PlayedFirst(MarkFirstIncomplete(db, yourRun, yourWicket, oppRun, oppWicket, winText).rows)
  {
  }
}

=== FILE: generator.dfy ===
/** The ball outcome generator of `src/services/matchService.ts`: nine
    weighted buckets, four adjustment passes, renormalisation, cumulative
    sampling and the bucket-to-outcome mapping. Weights are exact reals and
    the three `Math.random()` draws are parameters. */
module Generator {
  import opened Common

  datatype WicketKind = Bowled | Caught | RunOut | Lbw

  /** The tagged `BallOutcome` union. */
  datatype BallOutcome =
    | Dot
    | Run(runs: int, legBye: bool)
    | Four
    | Six
    | Wicket(kind: WicketKind)
    | Wide
    | NoBall

  datatype Fielding = Attacking | NeutralField | Defensive

  datatype Phase = Powerplay | Middle | Death

  /** Inputs of `simulateBall`. Only some fields are read. */
  datatype Batsman = Batsman(battingSkill: int, aggression: int, isCaptain: Option<bool>, order: string)
  datatype Bowler = Bowler(bowlingSkill: int, bowlerType: string)
  datatype GameContext = GameContext(
    phase: Phase, chasing: bool, runsLeft: Option<int>, ballsLeft: Option<int>, wicketsLost: int)

  /** The three `Math.random()` results one delivery may consume:
      the bucket draw, the leg-bye draw and the wicket-kind draw. */
  datatype BallDraws = BallDraws(bucket: real, legBye: real, wicketKind: real)

  predicate ValidDraws(d: BallDraws) {
    0.0 <= d.bucket < 1.0 && 0.0 <= d.legBye < 1.0 && 0.0 <= d.wicketKind < 1.0
  }

  /** The nine buckets, in the insertion order of the `probs` object. */
  datatype Weights = Weights(
    dot: real, oneRun: real, twoRun: real, threeRun: real, four: real,
    six: real, wicket: real, wide: real, noBall: real)

  const BaseWeights := Weights(0.25, 0.25, 0.1, 0.03, 0.15, 0.05, 0.08, 0.015, 0.015)

  function Total(w: Weights): real {
    w.dot + w.oneRun + w.twoRun + w.threeRun + w.four + w.six + w.wicket + w.wide + w.noBall
  }

  function Max(a: real, b: real): real {
    if a >= b then a else b
  }

  /** First phase switch (matchService.ts:64-89). */
  function PhasePass(w: Weights, p: Phase): (r: Weights)
    ensures r.threeRun == w.threeRun && r.wide == w.wide && r.noBall == w.noBall
  {
    match p
    case Powerplay =>
      w.(dot := w.dot + 0.04, oneRun := w.oneRun + 0.08, twoRun := w.twoRun + 0.05,
         four := w.four - 0.03, six := w.six - 0.04, wicket := w.wicket - 0.01)
    case Middle =>
      w.(dot := w.dot + 0.05, oneRun := w.oneRun + 0.03, twoRun := w.twoRun + 0.02,
         four := w.four + 0.03, six := w.six + 0.01, wicket := w.wicket + 0.01)
    case Death =>
      w.(dot := w.dot - 0.05, oneRun := w.oneRun + 0.03, twoRun := w.twoRun + 0.02,
         four := w.four + 0.05, six := w.six + 0.03, wicket := w.wicket + 0.02)
  }

  /** `(battingSkill - bowlingSkill) * 0.002`. */
  function SkillFactor(battingSkill: int, bowlingSkill: int): real {
    (battingSkill - bowlingSkill) as real * 0.002
  }

  /** The skill pass (matchService.ts:91-95): dot and wicket drop by the
      factor and half of it, but never below 0.05 and 0.01. */
  function SkillPass(w: Weights, f: real): (r: Weights)
    ensures r.dot >= 0.05 && r.wicket >= 0.01
    ensures r.dot >= w.dot - f && (w.dot - f >= 0.05 ==> r.dot == w.dot - f)
    ensures r.wicket >= w.wicket - 0.5 * f && (w.wicket - 0.5 * f >= 0.01 ==> r.wicket == w.wicket - 0.5 * f)
    ensures r.oneRun - w.oneRun == 0.5 * f && r.four - w.four == 0.3 * f
    ensures r.twoRun == w.twoRun && r.threeRun == w.threeRun && r.six == w.six
    ensures r.wide == w.wide && r.noBall == w.noBall
  {
    w.(dot := Max(0.05, w.dot - f),
       oneRun := w.oneRun + f * 0.5,
       four := w.four + f * 0.3,
       wicket := Max(0.01, w.wicket - f * 0.5))
  }

  /** Fielding moves only the wicket bucket (matchService.ts:97-98). */
  function FieldingPass(w: Weights, fielding: Fielding): (r: Weights)
    ensures r.(wicket := w.wicket) == w
    ensures fielding == Attacking ==> r.wicket == w.wicket + 0.02
    ensures fielding == Defensive ==> r.wicket == w.wicket - 0.01
    ensures fielding == NeutralField ==> r == w
  {
    match fielding
    case Attacking => w.(wicket := w.wicket + 0.02)
    case Defensive => w.(wicket := w.wicket - 0.01)
    case NeutralField => w
  }

  /** Second phase switch (matchService.ts:100-118). */
  function SecondPhasePass(w: Weights, p: Phase): (r: Weights)
    ensures r.oneRun == w.oneRun && r.twoRun == w.twoRun && r.threeRun == w.threeRun
    ensures r.wide == w.wide && r.noBall == w.noBall
  {
    match p
    case Powerplay =>
      w.(four := w.four + 0.03, six := w.six - 0.02, dot := w.dot + 0.05, wicket := w.wicket - 0.03)
    case Middle =>
      w.(dot := w.dot + 0.02, four := w.four - 0.01, six := w.six - 0.005)
    case Death =>
      w.(four := w.four + 0.05, six := w.six + 0.03, dot := w.dot - 0.03, wicket := w.wicket + 0.02)
  }

  /** The weights before renormalisation. */
  function Adjusted(battingSkill: int, bowlingSkill: int, fielding: Fielding, p: Phase): Weights {
    var w1 := PhasePass(BaseWeights, p);
    var w2 := SkillPass(w1, SkillFactor(battingSkill, bowlingSkill));
    var w3 := FieldingPass(w2, fielding);
    SecondPhasePass(w3, p)
  }

  /** Whatever the skills, the adjusted weights add up to at least 0.9, so
      the renormalising division is always by a positive total. */
  lemma AdjustedTotalAtLeast(battingSkill: int, bowlingSkill: int, fielding: Fielding, p: Phase)
    ensures Total(Adjusted(battingSkill, bowlingSkill, fielding, p)) >= 0.9
  {
  }

  /** Every bucket multiplied by `k`. */
  function Scale(w: Weights, k: real): Weights {
    Weights(w.dot * k, w.oneRun * k, w.twoRun * k, w.threeRun * k, w.four * k,
            w.six * k, w.wicket * k, w.wide * k, w.noBall * k)
  }

  lemma TotalScale(w: Weights, k: real)
    ensures Total(Scale(w, k)) == Total(w) * k
  {
  }

  /** Divide every bucket by the total (matchService.ts:120-123). */
  function Normalize(w: Weights): (r: Weights)
    requires Total(w) > 0.0
    ensures Total(r) == 1.0
  {
    var t := Total(w);
    TotalScale(w, 1.0 / t);
    MulInverse(t);
    Scale(w, 1.0 / t)
  }

  lemma MulInverse(t: real)
    requires t > 0.0
    ensures t * (1.0 / t) == 1.0
  {
  }

  lemma DivMul(x: real, t: real)
    requires t > 0.0
    ensures x * (1.0 / t) * t == x
  {
  }

  /** The renormalised distribution the sampler draws from. */
  function Distribution(battingSkill: int, bowlingSkill: int, fielding: Fielding, p: Phase): (r: Weights)
    ensures Total(r) == 1.0
  {
    AdjustedTotalAtLeast(battingSkill, bowlingSkill, fielding, p);
    Normalize(Adjusted(battingSkill, bowlingSkill, fielding, p))
  }

  /** The `probs` object as an ordered list of (key, weight). */
  function Entries(w: Weights): seq<(string, real)> {
    [("dot", w.dot), ("oneRun", w.oneRun), ("twoRun", w.twoRun), ("threeRun", w.threeRun),
     ("four", w.four), ("six", w.six), ("wicket", w.wicket), ("wide", w.wide),
     ("noBall", w.noBall)]
  }

  // ---------------------------------------------------------------------
  // weightedRandom
  // ---------------------------------------------------------------------

  function WeightsOf(es: seq<(string, real)>): (ws: seq<real>)
    ensures |ws| == |es|
    ensures forall i :: 0 <= i < |es| ==> ws[i] == es[i].1
  {
    if |es| == 0 then [] else [es[0].1] + WeightsOf(es[1..])
  }

  function KeysOf(es: seq<(string, real)>): (ks: seq<string>)
    ensures |ks| == |es|
    ensures forall i :: 0 <= i < |es| ==> ks[i] == es[i].0
  {
    if |es| == 0 then [] else [es[0].0] + KeysOf(es[1..])
  }

  /** Sum of the first `n` weights. */
  function Prefix(ws: seq<real>, n: nat): real
    requires n <= |ws|
  {
    if n == 0 then 0.0 else ws[0] + Prefix(ws[1..], n - 1)
  }

  function Sum(ws: seq<real>): real {
    Prefix(ws, |ws|)
  }

  /** The running value `r` of the loop after subtracting weights 0..j. */
  function Remainder(ws: seq<real>, r: real, j: nat): real
    requires j < |ws|
  {
    r - Prefix(ws, j + 1)
  }

  /** Dropping the first weight shifts the remainders by one place. */
  lemma RemainderShift(ws: seq<real>, r: real)
    requires |ws| > 0
    ensures forall j :: 1 <= j < |ws| ==> Remainder(ws, r, j) == Remainder(ws[1..], r - ws[0], j - 1)
  {
  }

  /** The loop of `weightedRandom`: the first index at which the running
      remainder drops to zero or below, if any. */
  function Scan(ws: seq<real>, r: real): (k: Option<nat>)
    ensures k.Some? ==> k.value < |ws| && Remainder(ws, r, k.value) <= 0.0
    ensures k.Some? ==> forall j :: 0 <= j < k.value ==> Remainder(ws, r, j) > 0.0
    ensures k.None? ==> forall j :: 0 <= j < |ws| ==> Remainder(ws, r, j) > 0.0
    decreases |ws|
  {
    if |ws| == 0 then None
    else if r - ws[0] <= 0.0 then
      assert Prefix(ws[1..], 0) == 0.0;
      assert Remainder(ws, r, 0) == r - ws[0];
      Some(0)
    else
      var rest := Scan(ws[1..], r - ws[0]);
      RemainderShift(ws, r);
      assert Prefix(ws[1..], 0) == 0.0;
      assert Remainder(ws, r, 0) == r - ws[0];
      match rest
      case Some(k) => Some(k + 1)
      case None => None
  }

  /** `weightedRandom`: draw `d` in [0,1) scaled by the total, first key
      whose running remainder reaches zero, first key as the fallback.
      `None` stands for the `undefined` an empty object would give. */
  function WeightedRandom(es: seq<(string, real)>, d: real): (key: Option<string>)
    ensures key.Some? <==> |es| > 0
    ensures key.Some? ==> key.value in KeysOf(es)
  {
    if |es| == 0 then None
    else Some(es[Scan(WeightsOf(es), ScaledDraw(d, WeightsOf(es))).GetOr(0)].0)
  }

  /** `Math.random() * total`. */
  function ScaledDraw(d: real, ws: seq<real>): real {
    d * Sum(ws)
  }

  /** The sampler picks the key at the first crossing index, or the first
      key when the remainder never reaches zero. */
  lemma WeightedRandomFirstCrossing(es: seq<(string, real)>, d: real, ws: seq<real>, r: real, k: nat)
    requires ws == WeightsOf(es) && r == ScaledDraw(d, ws)
    requires k < |es|
    requires Remainder(ws, r, k) <= 0.0
    requires forall j :: 0 <= j < k ==> Remainder(ws, r, j) > 0.0
    ensures WeightedRandom(es, d) == Some(es[k].0)
  {
    var s := Scan(ws, r);
    assert s.Some?;
    FirstCrossingUnique(ws, r, s.value, k);
    assert WeightedRandom(es, d) == Some(es[s.value].0);
  }

  /** There is only one first crossing. */
  lemma FirstCrossingUnique(ws: seq<real>, r: real, a: nat, b: nat)
    requires a < |ws| && b < |ws|
    requires Remainder(ws, r, a) <= 0.0 && forall j :: 0 <= j < a ==> Remainder(ws, r, j) > 0.0
    requires Remainder(ws, r, b) <= 0.0 && forall j :: 0 <= j < b ==> Remainder(ws, r, j) > 0.0
    ensures a == b
  {
  }

  /** When no running remainder reaches zero the first key is returned. */
  lemma WeightedRandomFallback(es: seq<(string, real)>, d: real, ws: seq<real>, r: real)
    requires ws == WeightsOf(es) && r == ScaledDraw(d, ws)
    requires |es| > 0
    requires forall j :: 0 <= j < |es| ==> Remainder(ws, r, j) > 0.0
    ensures WeightedRandom(es, d) == Some(es[0].0)
  {
    var s := Scan(ws, r);
    assert WeightedRandom(es, d) == Some(es[s.GetOr(0)].0);
    assert s == None;
  }

  /** A bucket with negative weight is never the first crossing: passing it
      only raises the running remainder. */
  lemma NegativeWeightNeverPicked(ws: seq<real>, r: real, i: nat)
    requires 0 < i < |ws| && ws[i] < 0.0
    ensures Scan(ws, r) != Some(i)
  {
    PrefixStep(ws, i);
    assert Remainder(ws, r, i) == Remainder(ws, r, i - 1) - ws[i];
  }

  lemma {:induction false} PrefixStep(ws: seq<real>, n: nat)
    requires n < |ws|
    ensures Prefix(ws, n + 1) == Prefix(ws, n) + ws[n]
    decreases n
  {
    if n > 0 {
      PrefixStep(ws[1..], n - 1);
    }
  }

  // ---------------------------------------------------------------------
  // simulateBall
  // ---------------------------------------------------------------------

  const WicketKinds: seq<WicketKind> := [Bowled, Caught, RunOut, Lbw]

  /** The final `switch (outcomeKey)`: run buckets carry the leg-bye draw,
      the wicket bucket the kind draw, unknown keys fall to a dot. */
  function KeyOutcome(key: string, d: BallDraws): (o: BallOutcome)
    requires ValidDraws(d)
    ensures o.Run? <==> key in {"oneRun", "twoRun", "threeRun"}
    ensures o.Run? ==> o.legBye == (d.legBye < 0.05)
    ensures key == "oneRun" ==> o == Run(1, d.legBye < 0.05)
    ensures key == "twoRun" ==> o == Run(2, d.legBye < 0.05)
    ensures key == "threeRun" ==> o == Run(3, d.legBye < 0.05)
    ensures o.Wicket? <==> key == "wicket"
    ensures o.Wicket? ==> o.kind == WicketKinds[DrawIndex(d.wicketKind, 4)]
    ensures o == Four <==> key == "four"
    ensures o == Six <==> key == "six"
    ensures o == Wide <==> key == "wide"
    ensures o == NoBall <==> key == "noBall"
    ensures o == Dot <==> key !in {"oneRun", "twoRun", "threeRun", "four", "six", "wicket", "wide", "noBall"}
  {
    if key == "dot" then Dot
    else if key == "oneRun" then Run(1, d.legBye < 0.05)
    else if key == "twoRun" then Run(2, d.legBye < 0.05)
    else if key == "threeRun" then Run(3, d.legBye < 0.05)
    else if key == "four" then Four
    else if key == "six" then Six
    else if key == "wicket" then Wicket(WicketKinds[DrawIndex(d.wicketKind, 4)])
    else if key == "wide" then Wide
    else if key == "noBall" then NoBall
    else Dot
  }

  /** `simulateBall` with its random draws made explicit. */
  function SimulateBall(b: Batsman, w: Bowler, fielding: Fielding, ctx: GameContext, d: BallDraws): (o: BallOutcome)
    requires ValidDraws(d)
    ensures o.Run? ==> 1 <= o.runs <= 3 && o.legBye == (d.legBye < 0.05)
  {
    var es := Entries(Distribution(b.battingSkill, w.bowlingSkill, fielding, ctx.phase));
    KeyOutcome(WeightedRandom(es, d.bucket).value, d)
  }

  /** Only the two skills, the fielding and the phase shape the outcome:
      aggression, order, captaincy, bowler type, chasing and wickets lost
      are never read. */
  lemma OutcomeIgnoresTactics(b1: Batsman, b2: Batsman, w1: Bowler, w2: Bowler,
                              fielding: Fielding, c1: GameContext, c2: GameContext, d: BallDraws)
    requires ValidDraws(d)
    requires b1.battingSkill == b2.battingSkill && w1.bowlingSkill == w2.bowlingSkill
    requires c1.phase == c2.phase
    ensures SimulateBall(b1, w1, fielding, c1, d) == SimulateBall(b2, w2, fielding, c2, d)
  {
  }

  /** In the powerplay the six bucket ends at 0.05 - 0.04 - 0.02 < 0. */
  lemma PowerplaySixWeightNegative(battingSkill: int, bowlingSkill: int, fielding: Fielding)
    ensures Adjusted(battingSkill, bowlingSkill, fielding, Powerplay).six < 0.0
    ensures Distribution(battingSkill, bowlingSkill, fielding, Powerplay).six < 0.0
  {
    var a := Adjusted(battingSkill, bowlingSkill, fielding, Powerplay);
    assert a.six == 0.05 - 0.04 - 0.02 by {
      var w1 := PhasePass(BaseWeights, Powerplay);
      var w2 := SkillPass(w1, SkillFactor(battingSkill, bowlingSkill));
      var w3 := FieldingPass(w2, fielding);
      assert w1.six == 0.05 - 0.04;
      assert w3.six == w2.six == w1.six;
      assert a == SecondPhasePass(w3, Powerplay);
    }
    AdjustedTotalAtLeast(battingSkill, bowlingSkill, fielding, Powerplay);
    NormalizeKeepsNegativeSix(a);
    assert Normalize(a) == Distribution(battingSkill, bowlingSkill, fielding, Powerplay);
  }

  /** Dividing by a positive total keeps the sign of the six bucket. */
  lemma NormalizeKeepsNegativeSix(w: Weights)
    requires Total(w) > 0.0 && w.six < 0.0
    ensures Normalize(w).six < 0.0
  {
    DivMul(w.six, Total(w));
    NegativeOverPositive(Normalize(w).six, Total(w), w.six);
  }

  lemma NegativeOverPositive(x: real, t: real, y: real)
    requires x * t == y && t > 0.0 && y < 0.0
    ensures x < 0.0
  {
  }

  /** A six can never be produced in overs 0-5. */
  lemma NoSixInPowerplay(b: Batsman, w: Bowler, fielding: Fielding, ctx: GameContext, d: BallDraws)
    requires ValidDraws(d) && ctx.phase == Powerplay
    ensures SimulateBall(b, w, fielding, ctx, d) != Six
  {
    var dist := Distribution(b.battingSkill, w.bowlingSkill, fielding, Powerplay);
    PowerplaySixWeightNegative(b.battingSkill, w.bowlingSkill, fielding);
    SixNeverDrawn(dist, d.bucket);
  }

  /** A negative six weight keeps the sampler off the six bucket. */
  lemma SixNeverDrawn(dist: Weights, bucket: real)
    requires dist.six < 0.0
    ensures WeightedRandom(Entries(dist), bucket) != Some("six")
  {
    var es := Entries(dist);
    var ws := WeightsOf(es);
    assert ws[5] == dist.six;
    var r := ScaledDraw(bucket, ws);
    NegativeWeightNeverPicked(ws, r, 5);
    var k := Scan(ws, r).GetOr(0);
    assert k != 5;
    assert WeightedRandom(es, bucket) == Some(es[k].0);
    assert es[k].0 != "six";
  }

  /** The skill floor holds right after the skill pass, but the later
      fielding and phase passes can take the wicket weight below it. */
  lemma WicketFloorNotFinal()
    ensures SkillPass(PhasePass(BaseWeights, Powerplay), SkillFactor(100, 0)).wicket == 0.01
    ensures Adjusted(100, 0, Defensive, Powerplay).wicket < 0.01
  {
  }
}

=== FILE: helpers.dfy ===
/** The pure helpers of `src/helper/matchHelper.ts` other than the bowling
    lineup: player mapping, the result token of a delivery, dismissal
    texts, the fielding classifier and the over display. Commentary text
    selection is not modelled. */
module MatchHelper {
  import opened Common
  import opened Text
  import opened Generator

  // ---------------------------------------------------------------------
  // mapToPlayers
  // ---------------------------------------------------------------------

  /** `mapToPlayers`: every record kept as is except, on request, the
      position, which becomes the 1-based index. */
  function MapToPlayers(raw: seq<Player>, useIndexAsPosition: bool): (ps: seq<Player>)
    ensures |ps| == |raw|
    ensures forall i :: 0 <= i < |ps| ==> ps[i].(position := raw[i].position) == raw[i]
    ensures useIndexAsPosition ==> forall i :: 0 <= i < |ps| ==> ps[i].position == i + 1
    ensures !useIndexAsPosition ==> ps == raw
  {
    seq(|raw|, i requires 0 <= i < |raw| =>
      raw[i].(position := if useIndexAsPosition then i + 1 else raw[i].position))
  }

  /** Indexed positions are all different. */
  lemma IndexedPositionsDistinct(raw: seq<Player>, i: nat, j: nat)
    requires i < j < |raw|
    ensures MapToPlayers(raw, true)[i].position != MapToPlayers(raw, true)[j].position
  {
  }

  // ---------------------------------------------------------------------
  // getBallCommentaryFromOutcome: the result token
  // ---------------------------------------------------------------------

  /** The outcomes the generator can produce: runs are 1, 2 or 3. */
  predicate ValidOutcome(o: BallOutcome) {
    o.Run? ==> 1 <= o.runs <= 3
  }

  /** The `outcome` string of `getBallCommentaryFromOutcome`. */
  function ResultToken(o: BallOutcome): (t: string)
    ensures |t| > 0
  {
    match o
    case Run(n, legBye) => IntToString(n) + (if legBye then "lb" else "")
    case Four => "4"
    case Six => "6"
    case Wide => "wide"
    case NoBall => "nb"
    case Wicket(_) => "wk"
    case Dot => "0"
  }

  lemma RunToken(n: int, legBye: bool)
    requires 1 <= n <= 3
    ensures ResultToken(Run(n, legBye)) == [DigitChar(n)] + (if legBye then "lb" else "")
  {
  }

  /** The token tells outcomes apart, except the kind of wicket: two valid
      outcomes get the same token exactly when they are equal or both
      wickets. */
  lemma ResultTokenDistinguishes(a: BallOutcome, b: BallOutcome)
    requires ValidOutcome(a) && ValidOutcome(b)
    ensures ResultToken(a) == ResultToken(b) <==> a == b || (a.Wicket? && b.Wicket?)
  {
    var ta, tb := ResultToken(a), ResultToken(b);
    if ta == tb {
      assert ta[0] == tb[0] && |ta| == |tb|;
      if a.Run? {
        RunToken(a.runs, a.legBye);
        DigitRoundTrip(a.runs);
      }
      if b.Run? {
        RunToken(b.runs, b.legBye);
        DigitRoundTrip(b.runs);
      }
      if a.Run? && b.Run? {
        assert a.legBye == b.legBye;
      }
    }
  }

  /** A four-run `Run` would print like a boundary: the token relies on
      runs staying within 1..3. */
  lemma FourRunsLookLikeBoundary()
    ensures ResultToken(Run(4, false)) == ResultToken(Four)
  {
  }

  // ---------------------------------------------------------------------
  // getRandomFielder, getOutType
  // ---------------------------------------------------------------------

  /** A role argument counts only when truthy: an empty role string does
      not filter. */
  predicate RoleFilterOn(role: Option<Role>) {
    role.Some? && role.value != OtherRole("")
  }

  predicate IsCandidate(p: Player, excludeName: string, role: Option<Role>) {
    p.name != excludeName && (RoleFilterOn(role) ==> p.role == role.value)
  }

  /** The `filter` of `getRandomFielder`, in team order. */
  function Candidates(players: seq<Player>, excludeName: string, role: Option<Role>): (cs: seq<Player>)
    ensures |cs| <= |players|
  {
    if |players| == 0 then []
    else (if IsCandidate(players[0], excludeName, role) then [players[0]] else [])
         + Candidates(players[1..], excludeName, role)
  }

  lemma {:induction false} CandidatesMembers(players: seq<Player>, excludeName: string, role: Option<Role>)
    ensures forall p :: p in Candidates(players, excludeName, role) <==> p in players && IsCandidate(p, excludeName, role)
    decreases |players|
  {
    if |players| > 0 {
      CandidatesMembers(players[1..], excludeName, role);
      assert players == [players[0]] + players[1..];
    }
  }

  /** `getRandomFielder` with its draw `d` in [0,1): `None` when nobody
      qualifies. */
  function RandomFielder(players: seq<Player>, excludeName: string, role: Option<Role>, d: real): (r: Option<Player>)
    requires 0.0 <= d < 1.0
    ensures r.None? <==> Candidates(players, excludeName, role) == []
    ensures r.Some? ==> r.value in Candidates(players, excludeName, role)
  {
    var cs := Candidates(players, excludeName, role);
    if |cs| == 0 then None else Some(cs[DrawIndex(d, |cs|)])
  }

  /** A drawn fielder comes from the team, is not named like the excluded
      player and has the requested role when one is given. */
  lemma RandomFielderQualifies(players: seq<Player>, excludeName: string, role: Option<Role>, d: real)
    requires 0.0 <= d < 1.0
    requires RandomFielder(players, excludeName, role, d).Some?
    ensures var p := RandomFielder(players, excludeName, role, d).value;
      p in players && p.name != excludeName && (RoleFilterOn(role) ==> p.role == role.value)
  {
    CandidatesMembers(players, excludeName, role);
  }

  /** Nobody is drawn exactly when every team member is named like the
      excluded player or lacks the requested role. */
  lemma RandomFielderNone(players: seq<Player>, excludeName: string, role: Option<Role>, d: real)
    requires 0.0 <= d < 1.0
    ensures RandomFielder(players, excludeName, role, d).None?
        <==> forall p :: p in players ==> !IsCandidate(p, excludeName, role)
  {
    CandidatesMembers(players, excludeName, role);
    var cs := Candidates(players, excludeName, role);
    if cs != [] {
      assert cs[0] in cs;
    }
  }

  /** The `getOutType` result. */
  datatype OutType = OutType(text: string, bowlerGetsWicket: bool)

  /** `getRandomFielder(fieldingTeam, bowler.name) ?? bowler`. */
  function Fielder(bowler: Player, fieldingTeam: seq<Player>, d: real): (f: Player)
    requires 0.0 <= d < 1.0
  {
    RandomFielder(fieldingTeam, bowler.name, None, d).GetOr(bowler)
  }

  /** The catcher or run-out fielder is a team member not named like the
      bowler, and is the bowler only when nobody else qualifies. */
  lemma FielderNotBowler(bowler: Player, fieldingTeam: seq<Player>, d: real)
    requires 0.0 <= d < 1.0
    ensures var f := Fielder(bowler, fieldingTeam, d);
      (f.name != bowler.name && f in fieldingTeam) ||
      (f == bowler && forall p :: p in fieldingTeam ==> p.name == bowler.name)
  {
    RandomFielderNone(fieldingTeam, bowler.name, None, d);
    if RandomFielder(fieldingTeam, bowler.name, None, d).Some? {
      RandomFielderQualifies(fieldingTeam, bowler.name, None, d);
    }
  }

  /** `getOutType`: the scorecard text and whether the bowler is credited.
      The draw `d` picks the fielder for catches and run outs. */
  function GetOutType(kind: WicketKind, bowler: Player, fieldingTeam: seq<Player>, d: real): (r: OutType)
    requires 0.0 <= d < 1.0
    ensures r.bowlerGetsWicket <==> kind != RunOut
    ensures kind == Bowled ==> r.text == "b. " + bowler.name
    ensures kind == Lbw ==> r.text == "lbw " + bowler.name
    ensures kind == Caught ==> r.text == "b. " + bowler.name + " c. " + Fielder(bowler, fieldingTeam, d).name
    ensures kind == RunOut ==> r.text == "run out (" + Fielder(bowler, fieldingTeam, d).name + ")"
  {
    match kind
    case Bowled => OutType("b. " + bowler.name, true)
    case Lbw => OutType("lbw " + bowler.name, true)
    case Caught => OutType("b. " + bowler.name + " c. " + Fielder(bowler, fieldingTeam, d).name, true)
    case RunOut => OutType("run out (" + Fielder(bowler, fieldingTeam, d).name + ")", false)
  }

  predicate IsPrefix(p: string, s: string) {
    |p| <= |s| && s[..|p|] == p
  }

  /** Reading the credit back from the text: the bowler is credited
      exactly when the text does not start with "run out (". */
  lemma CreditFromText(kind: WicketKind, bowler: Player, fieldingTeam: seq<Player>, d: real)
    requires 0.0 <= d < 1.0
    ensures var r := GetOutType(kind, bowler, fieldingTeam, d);
      r.bowlerGetsWicket <==> !IsPrefix("run out (", r.text)
  {
    var r := GetOutType(kind, bowler, fieldingTeam, d);
    if kind == RunOut {
      var f := Fielder(bowler, fieldingTeam, d);
      assert r.text[..9] == "run out (";
    } else {
      assert r.text[0] != 'r';
    }
  }

  // ---------------------------------------------------------------------
  // getFieldingType
  // ---------------------------------------------------------------------

  /** `getFieldingType`: case-insensitive search for "attacking", then
      "defensive", neutral otherwise. */
  function GetFieldingType(fielding: string): (f: Fielding)
    ensures f == Attacking <==> Contains(ToLower(fielding), "attacking")
    ensures f == Defensive <==> !Contains(ToLower(fielding), "attacking") && Contains(ToLower(fielding), "defensive")
  {
    if Contains(ToLower(fielding), "attacking") then Attacking
    else if Contains(ToLower(fielding), "defensive") then Defensive
    else NeutralField
  }

  lemma {:induction false} ToLowerIdempotent(s: string)
    ensures ToLower(ToLower(s)) == ToLower(s)
  {
    var t := ToLower(s);
    assert forall i :: 0 <= i < |s| ==> ToLower(t)[i] == LowerChar(LowerChar(s[i])) == t[i];
  }

  /** The classifier ignores letter case. */
  lemma FieldingTypeIgnoresCase(fielding: string)
    ensures GetFieldingType(ToLower(fielding)) == GetFieldingType(fielding)
  {
    ToLowerIdempotent(fielding);
  }

  /** A setting is attacking exactly when "attacking" occurs at some
      offset of its lower-cased text. */
  lemma AttackingIffOccurs(fielding: string)
    ensures GetFieldingType(fielding) == Attacking <==> exists i :: OccursAt(ToLower(fielding), "attacking", i)
  {
    var low := ToLower(fielding);
    ContainsAt(low, "attacking");
    assert GetFieldingType(fielding) == Attacking <==> Contains(low, "attacking");
    if GetFieldingType(fielding) == Attacking {
      var i :| OccursAt(low, "attacking", i);
      assert OccursAt(ToLower(fielding), "attacking", i);
    }
  }

  // ---------------------------------------------------------------------
  // ballsToOver
  // ---------------------------------------------------------------------

  /** The quotient of `a / b` truncated toward zero, as `Math.trunc`
      gives it: it has the sign of the dividend. */
  function TruncDiv(a: int, b: int): (q: int)
    requires b > 0
    ensures a >= 0 ==> q >= 0
    ensures a <= 0 ==> q <= 0
  {
    if a >= 0 then a / b else -((-a) / b)
  }

  /** JavaScript `a % b` for a positive divisor: what the quotient
      truncated toward zero leaves over, so it lies strictly between `-b`
      and `b` and takes the sign of the dividend. */
  function JsRem(a: int, b: int): (r: int)
    requires b > 0
    ensures a == TruncDiv(a, b) * b + r
    ensures -b < r < b
    ensures a >= 0 ==> r >= 0
    ensures a <= 0 ==> r <= 0
  {
    if a >= 0 then a % b else -((-a) % b)
  }

  /** `Math.floor(a / b)` for a positive divisor. */
  function FloorDiv(a: int, b: int): (q: int)
    requires b > 0
    ensures q * b <= a < q * b + b
  {
    a / b
  }

  /** `ballsToOver`: "<overs>.<balls>". */
  function BallsToOver(balls: int): (s: string)
    ensures |s| >= 3
  {
    IntToString(FloorDiv(balls, 6)) + "." + IntToString(JsRem(balls, 6))
  }

  /** Reads "<digits>.<digit>" back into a ball count. */
  function OverToBalls(s: string): Option<nat> {
    if |s| >= 3 && s[|s| - 2] == '.' && AllDigits(s[..|s| - 2]) && IsDigit(s[|s| - 1])
    then Some(6 * ParseNat(s[..|s| - 2]) + DigitValue(s[|s| - 1]))
    else None
  }

  /** For a non-negative count the display is "<b div 6>.<b mod 6>" and
      reads back to the count. */
  lemma BallsToOverRoundTrip(balls: nat)
    ensures BallsToOver(balls) == NatToString(balls / 6) + "." + [DigitChar(balls % 6)]
    ensures OverToBalls(BallsToOver(balls)) == Some(balls)
  {
    var q, r := balls / 6, balls % 6;
    assert FloorDiv(balls, 6) == q && JsRem(balls, 6) == r;
    assert IntToString(q) == NatToString(q);
    assert IntToString(r) == [DigitChar(r)];
    ReadOverForm(q, r);
    assert 6 * q + r == balls;
  }

  lemma ReadOverForm(q: nat, r: nat)
    requires r < 6
    ensures OverToBalls(NatToString(q) + "." + [DigitChar(r)]) == Some(6 * q + r)
  {
    var s := NatToString(q) + "." + [DigitChar(r)];
    assert s[..|s| - 2] == NatToString(q);
    ParseNatToString(q);
    DigitRoundTrip(r);
  }

  /** Different non-negative counts give different displays. */
  lemma BallsToOverInjective(a: nat, b: nat)
    requires BallsToOver(a) == BallsToOver(b)
    ensures a == b
  {
    BallsToOverRoundTrip(a);
    BallsToOverRoundTrip(b);
  }

  /** A negative count floors the overs but truncates the balls. */
  lemma NegativeBallsDisplay()
    ensures BallsToOver(-1) == "-1.-1"
  {
    assert FloorDiv(-1, 6) == -1 && JsRem(-1, 6) == -1;
    assert NatToString(1) == "1";
  }
}

=== FILE: innings.dfy ===
/** The innings of `src/screens/MatchScreen.tsx` as a pure reducer. The
    state gathers the `GameState` record and the separate pieces of React
    state the per-delivery updater reads from its closure: the active pair,
    batting order and next batsman, bowling lineup and current bowler, the
    pending pair kept for the wicket alert, the fielding setting and the
    alert flags. */
module Innings {
  import opened Common
  import opened Generator
  import opened MatchHelper

  datatype Side = User | Opp

  /** `'bat' | 'ball'` of the toss. */
  datatype Choice = BatFirst | BowlFirst

  /** The `TossState` handed to the match screen. */
  datatype TossState = TossState(winner: Side, choice: Option<Choice>)

  /** The batting-card status strings 'active', 'inactive' and 'out'. */
  datatype Status = Active | Inactive | Out

  datatype BatsmanState = BatsmanState(player: Player, runs: int, balls: int, status: Status, outType: Option<string>)

  datatype BowlerState = BowlerState(player: Player, overs: int, balls: int, runs: int, wickets: int)

  /** The `bowlers` object keyed by name: the key of an entry is always the
      name of its own player, so the list of entries in insertion order is
      the whole object. */
  type Bowlers = seq<BowlerState>

  datatype InningState = InningState(
    runs: int, wickets: int, balls: int,
    batsmen: seq<BatsmanState>, bowlers: Bowlers, currentBowlerId: string)

  /** The `GameState` record. `over` and `ballInOver` are never written. */
  datatype GameState = GameState(
    inning1: InningState, inning2: Option<InningState>,
    battingTeam: Side, bowlingTeam: Side, over: int, ballInOver: int, currentInnings: int)

  datatype ActivePlayer = ActivePlayer(player: Player, aggression: int, run: int, ball: int)

  /** `ActivePlayersState`: the striker on the left, the other on the right. */
  datatype Pair = Pair(left: Option<ActivePlayer>, right: Option<ActivePlayer>)

  /** The innings alert: hidden, or shown with its `gameEnd` flag. */
  datatype Alert = NoAlert | InningsAlert(gameEnd: bool)

  datatype MatchState = MatchState(
    game: GameState,
    active: Pair,
    battingOrder: seq<Player>,
    nextBatsmanIndex: int,
    bowlingLineup: seq<Player>,
    currentBowlerIndex: int,
    pending: Option<Pair>,
    fielding: string,
    simulateDisabled: bool,
    wicketAlert: bool,
    alert: Alert)

  const MaxOvers := 20
  const MaxWickets := 10
  const MaxBalls := MaxOvers * 6

  const EmptyInning := InningState(0, 0, 0, [], [], "")

  /** The component's state before the initialisation effect runs. */
  const InitialGame := GameState(EmptyInning, None, User, Opp, 0, 0, 1)

  const InitialMatch := MatchState(
    InitialGame, Pair(None, None), [], 2, [], 0, None, "Attacking 1", false, false, NoAlert)

  // ---------------------------------------------------------------------
  // The innings being played
  // ---------------------------------------------------------------------

  /** `prev[inningKey] ?? {…}`: the second innings counts as empty until it
      exists. */
  function CurrentInning(g: GameState): InningState {
    if g.currentInnings == 1 then g.inning1 else g.inning2.GetOr(EmptyInning)
  }

  /** `{...prev, [inningKey]: inning}`. */
  function WithInning(g: GameState, inn: InningState): (r: GameState)
    ensures CurrentInning(r) == inn
    ensures r.currentInnings == g.currentInnings && r.battingTeam == g.battingTeam && r.bowlingTeam == g.bowlingTeam
    ensures g.currentInnings == 1 ==> r.inning2 == g.inning2
    ensures g.currentInnings != 1 ==> r.inning1 == g.inning1
  {
    if g.currentInnings == 1 then g.(inning1 := inn) else g.(inning2 := Some(inn))
  }

  // ---------------------------------------------------------------------
  // The bowlers object
  // ---------------------------------------------------------------------

  /** The index of the entry keyed `name`, if any. */
  function FindBowler(bs: Bowlers, name: string): (r: Option<nat>)
    ensures r.Some? ==> r.value < |bs| && bs[r.value].player.name == name
    ensures r.None? ==> forall i :: 0 <= i < |bs| ==> bs[i].player.name != name
  {
    if |bs| == 0 then None
    else if bs[0].player.name == name then Some(0)
    else match FindBowler(bs[1..], name)
      case Some(i) => Some(i + 1)
      case None => None
  }

  function ZeroBowler(p: Player): BowlerState {
    BowlerState(p, 0, 0, 0, 0)
  }

  /** `initialBowlers[p.name] = {player: p, …zeros}`: a new key goes last,
      an existing key keeps its place and gets the new value. */
  function Register(bs: Bowlers, p: Player): (r: Bowlers)
    ensures FindBowler(bs, p.name).Some? ==> |r| == |bs|
    ensures FindBowler(bs, p.name).None? ==> r == bs + [ZeroBowler(p)]
  {
    match FindBowler(bs, p.name)
    case Some(i) => bs[i := ZeroBowler(p)]
    case None => bs + [ZeroBowler(p)]
  }

  /** The `forEach` building `initialBowlers` from the lineup. */
  function BowlersOf(lineup: seq<Player>): Bowlers
    decreases |lineup|
  {
    if |lineup| == 0 then [] else Register(BowlersOf(lineup[..|lineup| - 1]), lineup[|lineup| - 1])
  }

  /** All counters of an entry are zero. */
  predicate Fresh(b: BowlerState) {
    b.overs == 0 && b.balls == 0 && b.runs == 0 && b.wickets == 0
  }

  /** The initial object has one zeroed entry per lineup name and nothing
      else. */
  lemma {:induction false} BowlersOfShape(lineup: seq<Player>)
    ensures forall i :: 0 <= i < |BowlersOf(lineup)| ==> Fresh(BowlersOf(lineup)[i])
    ensures forall i :: 0 <= i < |BowlersOf(lineup)| ==> BowlersOf(lineup)[i].player in lineup
    ensures forall p :: p in lineup ==> FindBowler(BowlersOf(lineup), p.name).Some?
    decreases |lineup|
  {
    if |lineup| > 0 {
      var init, last := lineup[..|lineup| - 1], lineup[|lineup| - 1];
      BowlersOfShape(init);
      assert lineup == init + [last];
      var bs := BowlersOf(init);
      var r := Register(bs, last);
      assert r == BowlersOf(lineup);
      forall p | p in lineup
        ensures FindBowler(r, p.name).Some?
      {
        if p != last {
          assert p in init;
          var i := FindBowler(bs, p.name).value;
          assert r[i].player.name == p.name;
        } else {
          assert r[|r| - 1] == ZeroBowler(last) || r[FindBowler(bs, last.name).value] == ZeroBowler(last);
        }
      }
    }
  }

  /** The keys are distinct: no name is entered twice. */
  lemma {:induction false} BowlersOfDistinct(lineup: seq<Player>)
    ensures forall i, j :: 0 <= i < j < |BowlersOf(lineup)| ==>
      BowlersOf(lineup)[i].player.name != BowlersOf(lineup)[j].player.name
    decreases |lineup|
  {
    if |lineup| > 0 {
      BowlersOfDistinct(lineup[..|lineup| - 1]);
    }
  }

  // ---------------------------------------------------------------------
  // The batting card
  // ---------------------------------------------------------------------

  /** The updaters passed to `updateBatsman`. */
  datatype BatsmanUpdate = FacedBall | Scored(n: int) | Dismissed(text: string) | Activated

  function ApplyUpdate(b: BatsmanState, u: BatsmanUpdate): BatsmanState {
    match u
    case FacedBall => b.(balls := b.balls + 1)
    case Scored(n) => b.(runs := b.runs + n, balls := b.balls + 1)
    case Dismissed(text) => b.(balls := b.balls + 1, status := Out, outType := Some(text))
    case Activated => b.(status := Active)
  }

  /** `updateBatsman`: every entry named `name` is updated, the others are
      kept. */
  function UpdateBatsman(bs: seq<BatsmanState>, name: string, u: BatsmanUpdate): (r: seq<BatsmanState>)
    ensures |r| == |bs|
    ensures forall i :: 0 <= i < |bs| ==> r[i] == (if bs[i].player.name == name then ApplyUpdate(bs[i], u) else bs[i])
  {
    seq(|bs|, i requires 0 <= i < |bs| => if bs[i].player.name == name then ApplyUpdate(bs[i], u) else bs[i])
  }

  /** `batsmen.find(b => b.player.name === name)`. */
  function FindBatsman(bs: seq<BatsmanState>, name: string): (r: Option<BatsmanState>)
    ensures r.Some? ==> r.value in bs && r.value.player.name == name
    ensures r.None? ==> forall i :: 0 <= i < |bs| ==> bs[i].player.name != name
  {
    if |bs| == 0 then None
    else if bs[0].player.name == name then Some(bs[0])
    else FindBatsman(bs[1..], name)
  }

  // ---------------------------------------------------------------------
  // One delivery
  // ---------------------------------------------------------------------

  /** Wides and no-balls do not count as balls. */
  predicate Legal(o: BallOutcome) {
    !(o.Wide? || o.NoBall?)
  }

  /** A legal ball for the bowler: six balls make an over. */
  function AddLegalBall(b: BowlerState): (r: BowlerState)
    ensures r.runs == b.runs && r.wickets == b.wickets && r.player == b.player
    ensures b.balls < 6 ==> r.overs * 6 + r.balls == b.overs * 6 + b.balls + 1
    ensures b.balls >= 0 ==> 0 <= r.balls < 6
    ensures r.overs >= b.overs
  {
    if b.balls + 1 >= 6 then b.(overs := b.overs + 1, balls := 0) else b.(balls := b.balls + 1)
  }

  /** What the outcome switch changes. */
  datatype Effect = Effect(
    inn: InningState, bowler: BowlerState, left: ActivePlayer, right: ActivePlayer,
    next: int, pending: Option<Pair>, wicket: bool)

  /** The `switch (outcome.type)` of the updater, applied after the ball
      counts. `fd` is the draw of the catcher or run-out fielder. */
  function OutcomeEffect(s: MatchState, inn: InningState, bowler: BowlerState,
                         left: ActivePlayer, right: ActivePlayer, o: BallOutcome, fd: real): (e: Effect)
    requires 0.0 <= fd < 1.0
    ensures e.inn.balls == inn.balls && e.inn.bowlers == inn.bowlers && e.inn.currentBowlerId == inn.currentBowlerId
    ensures e.bowler.overs == bowler.overs && e.bowler.balls == bowler.balls && e.bowler.player == bowler.player
  {
    var name := left.player.name;
    match o
    case Run(n, legBye) =>
      var l := left.(ball := left.ball + 1);
      var e := if legBye then
        Effect(inn.(runs := inn.runs + n, batsmen := UpdateBatsman(inn.batsmen, name, FacedBall)),
               bowler, l, right, s.nextBatsmanIndex, s.pending, false)
      else
        Effect(inn.(runs := inn.runs + n, batsmen := UpdateBatsman(inn.batsmen, name, Scored(n))),
               bowler.(runs := bowler.runs + n), l.(run := l.run + n), right, s.nextBatsmanIndex, s.pending, false);
      if JsRem(n, 2) == 1 then e.(left := e.right, right := e.left) else e
    case Four =>
      Effect(inn.(runs := inn.runs + 4, batsmen := UpdateBatsman(inn.batsmen, name, Scored(4))),
             bowler.(runs := bowler.runs + 4), left.(run := left.run + 4, ball := left.ball + 1),
             right, s.nextBatsmanIndex, s.pending, false)
    case Six =>
      Effect(inn.(runs := inn.runs + 6, batsmen := UpdateBatsman(inn.batsmen, name, Scored(6))),
             bowler.(runs := bowler.runs + 6), left.(run := left.run + 6, ball := left.ball + 1),
             right, s.nextBatsmanIndex, s.pending, false)
    case Dot =>
      Effect(inn.(batsmen := UpdateBatsman(inn.batsmen, name, FacedBall)),
             bowler, left.(ball := left.ball + 1), right, s.nextBatsmanIndex, s.pending, false)
    case Wicket(kind) =>
      var out := GetOutType(kind, bowler.player, s.bowlingLineup, fd);
      var b := if out.bowlerGetsWicket then bowler.(wickets := bowler.wickets + 1) else bowler;
      var l := left.(ball := left.ball + 1);
      var card := UpdateBatsman(inn.batsmen, name, Dismissed(out.text));
      var inn1 := inn.(wickets := inn.wickets + 1, batsmen := card);
      NextBatsman(s, inn1, b, l, right)
    case Wide =>
      Effect(inn.(runs := inn.runs + 1), bowler.(runs := bowler.runs + 1), left, right,
             s.nextBatsmanIndex, s.pending, false)
    case NoBall =>
      Effect(inn.(runs := inn.runs + 1), bowler.(runs := bowler.runs + 1), left, right,
             s.nextBatsmanIndex, s.pending, false)
  }

  /** After a dismissal: the next batsman in the order, if there is one and
      the card has them, comes in on the striker's side and is remembered
      with the other batsman as the pending pair. */
  function NextBatsman(s: MatchState, inn: InningState, bowler: BowlerState,
                       left: ActivePlayer, right: ActivePlayer): (e: Effect)
    ensures e.inn.runs == inn.runs && e.inn.wickets == inn.wickets && e.inn.balls == inn.balls
    ensures e.inn.bowlers == inn.bowlers && e.inn.currentBowlerId == inn.currentBowlerId
    ensures e.bowler == bowler && e.right == right && e.wicket
  {
    var k := s.nextBatsmanIndex;
    if 0 <= k < |s.battingOrder| then
      var p := s.battingOrder[k];
      match FindBatsman(inn.batsmen, p.name)
      case Some(b) =>
        var newLeft := ActivePlayer(p, 3, b.runs, b.balls);
        Effect(inn.(batsmen := UpdateBatsman(inn.batsmen, p.name, Activated)), bowler, newLeft, right,
               k + 1, Some(Pair(Some(newLeft), Some(right))), true)
      case None => Effect(inn, bowler, left, right, k, s.pending, true)
    else Effect(inn, bowler, left, right, k, s.pending, true)
  }

  /** Whether the delivery just ended an over. */
  predicate EndsOver(o: BallOutcome, inn: InningState) {
    Legal(o) && inn.balls % 6 == 0
  }

  /** `(currentBowlerIndex + 1) % bowlingLineup.length`. */
  function NextBowlerIndex(s: MatchState): int {
    if |s.bowlingLineup| == 0 then s.currentBowlerIndex
    else (s.currentBowlerIndex + 1) % |s.bowlingLineup|
  }

  /** `bowlingLineup[nextIndex]?.name || inning.currentBowlerId`. */
  function NextBowlerId(s: MatchState, current: string): string {
    var k := NextBowlerIndex(s);
    if 0 <= k < |s.bowlingLineup| && s.bowlingLineup[k].name != "" then s.bowlingLineup[k].name else current
  }

  /** The checks at the top of the updater: the innings is over, or there is
      no current bowler or no pair at the crease. */
  predicate Playable(s: MatchState) {
    var inn := CurrentInning(s.game);
    !s.simulateDisabled &&
    !(s.game.currentInnings == 2 && inn.runs >= s.game.inning1.runs + 1) &&
    !(inn.wickets >= MaxWickets || inn.balls >= MaxBalls) &&
    inn.currentBowlerId != "" && FindBowler(inn.bowlers, inn.currentBowlerId).Some? &&
    s.active.left.Some? && s.active.right.Some?
  }

  /** `simulateOneBall` with the outcome `o` of `simulateBall` and the
      fielder draw `fd`. */
  function Deliver(s: MatchState, o: BallOutcome, fd: real): (r: MatchState)
    requires 0.0 <= fd < 1.0
    ensures !Playable(s) ==> r.game == s.game && r.active == s.active && r.pending == s.pending
  {
    var g := s.game;
    var inn := CurrentInning(g);
    if s.simulateDisabled then s
    else if g.currentInnings == 2 && inn.runs >= g.inning1.runs + 1 then s.(alert := InningsAlert(true))
    else if inn.wickets >= MaxWickets || inn.balls >= MaxBalls then s.(alert := InningsAlert(g.currentInnings != 1))
    else if inn.currentBowlerId == "" then s
    else match FindBowler(inn.bowlers, inn.currentBowlerId)
      case None => s
      case Some(bi) =>
        if s.active.left.None? || s.active.right.None? then s
        else Ball(s, inn, bi, o, fd)
  }

  /** The body of the updater once every check has passed. */
  function Ball(s: MatchState, inn: InningState, bi: nat, o: BallOutcome, fd: real): (r: MatchState)
    requires 0.0 <= fd < 1.0
    requires bi < |inn.bowlers|
    requires s.active.left.Some? && s.active.right.Some?
  {
    var bowler0 := inn.bowlers[bi];
    var legal := Legal(o);
    var inn1 := if legal then inn.(balls := inn.balls + 1) else inn;
    var bowler1 := if legal then AddLegalBall(bowler0) else bowler0;
    var e := OutcomeEffect(s, inn1, bowler1, s.active.left.value, s.active.right.value, o, fd);
    var endOver := EndsOver(o, e.inn);
    var pair := if endOver then Pair(Some(e.right), Some(e.left)) else Pair(Some(e.left), Some(e.right));
    var id := if endOver then NextBowlerId(s, e.inn.currentBowlerId) else e.inn.currentBowlerId;
    var inn2 := e.inn.(currentBowlerId := id, bowlers := e.inn.bowlers[bi := e.bowler]);
    s.(game := WithInning(s.game, inn2),
       active := pair,
       nextBatsmanIndex := e.next,
       currentBowlerIndex := if endOver then NextBowlerIndex(s) else s.currentBowlerIndex,
       pending := e.pending,
       simulateDisabled := e.wicket,
       wicketAlert := s.wicketAlert || e.wicket)
  }

  /** The wicket alert's OK: restore the pending pair, if any, and
      re-enable the button. */
  function Acknowledge(s: MatchState): (r: MatchState)
    ensures r.pending.None? && !r.wicketAlert && !r.simulateDisabled
    ensures r.game == s.game
    ensures s.pending.Some? ==> r.active == s.pending.value
    ensures s.pending.None? ==> r.active == s.active
  {
    var a := if s.pending.Some? then s.pending.value else s.active;
    s.(active := a, pending := None, wicketAlert := false, simulateDisabled := false)
  }

  // ---------------------------------------------------------------------
  // Drawing the outcome
  // ---------------------------------------------------------------------

  /** Powerplay for overs 0-5, middle for 6-15, death afterwards. */
  function PhaseOf(over: int): (p: Phase)
    ensures p == Powerplay <==> over < 6
    ensures p == Death <==> over >= 16
  {
    if over < 6 then Powerplay else if over < 16 then Middle else Death
  }

  /** The outcome `simulateBall` draws for the striker against the current
      bowler; a dot when nobody is at the crease or bowling, since the
      updater then returns before using it. */
  function DrawOutcome(s: MatchState, d: BallDraws): (o: BallOutcome)
    requires Generator.ValidDraws(d)
    ensures ValidOutcome(o)
  {
    var inn := CurrentInning(s.game);
    match FindBowler(inn.bowlers, inn.currentBowlerId)
    case Some(bi) =>
      if s.active.left.Some? then
        var left := s.active.left.value;
        SimulateBall(
          Batsman(left.player.batting, left.aggression, None, "top"),
          Bowler(inn.bowlers[bi].player.bowling, "fast"),
          GetFieldingType(s.fielding),
          GameContext(PhaseOf(inn.balls / 6), false, None, None, inn.wickets),
          d)
      else Dot
    case None => Dot
  }

  /** One press of "Simulate". */
  function Simulate(s: MatchState, d: BallDraws, fd: real): MatchState
    requires Generator.ValidDraws(d) && 0.0 <= fd < 1.0
  {
    Deliver(s, DrawOutcome(s, d), fd)
  }

  // ---------------------------------------------------------------------
  // The other handlers of the screen
  // ---------------------------------------------------------------------

  /** The fielding the effect picks while the opponent bowls, by the
      1-based number of the coming over. */
  function OppFielding(over: int): string {
    var o := over + 1;
    if o <= 3 then "Attacking 1"
    else if o <= 6 then "Attacking 2"
    else if o <= 10 then "Neutral 1"
    else if o <= 16 then "Neutral 2"
    else "Defensive 1"
  }

  /** The two fielding effects: by over while the opponent bowls, reset to
      'Attacking 1' when the user bowls. */
  function SyncFielding(s: MatchState): (r: MatchState)
    ensures r.(fielding := s.fielding) == s
  {
    var over := CurrentInning(s.game).balls / 6;
    if s.game.bowlingTeam == Opp then s.(fielding := OppFielding(over))
    else s.(fielding := "Attacking 1")
  }

  /** The fielding picker's OK. */
  function ChooseFielding(s: MatchState, f: string): (r: MatchState)
    ensures r.fielding == f && !r.simulateDisabled
    ensures r.(fielding := s.fielding, simulateDisabled := s.simulateDisabled) == s
  {
    s.(fielding := f, simulateDisabled := false)
  }

  /** `onChangeAggression`: a batsman at the crease gets the new level. */
  function ChangeAggression(s: MatchState, leftSide: bool, level: int): (r: MatchState)
    ensures leftSide && s.active.left.Some? ==> r.active.left == Some(s.active.left.value.(aggression := level))
    ensures leftSide ==> r.active.right == s.active.right
    ensures !leftSide && s.active.right.Some? ==> r.active.right == Some(s.active.right.value.(aggression := level))
    ensures !leftSide ==> r.active.left == s.active.left
    ensures r.(active := s.active) == s
  {
    if leftSide then
      if s.active.left.Some? then s.(active := s.active.(left := Some(s.active.left.value.(aggression := level)))) else s
    else
      if s.active.right.Some? then s.(active := s.active.(right := Some(s.active.right.value.(aggression := level)))) else s
  }
}

=== FILE: innings_facts.dfy ===
/** What the innings reducer keeps true, and what each kind of delivery
    does to the score, the bowler's figures and the pair at the crease. */
module InningsFacts {
  import opened Common
  import opened Generator
  import opened MatchHelper
  import opened Innings
  import opened InningsStart
  import Lineup

  // ---------------------------------------------------------------------
  // Totals over the bowlers object
  // ---------------------------------------------------------------------

  datatype Counter = BallsBowled | WicketsTaken | RunsConceded

  function Val(b: BowlerState, c: Counter): int {
    match c
    case BallsBowled => b.overs * 6 + b.balls
    case WicketsTaken => b.wickets
    case RunsConceded => b.runs
  }

  function Total(bs: Bowlers, c: Counter): int {
    if |bs| == 0 then 0 else Val(bs[0], c) + Total(bs[1..], c)
  }

  /** Overwriting one entry changes the total by the difference. */
  lemma {:induction false} TotalUpdate(bs: Bowlers, i: nat, b: BowlerState, c: Counter)
    requires i < |bs|
    ensures Total(bs[i := b], c) == Total(bs, c) - Val(bs[i], c) + Val(b, c)
    decreases i
  {
    if i > 0 {
      assert bs[i := b][1..] == bs[1..][i - 1 := b];
      TotalUpdate(bs[1..], i - 1, b, c);
    }
  }

  lemma {:induction false} TotalFresh(bs: Bowlers, c: Counter)
    requires forall i :: 0 <= i < |bs| ==> Fresh(bs[i])
    ensures Total(bs, c) == 0
    decreases |bs|
  {
    if |bs| > 0 {
      assert Fresh(bs[0]);
      TotalFresh(bs[1..], c);
    }
  }

  // ---------------------------------------------------------------------
  // The invariant
  // ---------------------------------------------------------------------

  predicate BowlerValid(b: BowlerState) {
    b.overs >= 0 && 0 <= b.balls < 6 && b.runs >= 0 && b.wickets >= 0
  }

  /** At most ten wickets and 120 balls; every bowler's ball count below
      six; the bowlers' balls add up to the innings' balls, their wickets
      to at most the innings' wickets (run outs are not credited) and their
      runs to at most the innings' runs (leg byes are not charged). */
  predicate InningValid(inn: InningState) {
    0 <= inn.wickets <= MaxWickets && 0 <= inn.balls <= MaxBalls && inn.runs >= 0 &&
    (forall i :: 0 <= i < |inn.bowlers| ==> BowlerValid(inn.bowlers[i])) &&
    Total(inn.bowlers, BallsBowled) == inn.balls &&
    Total(inn.bowlers, WicketsTaken) <= inn.wickets &&
    Total(inn.bowlers, RunsConceded) <= inn.runs
  }

  predicate Valid(s: MatchState) {
    (s.game.currentInnings == 1 || s.game.currentInnings == 2) && InningValid(CurrentInning(s.game))
  }

  /** A new innings satisfies the invariant. */
  lemma FreshInningValid(order: seq<Player>, lineup: seq<Player>)
    ensures InningValid(FreshInning(order, lineup))
  {
    var bs := BowlersOf(lineup);
    BowlersOfShape(lineup);
    TotalFresh(bs, BallsBowled);
    TotalFresh(bs, WicketsTaken);
    TotalFresh(bs, RunsConceded);
  }

  lemma InitValid(toss: TossState, your: seq<Player>, opp: seq<Player>, draws: seq<real>)
    requires Lineup.ValidDraws(draws)
    requires Init(InitialMatch, toss, your, opp, draws).Ok?
    ensures Valid(Init(InitialMatch, toss, your, opp, draws).value)
  {
    var r := Init(InitialMatch, toss, your, opp, draws).value;
    FreshInningValid(r.battingOrder, r.bowlingLineup);
    TotalFresh([], BallsBowled);
    TotalFresh([], WicketsTaken);
    TotalFresh([], RunsConceded);
  }

  lemma StartSecondInningsValid(s: MatchState, toss: TossState, your: seq<Player>, opp: seq<Player>, draws: seq<real>)
    requires Lineup.ValidDraws(draws)
    requires StartSecondInnings(s, toss, your, opp, draws).Ok?
    ensures Valid(StartSecondInnings(s, toss, your, opp, draws).value)
  {
    var r := StartSecondInnings(s, toss, your, opp, draws).value;
    FreshInningValid(r.battingOrder, r.bowlingLineup);
  }

  /** How the outcome switch moves the counters, for the outcomes the
      generator produces. */
  lemma EffectDeltas(s: MatchState, inn: InningState, bowler: BowlerState,
                     left: ActivePlayer, right: ActivePlayer, o: BallOutcome, fd: real)
    requires 0.0 <= fd < 1.0 && ValidOutcome(o)
    ensures var e := OutcomeEffect(s, inn, bowler, left, right, o, fd);
      e.inn.wickets == inn.wickets + (if o.Wicket? then 1 else 0) &&
      e.inn.balls == inn.balls && e.inn.bowlers == inn.bowlers &&
      e.bowler.overs == bowler.overs && e.bowler.balls == bowler.balls &&
      bowler.wickets <= e.bowler.wickets <= bowler.wickets + (if o.Wicket? then 1 else 0) &&
      bowler.runs <= e.bowler.runs && e.bowler.runs - bowler.runs <= e.inn.runs - inn.runs
  {
  }

  /** Overwriting one bowler's entry keeps the invariant when the innings'
      counters move at least as far as the bowler's. */
  lemma UpdateValid(inn: InningState, bi: nat, b: BowlerState, out: InningState)
    requires InningValid(inn) && bi < |inn.bowlers| && BowlerValid(b)
    requires out.bowlers == inn.bowlers[bi := b]
    requires 0 <= out.wickets <= MaxWickets && 0 <= out.balls <= MaxBalls && out.runs >= 0
    requires out.balls - inn.balls == Val(b, BallsBowled) - Val(inn.bowlers[bi], BallsBowled)
    requires Val(b, WicketsTaken) - Val(inn.bowlers[bi], WicketsTaken) <= out.wickets - inn.wickets
    requires Val(b, RunsConceded) - Val(inn.bowlers[bi], RunsConceded) <= out.runs - inn.runs
    ensures InningValid(out)
  {
    TotalUpdate(inn.bowlers, bi, b, BallsBowled);
    TotalUpdate(inn.bowlers, bi, b, WicketsTaken);
    TotalUpdate(inn.bowlers, bi, b, RunsConceded);
  }

  /** Every delivery keeps the invariant. */
  lemma DeliverValid(s: MatchState, o: BallOutcome, fd: real)
    requires 0.0 <= fd < 1.0 && ValidOutcome(o)
    requires Valid(s)
    ensures Valid(Deliver(s, o, fd))
  {
    if Playable(s) {
      var inn := CurrentInning(s.game);
      var bi := FindBowler(inn.bowlers, inn.currentBowlerId).value;
      BallValid(s, inn, bi, o, fd);
    }
  }

  lemma BallValid(s: MatchState, inn: InningState, bi: nat, o: BallOutcome, fd: real)
    requires 0.0 <= fd < 1.0 && ValidOutcome(o)
    requires Valid(s) && inn == CurrentInning(s.game) && Playable(s)
    requires bi < |inn.bowlers| && s.active.left.Some? && s.active.right.Some?
    ensures Valid(Ball(s, inn, bi, o, fd))
  {
    var bowler0 := inn.bowlers[bi];
    assert BowlerValid(bowler0);
    var legal := Legal(o);
    var inn1 := if legal then inn.(balls := inn.balls + 1) else inn;
    var bowler1 := if legal then AddLegalBall(bowler0) else bowler0;
    assert Val(bowler1, BallsBowled) - Val(bowler0, BallsBowled) == inn1.balls - inn.balls;
    var e := OutcomeEffect(s, inn1, bowler1, s.active.left.value, s.active.right.value, o, fd);
    EffectDeltas(s, inn1, bowler1, s.active.left.value, s.active.right.value, o, fd);
    var r := Ball(s, inn, bi, o, fd);
    var out := CurrentInning(r.game);
    assert out == e.inn.(currentBowlerId := out.currentBowlerId, bowlers := inn.bowlers[bi := e.bowler]);
    UpdateValid(inn, bi, e.bowler, out);
  }

  /** Hence the bounds that hold in every reachable state. */
  lemma Bounds(s: MatchState)
    requires Valid(s)
    ensures CurrentInning(s.game).wickets <= 10 && CurrentInning(s.game).balls <= 120
    ensures forall i :: 0 <= i < |CurrentInning(s.game).bowlers| ==> CurrentInning(s.game).bowlers[i].balls < 6
  {
  }
}

=== FILE: innings_start.dfy ===
/** Starting an innings (`src/screens/MatchScreen.tsx`): the effect that
    sets up the first innings from the toss, and `startSecondInnings`. */
module InningsStart {
  import opened Common
  import opened Innings
  import Lineup

  /** The user bats first when they won the toss and chose to bat, or lost
      it and the opponent did not choose to bat. */
  predicate UserBats(toss: TossState) {
    (toss.winner == User && toss.choice == Some(BatFirst)) ||
    (toss.winner == Opp && toss.choice != Some(BatFirst))
  }

  /** The batting card at the start of an innings: the batting order, the
      first two 'active', everyone else 'inactive', nothing scored. */
  function Card(order: seq<Player>): (card: seq<BatsmanState>)
    ensures |card| == |order|
    ensures forall i :: 0 <= i < |order| ==> card[i].player == order[i]
    ensures forall i :: 0 <= i < |order| ==> card[i].runs == 0 && card[i].balls == 0 && card[i].outType.None?
    ensures forall i :: 0 <= i < |order| ==> (card[i].status == Active <==> i < 2)
    ensures forall i :: 0 <= i < |order| ==> (card[i].status == Inactive <==> i >= 2)
  {
    seq(|order|, i requires 0 <= i < |order| =>
      BatsmanState(order[i], 0, 0, if i < 2 then Active else Inactive, None))
  }

  /** The openers on strike (left) and at the other end (right), both at
      aggression 3. A missing opener is left empty. */
  function OpeningPair(order: seq<Player>): (pair: Pair)
    ensures |order| >= 2 ==> pair == Pair(Some(ActivePlayer(order[0], 3, 0, 0)), Some(ActivePlayer(order[1], 3, 0, 0)))
    ensures |order| < 2 ==> pair.right.None?
  {
    Pair(if |order| > 0 then Some(ActivePlayer(order[0], 3, 0, 0)) else None,
         if |order| > 1 then Some(ActivePlayer(order[1], 3, 0, 0)) else None)
  }

  /** `bowlingPlayers[0]?.name || ''`. */
  function FirstBowlerId(lineup: seq<Player>): (id: string)
    ensures |lineup| > 0 ==> id == lineup[0].name
    ensures |lineup| == 0 ==> id == ""
  {
    if |lineup| > 0 then lineup[0].name else ""
  }

  /** A new innings: no runs, wickets or balls, the fresh card, one zeroed
      bowler per lineup name and the first bowler of the lineup on. */
  function FreshInning(order: seq<Player>, lineup: seq<Player>): InningState {
    InningState(0, 0, 0, Card(order), BowlersOf(lineup), FirstBowlerId(lineup))
  }

  /** The initialisation effect, once the toss and both squads are known.
      Without both squads it does nothing; a lineup that cannot be built
      is the error `generateBowlingLineup` throws. Note that the game
      record gets `battingTeam2`, not `battingTeam`. */
  function Init(s: MatchState, toss: TossState, yourPlayers: seq<Player>, oppPlayers: seq<Player>,
                draws: seq<real>): (r: Result<MatchState, string>)
    requires Lineup.ValidDraws(draws)
    ensures |yourPlayers| == 0 || |oppPlayers| == 0 ==> r == Ok(s)
    ensures r.Ok? && |yourPlayers| > 0 && |oppPlayers| > 0 ==>
      r.value.battingOrder == (if UserBats(toss) then yourPlayers else oppPlayers) &&
      r.value.game.bowlingTeam == (if UserBats(toss) then Opp else User) &&
      r.value.game.battingTeam == s.game.battingTeam &&
      r.value.nextBatsmanIndex == 2 && r.value.currentBowlerIndex == 0 &&
      r.value.active == OpeningPair(r.value.battingOrder) &&
      r.value.game.inning1 == FreshInning(r.value.battingOrder, r.value.bowlingLineup) &&
      r.value.game.inning2 == s.game.inning2 && r.value.game.currentInnings == s.game.currentInnings
    ensures r.Err? ==> r.error == Lineup.TooFewBowlers || r.error == Lineup.NoValidLineup
  {
    if |yourPlayers| == 0 || |oppPlayers| == 0 then Ok(s)
    else
      var userBats := UserBats(toss);
      var order := if userBats then yourPlayers else oppPlayers;
      match Lineup.GenerateBowlingLineup(if userBats then oppPlayers else yourPlayers, draws)
      case Err(e) => Err(e)
      case Ok(lineup) =>
        Ok(s.(battingOrder := order,
              active := OpeningPair(order),
              nextBatsmanIndex := 2,
              bowlingLineup := lineup,
              currentBowlerIndex := 0,
              game := s.game.(bowlingTeam := if userBats then Opp else User,
                              inning1 := FreshInning(order, lineup))))
  }

  /** `startSecondInnings`: the sides swap, a new lineup is drawn for the
      side now bowling and the second innings begins. */
  function StartSecondInnings(s: MatchState, toss: TossState, yourPlayers: seq<Player>, oppPlayers: seq<Player>,
                              draws: seq<real>): (r: Result<MatchState, string>)
    requires Lineup.ValidDraws(draws)
    ensures r.Ok? ==>
      r.value.game.battingTeam == (if UserBats(toss) then Opp else User) &&
      r.value.game.bowlingTeam == (if UserBats(toss) then User else Opp) &&
      r.value.battingOrder == (if UserBats(toss) then oppPlayers else yourPlayers) &&
      r.value.game.currentInnings == 2 && r.value.game.inning1 == s.game.inning1 &&
      r.value.game.inning2 == Some(FreshInning(r.value.battingOrder, r.value.bowlingLineup)) &&
      r.value.nextBatsmanIndex == 2 && r.value.currentBowlerIndex == 0 &&
      r.value.active == OpeningPair(r.value.battingOrder) && r.value.alert == NoAlert
    ensures r.Err? ==> r.error == Lineup.TooFewBowlers || r.error == Lineup.NoValidLineup
  {
    var newBatting := if UserBats(toss) then Opp else User;
    var batting := if newBatting == User then yourPlayers else oppPlayers;
    var bowling := if newBatting == User then oppPlayers else yourPlayers;
    match Lineup.GenerateBowlingLineup(bowling, draws)
    case Err(e) => Err(e)
    case Ok(lineup) =>
      Ok(s.(battingOrder := batting,
            bowlingLineup := lineup,
            currentBowlerIndex := 0,
            nextBatsmanIndex := 2,
            active := OpeningPair(batting),
            alert := NoAlert,
            game := s.game.(inning2 := Some(FreshInning(batting, lineup)),
                            battingTeam := newBatting,
                            bowlingTeam := if newBatting == User then Opp else User,
                            currentInnings := 2)))
  }

  /** The side that bowls first is the side that bats second. */
  lemma SidesSwap(s: MatchState, t: MatchState, toss: TossState, your: seq<Player>, opp: seq<Player>,
                  d1: seq<real>, d2: seq<real>)
    requires Lineup.ValidDraws(d1) && Lineup.ValidDraws(d2)
    requires |your| > 0 && |opp| > 0
    requires Init(s, toss, your, opp, d1).Ok? && StartSecondInnings(t, toss, your, opp, d2).Ok?
    ensures Init(s, toss, your, opp, d1).value.game.bowlingTeam == StartSecondInnings(t, toss, your, opp, d2).value.game.battingTeam
    ensures {Init(s, toss, your, opp, d1).value.battingOrder, StartSecondInnings(t, toss, your, opp, d2).value.battingOrder} == {your, opp}
  {
  }

  /** Because the update writes `battingTeam2`, the game record still says
      the user bats in the first innings even when the opponent does. */
  lemma FirstInningsBattingTeamStaysUser(toss: TossState, your: seq<Player>, opp: seq<Player>, draws: seq<real>)
    requires Lineup.ValidDraws(draws) && |your| > 0 && |opp| > 0
    requires !UserBats(toss)
    requires Init(InitialMatch, toss, your, opp, draws).Ok?
    ensures Init(InitialMatch, toss, your, opp, draws).value.game.battingTeam == User
    ensures Init(InitialMatch, toss, your, opp, draws).value.game.bowlingTeam == User
  {
  }

  /** The four toss results and who bats first. */
  lemma TossOutcomes()
    ensures UserBats(TossState(User, Some(BatFirst)))
    ensures !UserBats(TossState(User, Some(BowlFirst)))
    ensures !UserBats(TossState(User, None))
    ensures !UserBats(TossState(Opp, Some(BatFirst)))
    ensures UserBats(TossState(Opp, Some(BowlFirst)))
    ensures UserBats(TossState(Opp, None))
  {
  }
}

=== FILE: innings_steps.dfy ===
/** One delivery of the innings reducer, outcome by outcome: what it adds
    to the innings, to the bowler and to the striker, and how the pair at
    the crease and the bowler change at the end of an over. */
module InningsSteps {
  import opened Common
  import opened Generator
  import opened MatchHelper
  import opened Innings

  /** The entry of the bowler currently on. */
  function BowlerIndex(s: MatchState): (i: nat)
    requires Playable(s)
    ensures i < |CurrentInning(s.game).bowlers|
  {
    FindBowler(CurrentInning(s.game).bowlers, CurrentInning(s.game).currentBowlerId).value
  }

  function Striker(s: MatchState): ActivePlayer
    requires Playable(s)
  {
    s.active.left.value
  }

  function NonStriker(s: MatchState): ActivePlayer
    requires Playable(s)
  {
    s.active.right.value
  }

  /** The innings after the delivery. */
  function After(s: MatchState, o: BallOutcome, fd: real): InningState
    requires 0.0 <= fd < 1.0
  {
    CurrentInning(Deliver(s, o, fd).game)
  }

  /** When the innings is over the state is kept and the innings alert is
      raised, ending the game in the second innings. */
  lemma InningsOverRaisesAlert(s: MatchState, o: BallOutcome, fd: real)
    requires 0.0 <= fd < 1.0 && !s.simulateDisabled
    requires var inn := CurrentInning(s.game);
      (s.game.currentInnings == 2 && inn.runs >= s.game.inning1.runs + 1) ||
      inn.wickets >= MaxWickets || inn.balls >= MaxBalls
    ensures Deliver(s, o, fd) == s.(alert := InningsAlert(s.game.currentInnings != 1))
  {
  }

  /** While the wicket alert or the fielding picker is up, nothing
      happens. */
  lemma DisabledKeepsState(s: MatchState, o: BallOutcome, fd: real)
    requires 0.0 <= fd < 1.0 && s.simulateDisabled
    ensures Deliver(s, o, fd) == s
  {
  }

  /** A wide or no-ball: one run to the innings and to the bowler, no ball
      counted, nobody changes ends. */
  lemma ExtraBall(s: MatchState, o: BallOutcome, fd: real)
    requires 0.0 <= fd < 1.0 && Playable(s) && (o == Wide || o == NoBall)
    ensures var inn, r := CurrentInning(s.game), Deliver(s, o, fd);
      var inn', bi := CurrentInning(r.game), BowlerIndex(s);
      inn'.runs == inn.runs + 1 && inn'.balls == inn.balls && inn'.wickets == inn.wickets &&
      inn'.batsmen == inn.batsmen && inn'.currentBowlerId == inn.currentBowlerId &&
      inn'.bowlers == inn.bowlers[bi := inn.bowlers[bi].(runs := inn.bowlers[bi].runs + 1)] &&
      r.active == s.active && r.currentBowlerIndex == s.currentBowlerIndex
  {
  }

  /** Every other outcome counts one ball for the innings and the bowler;
      six balls make the bowler's over. The other bowlers are untouched. */
  lemma LegalBall(s: MatchState, o: BallOutcome, fd: real)
    requires 0.0 <= fd < 1.0 && Playable(s) && Legal(o)
    requires 0 <= CurrentInning(s.game).bowlers[BowlerIndex(s)].balls < 6
    ensures var inn, inn', bi := CurrentInning(s.game), After(s, o, fd), BowlerIndex(s);
      var b, b' := inn.bowlers[bi], inn'.bowlers[bi];
      inn'.balls == inn.balls + 1 &&
      |inn'.bowlers| == |inn.bowlers| &&
      b'.overs * 6 + b'.balls == b.overs * 6 + b.balls + 1 &&
      (b.balls == 5 ==> b'.overs == b.overs + 1 && b'.balls == 0) &&
      (forall j :: 0 <= j < |inn.bowlers| && j != bi ==> inn'.bowlers[j] == inn.bowlers[j])
  {
  }

  /** Runs off the bat or leg byes: the innings gets them either way, the
      bowler and the striker only off the bat; the striker faces a ball
      and an odd number of runs changes ends. When the ball ends the over
      the ends change once more and the next bowler of the lineup comes
      on. */
  lemma RunBall(s: MatchState, n: int, legBye: bool, fd: real)
    requires 0.0 <= fd < 1.0 && Playable(s) && 1 <= n <= 3
    ensures var inn, inn', bi := CurrentInning(s.game), After(s, Run(n, legBye), fd), BowlerIndex(s);
      var credit := if legBye then 0 else n;
      var striker := Striker(s).(ball := Striker(s).ball + 1, run := Striker(s).run + credit);
      var r := Deliver(s, Run(n, legBye), fd);
      var overEnds := (inn.balls + 1) % 6 == 0;
      inn'.runs == inn.runs + n && inn'.wickets == inn.wickets &&
      inn'.bowlers[bi].runs == inn.bowlers[bi].runs + credit &&
      inn'.bowlers[bi].wickets == inn.bowlers[bi].wickets &&
      (forall i :: 0 <= i < |inn.batsmen| && inn.batsmen[i].player.name == Striker(s).player.name ==>
         inn'.batsmen[i] == inn.batsmen[i].(runs := inn.batsmen[i].runs + credit, balls := inn.batsmen[i].balls + 1)) &&
      (forall i :: 0 <= i < |inn.batsmen| && inn.batsmen[i].player.name != Striker(s).player.name ==>
         inn'.batsmen[i] == inn.batsmen[i]) &&
      r.active == (if (n % 2 == 1) != overEnds then Pair(Some(NonStriker(s)), Some(striker))
                   else Pair(Some(striker), Some(NonStriker(s)))) &&
      OverChange(s, r, inn, inn', overEnds)
  {
  }

  /** How the bowler changes with the ball: at the end of an over the
      next lineup entry comes on, keeping the old name when the entry's
      name is empty; otherwise the bowler stays. */
  predicate OverChange(s: MatchState, r: MatchState, inn: InningState, inn': InningState, overEnds: bool) {
    if overEnds && |s.bowlingLineup| > 0 then
      var k := (s.currentBowlerIndex + 1) % |s.bowlingLineup|;
      r.currentBowlerIndex == k &&
      inn'.currentBowlerId == (if s.bowlingLineup[k].name != "" then s.bowlingLineup[k].name else inn.currentBowlerId)
    else
      r.currentBowlerIndex == s.currentBowlerIndex && inn'.currentBowlerId == inn.currentBowlerId
  }

  /** A four or a six: `k` runs to the innings, the bowler and the
      striker, who faces a ball and keeps strike within the over; a
      boundary off the last ball of an over sends the striker to the
      other end and brings on the next bowler. */
  lemma Boundary(s: MatchState, o: BallOutcome, fd: real)
    requires 0.0 <= fd < 1.0 && Playable(s) && (o == Four || o == Six)
    ensures var inn, inn', bi := CurrentInning(s.game), After(s, o, fd), BowlerIndex(s);
      var k := if o == Four then 4 else 6;
      var r := Deliver(s, o, fd);
      var striker := Striker(s).(run := Striker(s).run + k, ball := Striker(s).ball + 1);
      var overEnds := (inn.balls + 1) % 6 == 0;
      inn'.runs == inn.runs + k && inn'.bowlers[bi].runs == inn.bowlers[bi].runs + k &&
      inn'.wickets == inn.wickets &&
      r.active == (if overEnds then Pair(Some(NonStriker(s)), Some(striker))
                   else Pair(Some(striker), Some(NonStriker(s)))) &&
      OverChange(s, r, inn, inn', overEnds)
  {
  }

  /** A dismissal: one wicket to the innings, one to the bowler unless it
      is a run out, the striker's card entry marked out with the text of
      `getOutType`, and the alert raised. */
  lemma WicketBall(s: MatchState, kind: WicketKind, fd: real)
    requires 0.0 <= fd < 1.0 && Playable(s)
    ensures var inn, inn', bi := CurrentInning(s.game), After(s, Wicket(kind), fd), BowlerIndex(s);
      var r := Deliver(s, Wicket(kind), fd);
      inn'.wickets == inn.wickets + 1 && inn'.runs == inn.runs &&
      inn'.bowlers[bi].wickets == inn.bowlers[bi].wickets + (if kind != RunOut then 1 else 0) &&
      r.wicketAlert && r.simulateDisabled
  {
  }

  /** The card after the striker is marked out. */
  function CardAfterDismissal(s: MatchState, kind: WicketKind, fd: real): seq<BatsmanState>
    requires 0.0 <= fd < 1.0 && Playable(s)
  {
    var inn := CurrentInning(s.game);
    var bowler := AddLegalBall(inn.bowlers[BowlerIndex(s)]);
    var text := GetOutType(kind, bowler.player, s.bowlingLineup, fd).text;
    UpdateBatsman(inn.batsmen, Striker(s).player.name, Dismissed(text))
  }

  /** The name of the batsman who comes in after the dismissal: the next
      one of the batting order, when the card has an entry for them. */
  function Incoming(s: MatchState, kind: WicketKind, fd: real): Option<string>
    requires 0.0 <= fd < 1.0 && Playable(s)
  {
    var k := s.nextBatsmanIndex;
    if 0 <= k < |s.battingOrder| && FindBatsman(CardAfterDismissal(s, kind, fd), s.battingOrder[k].name).Some?
    then Some(s.battingOrder[k].name) else None
  }

  /** The card the delivery leaves behind: the striker's entries are out,
      with the text of the dismissal and one more ball faced; the entries
      of the incoming batsman are active; every other entry is as it
      was. */
  lemma DismissedEntries(s: MatchState, kind: WicketKind, fd: real)
    requires 0.0 <= fd < 1.0 && Playable(s)
    ensures var inn, inn' := CurrentInning(s.game), After(s, Wicket(kind), fd);
      var text := GetOutType(kind, inn.bowlers[BowlerIndex(s)].player, s.bowlingLineup, fd).text;
      var name, incoming := Striker(s).player.name, Incoming(s, kind, fd);
      |inn'.batsmen| == |inn.batsmen| &&
      (forall i :: 0 <= i < |inn.batsmen| && Some(inn.batsmen[i].player.name) != incoming ==>
         inn'.batsmen[i] ==
           if inn.batsmen[i].player.name == name
           then inn.batsmen[i].(balls := inn.batsmen[i].balls + 1, status := Out, outType := Some(text))
           else inn.batsmen[i]) &&
      (forall i :: 0 <= i < |inn.batsmen| && Some(inn.batsmen[i].player.name) == incoming ==>
         inn'.batsmen[i].status == Active && inn'.batsmen[i].runs == inn.batsmen[i].runs)
  {
    var card := CardAfterDismissal(s, kind, fd);
    var inn' := After(s, Wicket(kind), fd);
    if Incoming(s, kind, fd).Some? {
      assert inn'.batsmen == UpdateBatsman(card, Incoming(s, kind, fd).value, Activated);
    } else {
      assert inn'.batsmen == card;
    }
  }

  /** The next batsman in the order who has a card entry comes in on
      strike with aggression 3, the index moves on and the new pair is
      kept for the alert's OK. */
  lemma NextBatsmanComesIn(s: MatchState, kind: WicketKind, fd: real)
    requires 0.0 <= fd < 1.0 && Playable(s)
    requires 0 <= s.nextBatsmanIndex < |s.battingOrder|
    requires FindBatsman(CardAfterDismissal(s, kind, fd), s.battingOrder[s.nextBatsmanIndex].name).Some?
    ensures var r := Deliver(s, Wicket(kind), fd);
      var p := s.battingOrder[s.nextBatsmanIndex];
      var b := FindBatsman(CardAfterDismissal(s, kind, fd), p.name).value;
      var newLeft := ActivePlayer(p, 3, b.runs, b.balls);
      r.nextBatsmanIndex == s.nextBatsmanIndex + 1 &&
      r.pending == Some(Pair(Some(newLeft), Some(NonStriker(s)))) &&
      Acknowledge(r).active == Pair(Some(newLeft), Some(NonStriker(s)))
  {
  }

  /** When the order is used up the index stays and no pair is kept. */
  lemma NoBatsmanLeft(s: MatchState, kind: WicketKind, fd: real)
    requires 0.0 <= fd < 1.0 && Playable(s)
    requires !(0 <= s.nextBatsmanIndex < |s.battingOrder|)
    ensures Deliver(s, Wicket(kind), fd).nextBatsmanIndex == s.nextBatsmanIndex
    ensures Deliver(s, Wicket(kind), fd).pending == s.pending
  {
  }

  /** A dot ball ending the over: the ends change, the next bowler of the
      lineup comes on and the finished over is written back to the old
      bowler's entry. */
  lemma DotEndsOver(s: MatchState, fd: real)
    requires 0.0 <= fd < 1.0 && Playable(s)
    requires (CurrentInning(s.game).balls + 1) % 6 == 0
    requires |s.bowlingLineup| > 0
    ensures var inn, inn', bi := CurrentInning(s.game), After(s, Dot, fd), BowlerIndex(s);
      var r := Deliver(s, Dot, fd);
      var k := (s.currentBowlerIndex + 1) % |s.bowlingLineup|;
      r.active == Pair(Some(NonStriker(s)), Some(Striker(s).(ball := Striker(s).ball + 1))) &&
      r.currentBowlerIndex == k &&
      inn'.currentBowlerId == (if s.bowlingLineup[k].name != "" then s.bowlingLineup[k].name else inn.currentBowlerId) &&
      inn'.bowlers[bi] == AddLegalBall(inn.bowlers[bi])
  {
  }

  /** A wicket on the sixth ball: the delivery changes ends, but the
      alert's OK puts back the pair kept before the change, so the new
      batsman takes strike at the old end and the over's change of ends
      is lost. */
  lemma WicketOnSixthBallKeepsEnds(s: MatchState, kind: WicketKind, fd: real)
    requires 0.0 <= fd < 1.0 && Playable(s)
    requires (CurrentInning(s.game).balls + 1) % 6 == 0
    requires 0 <= s.nextBatsmanIndex < |s.battingOrder|
    requires FindBatsman(CardAfterDismissal(s, kind, fd), s.battingOrder[s.nextBatsmanIndex].name).Some?
    ensures var r := Deliver(s, Wicket(kind), fd);
      var p := s.battingOrder[s.nextBatsmanIndex];
      var b := FindBatsman(CardAfterDismissal(s, kind, fd), p.name).value;
      var newLeft := ActivePlayer(p, 3, b.runs, b.balls);
      r.active == Pair(Some(NonStriker(s)), Some(newLeft)) &&
      Acknowledge(r).active == Pair(Some(newLeft), Some(NonStriker(s)))
  {
    NextBatsmanComesIn(s, kind, fd);
  }
}

=== FILE: lineup.dfy ===
/** `generateBowlingLineup` of `src/helper/matchHelper.ts`: twenty overs
    drawn from a pool holding every BOWL/AR player four times, never the
    same name twice in a row. One `Math.random()` draw per over is a
    parameter. */
module Lineup {
  import opened Common

  const TotalOvers := 20
  const MaxOversPerBowler := 4

  const TooFewBowlers := "At least 5 bowlers are required."
  const NoValidLineup := "Cannot generate a valid lineup without consecutive overs"

  /** `players.filter(p => p.role === 'BOWL' || p.role === 'AR')`. */
  function Bowlers(players: seq<Player>): (bs: seq<Player>)
    ensures |bs| <= |players|
    ensures forall p :: p in bs <==> p in players && CanBowl(p.role)
  {
    if |players| == 0 then []
    else (if CanBowl(players[0].role) then [players[0]] else []) + Bowlers(players[1..])
  }

  /** `k` copies of `p`. */
  function Rep(p: Player, k: nat): (s: seq<Player>)
    ensures |s| == k
  {
    if k == 0 then [] else [p] + Rep(p, k - 1)
  }

  lemma {:induction false} RepMembers(p: Player, k: nat)
    ensures forall q :: q in Rep(p, k) ==> q == p
    ensures k > 0 ==> p in Rep(p, k)
    decreases k
  {
    if k > 0 {
      RepMembers(p, k - 1);
    }
  }

  /** A squad of bowlers filters to itself. */
  lemma {:induction false} AllBowlers(players: seq<Player>)
    requires forall i :: 0 <= i < |players| ==> CanBowl(players[i].role)
    ensures Bowlers(players) == players
    decreases |players|
  {
    if |players| > 0 {
      AllBowlers(players[1..]);
    }
  }

  /** Every bowler pushed four times, bowler by bowler. */
  function Pool(bs: seq<Player>): (pool: seq<Player>)
    ensures |pool| == MaxOversPerBowler * |bs|
  {
    if |bs| == 0 then [] else Rep(bs[0], MaxOversPerBowler) + Pool(bs[1..])
  }

  /** The pool holds exactly the bowlers. */
  lemma {:induction false} PoolMembers(bs: seq<Player>)
    ensures forall p :: p in Pool(bs) <==> p in bs
    decreases |bs|
  {
    if |bs| > 0 {
      PoolMembers(bs[1..]);
      RepMembers(bs[0], MaxOversPerBowler);
      assert bs == [bs[0]] + bs[1..];
    }
  }

  /** Number of players called `n`. */
  function NameCount(ps: seq<Player>, n: string): nat {
    multiset(Names(ps))[n]
  }

  lemma {:induction false} RepNameCount(p: Player, k: nat, n: string)
    ensures NameCount(Rep(p, k), n) == if p.name == n then k else 0
    decreases k
  {
    if k > 0 {
      NamesAppend([p], Rep(p, k - 1));
      assert Names([p]) == [p.name];
      RepNameCount(p, k - 1, n);
    }
  }

  /** The pool holds four entries per bowler of each name. */
  lemma {:induction false} PoolNameCount(bs: seq<Player>, n: string)
    ensures NameCount(Pool(bs), n) == MaxOversPerBowler * NameCount(bs, n)
    decreases |bs|
  {
    if |bs| > 0 {
      var b := bs[0];
      NamesAppend(Rep(b, MaxOversPerBowler), Pool(bs[1..]));
      RepNameCount(b, MaxOversPerBowler, n);
      assert Names(bs) == [b.name] + Names(bs[1..]);
      PoolNameCount(bs[1..], n);
    }
  }

  /** The name of the previous over's bowler (`lineup[lineup.length - 1]?.name`). */
  function LastName(lineup: seq<Player>): (n: Option<string>)
    ensures n.None? <==> |lineup| == 0
    ensures n.Some? ==> n.value == lineup[|lineup| - 1].name
  {
    if |lineup| == 0 then None else Some(lineup[|lineup| - 1].name)
  }

  /** The pool entries whose name differs from the previous bowler's. */
  function Available(pool: seq<Player>, last: Option<string>): (avail: seq<Player>)
    ensures |avail| <= |pool|
  {
    if |pool| == 0 then []
    else (if Some(pool[0].name) != last then [pool[0]] else []) + Available(pool[1..], last)
  }

  /** `available` holds exactly the pool entries not named like the
      previous bowler. */
  lemma {:induction false} AvailableMembers(pool: seq<Player>, last: Option<string>)
    ensures forall p :: p in Available(pool, last) <==> p in pool && Some(p.name) != last
    decreases |pool|
  {
    if |pool| > 0 {
      AvailableMembers(pool[1..], last);
      assert pool == [pool[0]] + pool[1..];
    }
  }

  /** `pool.findIndex(p => p.name === name)`, for a name that occurs. */
  function FirstWithName(pool: seq<Player>, name: string): (i: nat)
    requires name in Names(pool)
    ensures i < |pool| && pool[i].name == name
    ensures forall j :: 0 <= j < i ==> pool[j].name != name
  {
    if pool[0].name == name then 0
    else
      assert Names(pool) == [pool[0].name] + Names(pool[1..]);
      1 + FirstWithName(pool[1..], name)
  }

  /** No two consecutive overs by bowlers of the same name. */
  predicate NoBackToBack(lineup: seq<Player>) {
    forall i :: 0 < i < |lineup| ==> lineup[i - 1].name != lineup[i].name
  }

  predicate ValidDraws(draws: seq<real>) {
    |draws| == TotalOvers && forall i :: 0 <= i < |draws| ==> 0.0 <= draws[i] < 1.0
  }

  lemma NamesAround(a: seq<Player>, x: Player, b: seq<Player>)
    ensures multiset(Names(a + [x] + b)) == multiset(Names(a)) + multiset{x.name} + multiset(Names(b))
  {
    NamesAppend(a + [x], b);
    NamesAppend(a, [x]);
  }

  /** `splice` takes out one entry, so one copy of its name. */
  lemma RemoveAtNames(pool: seq<Player>, i: nat)
    requires i < |pool|
    ensures multiset(Names(pool[..i] + pool[i + 1..])) + multiset{pool[i].name} == multiset(Names(pool))
  {
    var a, x, b := pool[..i], pool[i], pool[i + 1..];
    SplitAt(pool, i);
    var m := multiset(Names(a)) + multiset(Names(b));
    assert multiset(Names(a + b)) == m by {
      NamesAppend(a, b);
    }
    assert multiset(Names(pool)) == m + multiset{x.name} by {
      NamesAround(a, x, b);
    }
  }

  lemma SplitAt<T>(s: seq<T>, i: nat)
    requires i < |s|
    ensures s == s[..i] + [s[i]] + s[i + 1..]
  {
  }

  /** Appending a bowler not named like the last one keeps overs apart. */
  lemma AppendApart(lineup: seq<Player>, x: Player)
    requires NoBackToBack(lineup) && Some(x.name) != LastName(lineup)
    ensures NoBackToBack(lineup + [x])
  {
    var next := lineup + [x];
    forall k | 0 < k < |next|
      ensures next[k - 1].name != next[k].name
    {
      if k < |lineup| {
        assert next[k - 1] == lineup[k - 1] && next[k] == lineup[k];
      }
    }
  }

  /** One over of the loop: the drawn record `x` joins the lineup and the
      first pool entry carrying its name, entry `i`, leaves the pool. The
      names of lineup and pool together are kept, the pool only shrinks
      and consecutive names stay apart. */
  lemma PickStep(lineup: seq<Player>, pool: seq<Player>, x: Player, i: nat)
    requires i < |pool| && pool[i].name == x.name && Some(x.name) != LastName(lineup)
    ensures multiset(Names(lineup + [x])) + multiset(Names(pool[..i] + pool[i + 1..]))
            == multiset(Names(lineup)) + multiset(Names(pool))
    ensures forall p :: p in pool[..i] + pool[i + 1..] ==> p in pool
    ensures NoBackToBack(lineup) ==> NoBackToBack(lineup + [x])
  {
    RemoveAtNames(pool, i);
    NamesAppend(lineup, [x]);
    assert Names([x]) == [x.name];
    if NoBackToBack(lineup) {
      AppendApart(lineup, x);
    }
  }

  /** The `while (lineup.length < totalOvers)` loop, one over per call:
      filter the pool against the previous bowler, push the record the draw
      for this over selects, then remove the first pool entry carrying the
      selected name (which may be another record of that name). */
  function Fill(pool: seq<Player>, lineup: seq<Player>, draws: seq<real>): Result<seq<Player>, string>
    requires ValidDraws(draws) && |lineup| <= TotalOvers
    decreases TotalOvers - |lineup|
  {
    if |lineup| >= TotalOvers then Ok(lineup)
    else
      var avail := Available(pool, LastName(lineup));
      if |avail| == 0 then Err(NoValidLineup)
      else
        var pick := avail[DrawIndex(draws[|lineup|], |avail|)];
        assert pick.name in Names(pool) by {
          AvailableMembers(pool, LastName(lineup));
          var k :| 0 <= k < |pool| && pool[k] == pick;
          NamesAt(pool, k);
        }
        var i := FirstWithName(pool, pick.name);
        Fill(pool[..i] + pool[i + 1..], lineup + [pick], draws)
  }

  /** What the loop guarantees: twenty overs, consecutive names apart, every
      over bowled by someone from the pool, no name more often than the pool
      holds it. Otherwise the no-consecutive error. */
  lemma {:induction false} FillSound(pool: seq<Player>, lineup: seq<Player>, draws: seq<real>)
    requires ValidDraws(draws) && |lineup| <= TotalOvers
    ensures var r := Fill(pool, lineup, draws);
      && (r.Err? ==> r.error == NoValidLineup)
      && (r.Ok? ==> |r.value| == TotalOvers)
      && (r.Ok? && NoBackToBack(lineup) ==> NoBackToBack(r.value))
      && (r.Ok? ==> forall p :: p in r.value ==> p in lineup || p in pool)
      && (r.Ok? ==> multiset(Names(r.value)) <= multiset(Names(lineup)) + multiset(Names(pool)))
    decreases TotalOvers - |lineup|
  {
    if |lineup| < TotalOvers {
      var avail := Available(pool, LastName(lineup));
      if |avail| > 0 {
        var pick := avail[DrawIndex(draws[|lineup|], |avail|)];
        AvailableMembers(pool, LastName(lineup));
        assert pick.name in Names(pool) by {
          var k :| 0 <= k < |pool| && pool[k] == pick;
          NamesAt(pool, k);
        }
        var i := FirstWithName(pool, pick.name);
        PickStep(lineup, pool, pick, i);
        FillSound(pool[..i] + pool[i + 1..], lineup + [pick], draws);
      }
    }
  }

  /** The loop only appends: a finished lineup starts with the overs
      already chosen. */
  lemma {:induction false} FillExtends(pool: seq<Player>, lineup: seq<Player>, draws: seq<real>)
    requires ValidDraws(draws) && |lineup| <= TotalOvers
    ensures Fill(pool, lineup, draws).Ok? ==> lineup <= Fill(pool, lineup, draws).value
    decreases TotalOvers - |lineup|
  {
    if |lineup| < TotalOvers {
      var avail := Available(pool, LastName(lineup));
      if |avail| > 0 {
        var pick := avail[DrawIndex(draws[|lineup|], |avail|)];
        AvailableMembers(pool, LastName(lineup));
        assert pick.name in Names(pool) by {
          var k :| 0 <= k < |pool| && pool[k] == pick;
          NamesAt(pool, k);
        }
        var i := FirstWithName(pool, pick.name);
        FillExtends(pool[..i] + pool[i + 1..], lineup + [pick], draws);
      }
    }
  }

  /** The next over of a finished lineup is the very record the draw for
      that over selects among the entries not named like the previous
      bowler. */
  lemma FillPicksDrawn(pool: seq<Player>, lineup: seq<Player>, draws: seq<real>)
    requires ValidDraws(draws) && |lineup| < TotalOvers
    requires Fill(pool, lineup, draws).Ok?
    ensures var avail := Available(pool, LastName(lineup));
      |avail| > 0 && |lineup| < |Fill(pool, lineup, draws).value| &&
      Fill(pool, lineup, draws).value[|lineup|] == avail[DrawIndex(draws[|lineup|], |avail|)]
  {
    var avail := Available(pool, LastName(lineup));
    var pick := avail[DrawIndex(draws[|lineup|], |avail|)];
    AvailableMembers(pool, LastName(lineup));
    assert pick.name in Names(pool) by {
      var k :| 0 <= k < |pool| && pool[k] == pick;
      NamesAt(pool, k);
    }
    var i := FirstWithName(pool, pick.name);
    FillExtends(pool[..i] + pool[i + 1..], lineup + [pick], draws);
    FillSound(pool, lineup, draws);
    assert (lineup + [pick])[|lineup|] == pick;
  }

  /** `generateBowlingLineup`. */
  function GenerateBowlingLineup(players: seq<Player>, draws: seq<real>): (r: Result<seq<Player>, string>)
    requires ValidDraws(draws)
    ensures |Bowlers(players)| < 5 <==> r == Err(TooFewBowlers)
    ensures r.Err? ==> r.error in {TooFewBowlers, NoValidLineup}
    ensures r.Ok? ==> |r.value| == TotalOvers && NoBackToBack(r.value)
    ensures r.Ok? ==> forall p :: p in r.value ==> p in players && CanBowl(p.role)
    ensures r.Ok? ==> forall n :: NameCount(r.value, n) <= MaxOversPerBowler * NameCount(Bowlers(players), n)
    ensures r.Ok? ==> var avail := Available(Pool(Bowlers(players)), None);
      |avail| > 0 && 0 < |r.value| && r.value[0] == avail[DrawIndex(draws[0], |avail|)]
  {
    var bs := Bowlers(players);
    if |bs| < 5 then Err(TooFewBowlers)
    else
      var r := Fill(Pool(bs), [], draws);
      FillSound(Pool(bs), [], draws);
      if r.Ok? then
        DrawnFromPool(bs, r.value);
        FillPicksDrawn(Pool(bs), [], draws);
        r
      else
        assert NoValidLineup != TooFewBowlers;
        r
  }

  /** Whatever `Fill` draws from the pool of `bs` is one of `bs`, and each
      name at most four times per bowler of that name. */
  lemma DrawnFromPool(bs: seq<Player>, l: seq<Player>)
    requires forall p :: p in l ==> p in [] || p in Pool(bs)
    requires multiset(Names(l)) <= multiset(Names([])) + multiset(Names(Pool(bs)))
    ensures forall p :: p in l ==> p in bs
    ensures forall n :: NameCount(l, n) <= MaxOversPerBowler * NameCount(bs, n)
  {
    PoolMembers(bs);
    assert Names([]) == [];
    forall n
      ensures NameCount(l, n) <= MaxOversPerBowler * NameCount(bs, n)
    {
      PoolNameCount(bs, n);
    }
  }

  /** With distinct bowler names nobody bowls more than four overs. */
  lemma AtMostFourOvers(players: seq<Player>, draws: seq<real>, n: string)
    requires ValidDraws(draws)
    requires Distinct(Names(Bowlers(players)))
    requires GenerateBowlingLineup(players, draws).Ok?
    ensures NameCount(GenerateBowlingLineup(players, draws).value, n) <= MaxOversPerBowler
  {
    var bs := Bowlers(players);
    DistinctCountAtMostOne(Names(bs), n);
  }

  lemma {:induction false} DistinctCountAtMostOne<T>(s: seq<T>, x: T)
    requires Distinct(s)
    ensures Count(s, x) <= 1
    decreases |s|
  {
    if |s| > 0 {
      DistinctCountAtMostOne(s[1..], x);
      if s[0] == x {
        assert x !in s[1..];
      }
    }
  }

  lemma {:induction false} AvailableAppend(s: seq<Player>, t: seq<Player>, last: Option<string>)
    ensures Available(s + t, last) == Available(s, last) + Available(t, last)
    decreases |s|
  {
    if |s| > 0 {
      assert (s + t)[1..] == s[1..] + t;
      AvailableAppend(s[1..], t, last);
    } else {
      assert s + t == t;
    }
  }

  /** Nothing is available when every entry is named like the previous
      bowler. */
  lemma {:induction false} NoneAvailable(pool: seq<Player>, last: Option<string>)
    requires forall p :: p in pool ==> Some(p.name) == last
    ensures Available(pool, last) == []
    decreases |pool|
  {
    if |pool| > 0 {
      assert pool[0] in pool;
      assert forall p :: p in pool[1..] ==> p in pool;
      NoneAvailable(pool[1..], last);
    }
  }

  /** Past the entries named like the previous bowler, the first
      available entry is `x`. */
  lemma AvailableSkips(a: seq<Player>, x: Player, b: seq<Player>, last: Option<string>)
    requires forall p :: p in a ==> Some(p.name) == last
    requires Some(x.name) != last
    ensures |Available(a + [x] + b, last)| > 0 && Available(a + [x] + b, last)[0] == x
  {
    AvailableAppend(a + [x], b, last);
    AvailableAppend(a, [x], last);
    NoneAvailable(a, last);
  }

  /** The first entry named like `x` is `x` itself when everything before
      it has another name. */
  lemma FirstWithNameAfter(a: seq<Player>, x: Player, b: seq<Player>)
    requires forall p :: p in a ==> p.name != x.name
    ensures x.name in Names(a + [x] + b)
    ensures FirstWithName(a + [x] + b, x.name) == |a|
  {
    var pool := a + [x] + b;
    NamesAt(pool, |a|);
    assert pool[|a|] == x;
    assert forall j :: 0 <= j < |a| ==> pool[j] == a[j] && a[j] in a;
    var i := FirstWithName(pool, x.name);
  }

  /** With a zero draw the over goes to the first pool entry not named like
      the previous bowler, and that entry leaves the pool. */
  lemma ZeroDrawStep(lineup: seq<Player>, draws: seq<real>, a: seq<Player>, x: Player, b: seq<Player>)
    requires ValidDraws(draws) && |lineup| < TotalOvers && draws[|lineup|] == 0.0
    requires Some(x.name) != LastName(lineup)
    requires forall p :: p in a ==> Some(p.name) == LastName(lineup)
    ensures Fill(a + [x] + b, lineup, draws) == Fill(a + b, lineup + [x], draws)
  {
    var pool := a + [x] + b;
    assert pool[..|a|] == a && pool[|a|] == x && pool[|a| + 1..] == b;
    AvailableSkips(a, x, b, LastName(lineup));
    DrawIndexZero(|Available(pool, LastName(lineup))|);
    FirstWithNameAfter(a, x, b);
  }

  /** `k` overs alternating `x` and `y`. */
  function Pairs(x: Player, y: Player, k: nat): (s: seq<Player>)
    ensures |s| == 2 * k
    ensures k > 0 ==> s[2 * k - 1] == y
  {
    if k == 0 then [] else [x, y] + Pairs(x, y, k - 1)
  }

  lemma PairsCons(lineup: seq<Player>, x: Player, y: Player, k: nat)
    requires k > 0
    ensures lineup + [x] + [y] + Pairs(x, y, k - 1) == lineup + Pairs(x, y, k)
  {
    assert Pairs(x, y, k) == [x, y] + Pairs(x, y, k - 1);
  }

  /** Zero draw after someone other than `x`: `x` bowls. */
  lemma TakeFirst(lineup: seq<Player>, x: Player, rest: seq<Player>, k: nat)
    requires |lineup| < TotalOvers && k > 0 && LastName(lineup) != Some(x.name)
    ensures Fill(Rep(x, k) + rest, lineup, ZeroDraws) == Fill(Rep(x, k - 1) + rest, lineup + [x], ZeroDraws)
  {
    assert Rep(x, k) + rest == [] + [x] + (Rep(x, k - 1) + rest);
    assert [] + (Rep(x, k - 1) + rest) == Rep(x, k - 1) + rest;
    ZeroDrawStep(lineup, ZeroDraws, [], x, Rep(x, k - 1) + rest);
  }

  /** Zero draw after `x`: the `x` copies are skipped and `y` bowls. */
  lemma TakeSecond(lineup: seq<Player>, x: Player, j: nat, y: Player, rest: seq<Player>, k: nat)
    requires |lineup| < TotalOvers && k > 0 && LastName(lineup) == Some(x.name) && x.name != y.name
    ensures Fill(Rep(x, j) + (Rep(y, k) + rest), lineup, ZeroDraws)
         == Fill(Rep(x, j) + (Rep(y, k - 1) + rest), lineup + [y], ZeroDraws)
  {
    assert Rep(x, j) + (Rep(y, k) + rest) == Rep(x, j) + [y] + (Rep(y, k - 1) + rest);
    RepMembers(x, j);
    ZeroDrawStep(lineup, ZeroDraws, Rep(x, j), y, Rep(y, k - 1) + rest);
  }

  /** With every draw at 0, a pool starting with `k` copies of `x` then `k`
      of `y` gives the next `2k` overs to `x` and `y` in turn. */
  lemma {:induction false} Alternate(lineup: seq<Player>, x: Player, y: Player, rest: seq<Player>, k: nat)
    requires |lineup| + 2 * k <= TotalOvers
    requires LastName(lineup) != Some(x.name) && x.name != y.name
    ensures Fill(Rep(x, k) + (Rep(y, k) + rest), lineup, ZeroDraws)
         == Fill(rest, lineup + Pairs(x, y, k), ZeroDraws)
    decreases k
  {
    if k == 0 {
      assert Rep(x, 0) + (Rep(y, 0) + rest) == rest;
      assert lineup + Pairs(x, y, 0) == lineup;
    } else {
      TakeFirst(lineup, x, Rep(y, k) + rest, k);
      TakeSecond(lineup + [x], x, k - 1, y, rest, k);
      Alternate(lineup + [x] + [y], x, y, rest, k - 1);
      PairsCons(lineup, x, y, k);
    }
  }

  /** The pool of five bowlers, as runs of four. */
  lemma FivePool(a: Player, b: Player, c: Player, d: Player, e: Player)
    ensures Pool([a, b, c, d, e]) == Rep(a, 4) + (Rep(b, 4) + (Rep(c, 4) + (Rep(d, 4) + (Rep(e, 4) + []))))
  {
    assert [e][1..] == [] && [d, e][1..] == [e] && [c, d, e][1..] == [d, e];
    assert [b, c, d, e][1..] == [c, d, e] && [a, b, c, d, e][1..] == [b, c, d, e];
    assert Pool([e]) == Rep(e, 4) + [];
    assert Pool([d, e]) == Rep(d, 4) + Pool([e]);
    assert Pool([c, d, e]) == Rep(c, 4) + Pool([d, e]);
    assert Pool([b, c, d, e]) == Rep(b, 4) + Pool([c, d, e]);
  }

  /** Only E is left in the pool after E bowled: no over 18. */
  lemma Stuck(lineup: seq<Player>, e: Player)
    requires |lineup| == 17 && LastName(lineup) == Some(e.name)
    ensures Fill(Rep(e, 3) + [], lineup, ZeroDraws) == Err(NoValidLineup)
  {
    RepMembers(e, 3);
    assert Rep(e, 3) + [] == Rep(e, 3);
    NoneAvailable(Rep(e, 3), LastName(lineup));
  }

  /** After alternating pairs the last bowler is the second of the pair. */
  lemma PairsLast(lineup: seq<Player>, x: Player, y: Player, k: nat)
    requires k > 0
    ensures |lineup + Pairs(x, y, k)| == |lineup| + 2 * k
    ensures LastName(lineup + Pairs(x, y, k)) == Some(y.name)
  {
    var l := lineup + Pairs(x, y, k);
    assert l[|l| - 1] == Pairs(x, y, k)[2 * k - 1];
  }

  /** Overs 17 and 18 when only E is left: E bowls once, then nobody can. */
  lemma LastBowlerStuck(lineup: seq<Player>, d: Player, e: Player)
    requires |lineup| == 16 && LastName(lineup) == Some(d.name) && d.name != e.name
    ensures Fill(Rep(e, 4) + [], lineup, ZeroDraws) == Err(NoValidLineup)
  {
    TakeFirst(lineup, e, [], 4);
    Stuck(lineup + [e], e);
  }

  /** Overs 1 to 8 of the five-bowler run: A and B alternate. */
  lemma FirstEight(a: Player, b: Player, c: Player, d: Player, e: Player)
    requires a.name != b.name
    ensures Fill(Pool([a, b, c, d, e]), [], ZeroDraws)
         == Fill(Rep(c, 4) + (Rep(d, 4) + (Rep(e, 4) + [])), [] + Pairs(a, b, 4), ZeroDraws)
  {
    FivePool(a, b, c, d, e);
    Alternate([], a, b, Rep(c, 4) + (Rep(d, 4) + (Rep(e, 4) + [])), 4);
  }

  /** The run of the loop on five differently named bowlers with every
      draw at 0. */
  lemma FiveBowlersRun(a: Player, b: Player, c: Player, d: Player, e: Player)
    requires a.name != b.name && b.name != c.name && c.name != d.name && d.name != e.name
    ensures Fill(Pool([a, b, c, d, e]), [], ZeroDraws) == Err(NoValidLineup)
  {
    var tail := Rep(e, 4) + [];
    var l8 := [] + Pairs(a, b, 4);
    FirstEight(a, b, c, d, e);
    PairsLast([], a, b, 4);
    Alternate(l8, c, d, tail, 4);
    PairsLast(l8, c, d, 4);
    LastBowlerStuck(l8 + Pairs(c, d, 4), d, e);
  }

  /** Five bowlers are not always enough: with every draw at 0 the builder
      alternates A,B four times, then C,D four times, bowls E once and is
      left with only E for the eighteenth over. */
  lemma FiveBowlersCanFail(a: Player, b: Player, c: Player, d: Player, e: Player)
    requires CanBowl(a.role) && CanBowl(b.role) && CanBowl(c.role) && CanBowl(d.role) && CanBowl(e.role)
    requires a.name != b.name && b.name != c.name && c.name != d.name && d.name != e.name
    ensures |Bowlers([a, b, c, d, e])| == 5
    ensures GenerateBowlingLineup([a, b, c, d, e], ZeroDraws) == Err(NoValidLineup)
  {
    AllBowlers([a, b, c, d, e]);
    FiveBowlersRun(a, b, c, d, e);
  }

  const ZeroDraws: seq<real> := seq(TotalOvers, _ => 0.0)
}

=== FILE: match_center.dfy ===
/** The check the match centre runs before the toss
    (`src/screens/MatchCenterScreen.tsx`): the playing eleven are the
    players at positions 1 to 11, and the side must have exactly eleven of
    them, at least five who can bowl and a wicket keeper. */
module MatchCenter {
  import opened Common
  import opened PlayersDb
  import Squad

  /** `p.position >= 1 && p.position <= 11`, in list order. */
  function PlayingXI(t: Table): (r: Table)
    ensures |r| <= |t|
    ensures forall i :: 0 <= i < |r| ==> 1 <= r[i].player.position <= 11
    ensures forall x :: multiset(r)[x] == if 1 <= x.player.position <= 11 then multiset(t)[x] else 0
    decreases |t|
  {
    if |t| == 0 then []
    else
      assert t == [t[0]] + t[1..];
      (if 1 <= t[0].player.position <= 11 then [t[0]] else []) + PlayingXI(t[1..])
  }

  /** The players of the list who can bowl (BOWL or AR). */
  function Bowlers(t: Table): (n: nat)
    ensures n <= |t|
  {
    if |t| == 0 then 0 else (if CanBowl(t[0].player.role) then 1 else 0) + Bowlers(t[1..])
  }

  function Keepers(t: Table): (n: nat)
    ensures n <= |t|
  {
    if |t| == 0 then 0 else (if t[0].player.role == Keeper then 1 else 0) + Keepers(t[1..])
  }

  datatype Verdict = ToToss | NotEleven | TooFewBowlers | NoKeeper

  /** `gotoTossScreen`: the checks in order size, bowlers, keeper; the
      first that fails is reported and only a side passing all three goes
      on to the toss. */
  function GotoToss(players: Table): (r: Verdict)
    ensures var xi := PlayingXI(players);
      (r == ToToss <==> |xi| == 11 && Bowlers(xi) >= 5 && Keepers(xi) >= 1) &&
      (r == NotEleven <==> |xi| != 11) &&
      (r == TooFewBowlers <==> |xi| == 11 && Bowlers(xi) < 5) &&
      (r == NoKeeper <==> |xi| == 11 && Bowlers(xi) >= 5 && Keepers(xi) == 0)
  {
    var xi := PlayingXI(players);
    if |xi| != 11 then NotEleven
    else if Bowlers(xi) < 5 then TooFewBowlers
    else if Keepers(xi) < 1 then NoKeeper
    else ToToss
  }

  // ---------------------------------------------------------------------
  // A squad numbered 1..n always has eleven
  // ---------------------------------------------------------------------

  /** `[lo, lo + 1, ..., hi]`. */
  function Range(lo: int, hi: int): (r: seq<int>)
    ensures |r| == if lo <= hi then hi - lo + 1 else 0
    ensures forall i :: 0 <= i < |r| ==> r[i] == lo + i
    decreases hi - lo
  {
    if lo > hi then [] else [lo] + Range(lo + 1, hi)
  }

  /** How many values of the multiset lie in `lo..hi`. */
  function CountIn(m: multiset<int>, lo: int, hi: int): nat
    decreases hi - lo
  {
    if lo > hi then 0 else m[lo] + CountIn(m, lo + 1, hi)
  }

  lemma {:induction false} CountInAdd(m: multiset<int>, x: int, lo: int, hi: int)
    ensures CountIn(m + multiset{x}, lo, hi) == CountIn(m, lo, hi) + if lo <= x <= hi then 1 else 0
    decreases hi - lo
  {
    if lo <= hi {
      CountInAdd(m, x, lo + 1, hi);
    }
  }

  /** The eleven are as many as the positions in 1..11. */
  lemma {:induction false} PlayingXICount(t: Table)
    ensures |PlayingXI(t)| == CountIn(multiset(Positions(t)), 1, 11)
    decreases |t|
  {
    if |t| == 0 {
      CountInEmpty(1, 11);
    } else {
      var x := t[0].player.position;
      PlayingXICount(t[1..]);
      Unfold(t);
      CountInAdd(multiset(Positions(t[1..])), x, 1, 11);
    }
  }

  /** One step of the two recursions. */
  lemma Unfold(t: Table)
    requires |t| > 0
    ensures var x := t[0].player.position;
      |PlayingXI(t)| == (if 1 <= x <= 11 then 1 else 0) + |PlayingXI(t[1..])| &&
      multiset(Positions(t)) == multiset(Positions(t[1..])) + multiset{x}
  {
  }

  lemma {:induction false} CountInEmpty(lo: int, hi: int)
    ensures CountIn(multiset{}, lo, hi) == 0
    decreases hi - lo
  {
    if lo <= hi {
      CountInEmpty(lo + 1, hi);
    }
  }

  /** Each of 1..n occurs once among 1..n. */
  lemma {:induction false} RangeCounts(lo: int, hi: int, x: int)
    ensures multiset(Range(lo, hi))[x] == if lo <= x <= hi then 1 else 0
    decreases hi - lo
  {
    if lo <= hi {
      RangeCounts(lo + 1, hi, x);
      assert Range(lo, hi) == [lo] + Range(lo + 1, hi);
    }
  }

  lemma {:induction false} CountInRange(n: int, lo: int, hi: int)
    requires 1 <= lo && hi <= n
    ensures CountIn(multiset(Range(1, n)), lo, hi) == if lo <= hi then hi - lo + 1 else 0
    decreases hi - lo
  {
    if lo <= hi {
      RangeCounts(1, n, lo);
      CountInRange(n, lo + 1, hi);
    }
  }

  /** When the positions are 1..n in some order with n at least eleven,
      as seeding leaves them and swaps keep them, the size check passes. */
  lemma NumberedSquadHasEleven(t: Table, n: int)
    requires n >= 11 && multiset(Positions(t)) == multiset(Range(1, n))
    ensures |PlayingXI(t)| == 11
    ensures GotoToss(t) != NotEleven
  {
    PlayingXICount(t);
    CountInRange(n, 1, 11);
  }

  /** Seeding numbers the players 1..n. */
  lemma SeedNumbers(ps: seq<SeedPlayer>)
    ensures Positions(Seed([], ps)) == Range(1, |ps|)
  {
  }

  /** Swapping on the squad screen keeps a numbered squad numbered, so the
      eleven stay eleven. */
  lemma SwapKeepsEleven(s: Squad.Screen, k: nat, n: int)
    requires Squad.Coherent(s) && k < |s.squad|
    requires n >= 11 && multiset(Positions(s.squad)) == multiset(Range(1, n))
    ensures |PlayingXI(Squad.Press(s, s.squad[k].player).squad)| == 11
  {
    Squad.PressPermutes(s, k);
    NumberedSquadHasEleven(Squad.Press(s, s.squad[k].player).squad, n);
  }
}

=== FILE: players_db.dfy ===
/** The user's squad table (`src/database/userPlayersDB.ts`): one row per
    player with the season counters (`played`, `runs`, `wickets`) and the
    career counters (`totalPlayed`, `totalRuns`, `totalWickets`). The table
    is a sequence of rows in insertion order; `ORDER BY position` is a
    stable insertion sort over it. */
module PlayersDb {
  import opened Common

  datatype Entry = Entry(player: Player, played: int, totalPlayed: int, runs: int, wickets: int,
                         totalRuns: int, totalWickets: int)

  type Table = seq<Entry>

  // ---------------------------------------------------------------------
  // `seedPlayers`
  // ---------------------------------------------------------------------

  /** A player handed to `seedPlayers`; the counters may be missing. */
  datatype SeedPlayer = SeedPlayer(player: Player, played: Option<int>, totalPlayed: Option<int>,
                                   runs: Option<int>, wickets: Option<int>,
                                   totalRuns: Option<int>, totalWickets: Option<int>)

  function SeedEntry(p: SeedPlayer, position: int): Entry {
    Entry(p.player.(position := position), p.played.GetOr(0), p.totalPlayed.GetOr(0),
          p.runs.GetOr(0), p.wickets.GetOr(0), p.totalRuns.GetOr(0), p.totalWickets.GetOr(0))
  }

  /** `seedPlayers`: nothing when the table has a row; otherwise one row per
      player in the given order, numbered from 1, missing counters read as
      zero. */
  function Seed(t: Table, ps: seq<SeedPlayer>): (r: Table)
    ensures |t| > 0 ==> r == t
    ensures |t| == 0 ==> |r| == |ps|
    ensures |t| == 0 ==> forall i :: 0 <= i < |ps| ==>
        r[i].player.name == ps[i].player.name && r[i].player.role == ps[i].player.role &&
        r[i].player.position == i + 1 &&
        r[i].played == ps[i].played.GetOr(0) && r[i].runs == ps[i].runs.GetOr(0) &&
        r[i].wickets == ps[i].wickets.GetOr(0) && r[i].totalPlayed == ps[i].totalPlayed.GetOr(0) &&
        r[i].totalRuns == ps[i].totalRuns.GetOr(0) && r[i].totalWickets == ps[i].totalWickets.GetOr(0)
  {
    if |t| > 0 then t
    else seq(|ps|, i requires 0 <= i < |ps| => SeedEntry(ps[i], i + 1))
  }

  // ---------------------------------------------------------------------
  // `getPlayers`: `ORDER BY position ASC`
  // ---------------------------------------------------------------------

  predicate ByPosition(t: Table) {
    forall i, j :: 0 <= i < j < |t| ==> t[i].player.position <= t[j].player.position
  }

  /** The positions, in table order. */
  function Positions(t: Table): (ps: seq<int>)
    ensures |ps| == |t| && forall i :: 0 <= i < |t| ==> ps[i] == t[i].player.position
    decreases |t|
  {
    if |t| == 0 then [] else [t[0].player.position] + Positions(t[1..])
  }

  function Insert(e: Entry, s: Table): (u: Table)
    ensures |u| == |s| + 1 && multiset(u) == multiset(s) + multiset{e}
    decreases |s|
  {
    if |s| == 0 || e.player.position <= s[0].player.position then [e] + s
    else
      assert s == [s[0]] + s[1..];
      [s[0]] + Insert(e, s[1..])
  }

  function Sort(t: Table): (u: Table)
    ensures |u| == |t| && multiset(u) == multiset(t)
    decreases |t|
  {
    if |t| == 0 then []
    else
      assert t == [t[0]] + t[1..];
      Insert(t[0], Sort(t[1..]))
  }

  lemma InMultiset(u: Table, k: nat)
    requires k < |u|
    ensures u[k] in multiset(u)
  {
  }

  lemma {:induction false} InsertByPosition(e: Entry, s: Table)
    requires ByPosition(s)
    ensures ByPosition(Insert(e, s))
    decreases |s|
  {
    if |s| > 0 && e.player.position > s[0].player.position {
      var u := Insert(e, s[1..]);
      InsertByPosition(e, s[1..]);
      assert Insert(e, s) == [s[0]] + u;
      forall k | 0 <= k < |u| ensures s[0].player.position <= u[k].player.position {
        InMultiset(u, k);
        if u[k] != e {
          assert u[k] in multiset(s[1..]);
          var j :| 0 <= j < |s[1..]| && s[1..][j] == u[k];
          assert s[j + 1] == u[k];
        }
      }
    }
  }

  lemma {:induction false} SortByPosition(t: Table)
    ensures ByPosition(Sort(t))
    decreases |t|
  {
    if |t| > 0 {
      SortByPosition(t[1..]);
      InsertByPosition(t[0], Sort(t[1..]));
    }
  }

  /** A table already in position order is returned as it is. */
  lemma {:induction false} SortKeepsOrdered(t: Table)
    requires ByPosition(t)
    ensures Sort(t) == t
    decreases |t|
  {
    if |t| > 0 {
      SortKeepsOrdered(t[1..]);
      assert t == [t[0]] + t[1..];
    }
  }

  /** `getPlayers`: every row, by position. */
  function GetPlayers(t: Table): (r: Table)
    ensures multiset(r) == multiset(t)
    ensures ByPosition(r)
  {
    SortByPosition(t);
    Sort(t)
  }

  /** Reading a freshly seeded table gives the players back in the order
      they were seeded, numbered from 1. */
  lemma SeedThenGet(ps: seq<SeedPlayer>)
    ensures var r := GetPlayers(Seed([], ps));
      |r| == |ps| &&
      forall i :: 0 <= i < |ps| ==> r[i].player.name == ps[i].player.name && r[i].player.position == i + 1
  {
    SortKeepsOrdered(Seed([], ps));
  }

  // ---------------------------------------------------------------------
  // `updatePlayerPosition`
  // ---------------------------------------------------------------------

  /** `UPDATE userPlayers SET position = ? WHERE name = ?`. */
  function UpdatePosition(t: Table, name: string, position: int): (r: Table)
    ensures |r| == |t|
    ensures forall i :: 0 <= i < |t| ==>
      r[i].player.name == t[i].player.name && r[i].player.role == t[i].player.role &&
      r[i].played == t[i].played && r[i].runs == t[i].runs && r[i].wickets == t[i].wickets &&
      r[i].totalPlayed == t[i].totalPlayed && r[i].totalRuns == t[i].totalRuns &&
      r[i].totalWickets == t[i].totalWickets
    ensures forall i :: 0 <= i < |t| && t[i].player.name == name ==>
      r[i].player == t[i].player.(position := position)
    ensures forall i :: 0 <= i < |t| && t[i].player.name != name ==> r[i] == t[i]
  {
    seq(|t|, i requires 0 <= i < |t| =>
      if t[i].player.name == name then t[i].(player := t[i].player.(position := position)) else t[i])
  }

  // ---------------------------------------------------------------------
  // `updateUserPlayers`
  // ---------------------------------------------------------------------

  /** One player's figures from a match. */
  datatype StatDelta = StatDelta(name: string, runs: int, wickets: int)

  /** The first row with the name: what `SELECT ... WHERE name = ?` reads
      as `item(0)`. */
  function FindEntry(t: Table, name: string): (r: Option<nat>)
    ensures r.Some? ==> r.value < |t| && t[r.value].player.name == name &&
                        forall j :: 0 <= j < r.value ==> t[j].player.name != name
    ensures r.None? ==> forall j :: 0 <= j < |t| ==> t[j].player.name != name
    decreases |t|
  {
    if |t| == 0 then None
    else if t[0].player.name == name then Some(0)
    else match FindEntry(t[1..], name)
      case Some(k) => Some(k + 1)
      case None => None
  }

  /** The counters written back, computed from the row read. */
  function Bumped(e: Entry, item: Entry, d: StatDelta): Entry {
    e.(played := item.played + 1, totalPlayed := item.totalPlayed + 1,
       runs := item.runs + d.runs, totalRuns := item.totalRuns + d.runs,
       wickets := item.wickets + d.wickets, totalWickets := item.totalWickets + d.wickets)
  }

  /** One player's update: read the first row with the name, then write the
      new counters to every row with that name; nothing when no row has
      it. */
  function UpdateOne(t: Table, d: StatDelta): (r: Table)
    ensures |r| == |t|
    ensures forall i :: 0 <= i < |t| ==> r[i].player == t[i].player
    ensures forall i :: 0 <= i < |t| && t[i].player.name != d.name ==> r[i] == t[i]
    ensures FindEntry(t, d.name).None? ==> r == t
  {
    match FindEntry(t, d.name)
    case None => t
    case Some(k) =>
      seq(|t|, i requires 0 <= i < |t| => if t[i].player.name == d.name then Bumped(t[i], t[k], d) else t[i])
  }

  /** `updateUserPlayers`, one player after the other. */
  function UpdateUserPlayers(t: Table, ds: seq<StatDelta>): (r: Table)
    ensures |r| == |t|
    ensures forall i :: 0 <= i < |t| ==> r[i].player == t[i].player
    decreases |ds|
  {
    if |ds| == 0 then t else UpdateUserPlayers(UpdateOne(t, ds[0]), ds[1..])
  }

  /** No two rows share a name. */
  predicate UniqueNames(t: Table) {
    forall i, j :: 0 <= i < j < |t| ==> t[i].player.name != t[j].player.name
  }

  /** With one row per name, the row of the named player counts one more
      match, in the season and in the career, and adds the match's runs
      and wickets to both. */
  lemma UpdateOneUnique(t: Table, d: StatDelta, i: nat)
    requires UniqueNames(t) && i < |t| && t[i].player.name == d.name
    ensures var e := UpdateOne(t, d)[i];
      e == t[i].(played := t[i].played + 1, totalPlayed := t[i].totalPlayed + 1,
                 runs := t[i].runs + d.runs, totalRuns := t[i].totalRuns + d.runs,
                 wickets := t[i].wickets + d.wickets, totalWickets := t[i].totalWickets + d.wickets)
  {
    var k := FindEntry(t, d.name).value;
    assert k == i;
  }

  /** How many of the deltas name the player, and what they add up to. */
  function Mentions(ds: seq<StatDelta>, name: string): nat {
    if |ds| == 0 then 0 else (if ds[0].name == name then 1 else 0) + Mentions(ds[1..], name)
  }

  function RunsFor(ds: seq<StatDelta>, name: string): int {
    if |ds| == 0 then 0 else (if ds[0].name == name then ds[0].runs else 0) + RunsFor(ds[1..], name)
  }

  function WicketsFor(ds: seq<StatDelta>, name: string): int {
    if |ds| == 0 then 0 else (if ds[0].name == name then ds[0].wickets else 0) + WicketsFor(ds[1..], name)
  }

  /** With one row per name, every row counts one match per delta naming it
      and adds those deltas' runs and wickets, to the season and the career
      counters alike; rows named by no delta are unchanged. */
  lemma {:induction false} UpdateUserPlayersUnique(t: Table, ds: seq<StatDelta>, i: nat)
    requires UniqueNames(t) && i < |t|
    ensures var e, n := UpdateUserPlayers(t, ds)[i], t[i].player.name;
      e.player == t[i].player &&
      e.played == t[i].played + Mentions(ds, n) && e.totalPlayed == t[i].totalPlayed + Mentions(ds, n) &&
      e.runs == t[i].runs + RunsFor(ds, n) && e.totalRuns == t[i].totalRuns + RunsFor(ds, n) &&
      e.wickets == t[i].wickets + WicketsFor(ds, n) && e.totalWickets == t[i].totalWickets + WicketsFor(ds, n)
    decreases |ds|
  {
    if |ds| > 0 {
      var t1 := UpdateOne(t, ds[0]);
      if t[i].player.name == ds[0].name {
        UpdateOneUnique(t, ds[0], i);
      }
      assert UniqueNames(t1);
      UpdateUserPlayersUnique(t1, ds[1..], i);
    }
  }

  /** Season figures never run ahead of the career ones. */
  predicate CareerCoversSeason(e: Entry) {
    0 <= e.played <= e.totalPlayed && 0 <= e.runs <= e.totalRuns && 0 <= e.wickets <= e.totalWickets
  }

  predicate Consistent(t: Table) {
    forall i :: 0 <= i < |t| ==> CareerCoversSeason(t[i])
  }

  predicate NonNegative(ds: seq<StatDelta>) {
    forall k :: 0 <= k < |ds| ==> ds[k].runs >= 0 && ds[k].wickets >= 0
  }

  /** Adding a match's non-negative figures keeps the career counters
      ahead, whatever the names: each row written copies the gaps of the
      row read. */
  lemma {:induction false} UpdateConsistent(t: Table, ds: seq<StatDelta>)
    requires Consistent(t) && NonNegative(ds)
    ensures Consistent(UpdateUserPlayers(t, ds))
    decreases |ds|
  {
    if |ds| > 0 {
      var t1 := UpdateOne(t, ds[0]);
      assert Consistent(t1) by {
        match FindEntry(t, ds[0].name)
        case None =>
        case Some(k) =>
          assert CareerCoversSeason(t[k]);
      }
      assert NonNegative(ds[1..]) by {
        forall k | 0 <= k < |ds[1..]| ensures ds[1..][k].runs >= 0 && ds[1..][k].wickets >= 0 {
          assert ds[1..][k] == ds[k + 1];
        }
      }
      UpdateConsistent(t1, ds[1..]);
    }
  }

  // ---------------------------------------------------------------------
  // `resetSeasonStats`
  // ---------------------------------------------------------------------

  /** Clears the season counters of every row; the career counters and the
      player stay. */
  function ResetSeason(t: Table): (r: Table)
    ensures |r| == |t|
    ensures forall i :: 0 <= i < |t| ==>
      r[i].played == 0 && r[i].runs == 0 && r[i].wickets == 0
    ensures forall i :: 0 <= i < |t| ==>
      r[i].player == t[i].player && r[i].totalPlayed == t[i].totalPlayed &&
      r[i].totalRuns == t[i].totalRuns && r[i].totalWickets == t[i].totalWickets
  {
    seq(|t|, i requires 0 <= i < |t| => t[i].(played := 0, runs := 0, wickets := 0))
  }

  lemma ResetConsistent(t: Table)
    requires Consistent(t)
    ensures Consistent(ResetSeason(t))
  {
  }

  // ---------------------------------------------------------------------
  // `getStatistics`
  // ---------------------------------------------------------------------

  datatype Period = Season | Career
  datatype Discipline = Batting | Bowling

  /** `role IN ('BAT', 'AR', 'WK')` for batting, `role IN ('BOWL', 'AR')`
      for bowling. */
  predicate Listed(r: Role, d: Discipline) {
    match d
    case Batting => r == Bat || r == AllRounder || r == Keeper
    case Bowling => r == Bowl || r == AllRounder
  }

  function Filter(t: Table, d: Discipline): (r: Table)
    ensures forall x :: multiset(r)[x] == if Listed(x.player.role, d) then multiset(t)[x] else 0
    decreases |t|
  {
    if |t| == 0 then []
    else
      assert t == [t[0]] + t[1..];
      (if Listed(t[0].player.role, d) then [t[0]] else []) + Filter(t[1..], d)
  }

  /** The column read for the statistic. */
  function StatOf(e: Entry, p: Period, d: Discipline): int {
    match (p, d)
    case (Season, Batting) => e.runs
    case (Season, Bowling) => e.wickets
    case (Career, Batting) => e.totalRuns
    case (Career, Bowling) => e.totalWickets
  }

  datatype Stat = Stat(entry: Entry, stat: int)

  function Entries(s: seq<Stat>): (r: Table)
    ensures |r| == |s| && forall i :: 0 <= i < |s| ==> r[i] == s[i].entry
  {
    seq(|s|, i requires 0 <= i < |s| => s[i].entry)
  }

  /** `getStatistics`: the players of the discipline's roles, by position,
      each with its season or career figure. */
  function GetStatistics(t: Table, p: Period, d: Discipline): (r: seq<Stat>)
    ensures forall x :: multiset(Entries(r))[x] == if Listed(x.player.role, d) then multiset(t)[x] else 0
    ensures ByPosition(Entries(r))
    ensures forall i :: 0 <= i < |r| ==>
      (p == Season && d == Batting ==> r[i].stat == r[i].entry.runs) &&
      (p == Season && d == Bowling ==> r[i].stat == r[i].entry.wickets) &&
      (p == Career && d == Batting ==> r[i].stat == r[i].entry.totalRuns) &&
      (p == Career && d == Bowling ==> r[i].stat == r[i].entry.totalWickets)
  {
    var s := Sort(Filter(t, d));
    SortByPosition(Filter(t, d));
    var r := seq(|s|, i requires 0 <= i < |s| => Stat(s[i], StatOf(s[i], p, d)));
    assert Entries(r) == s;
    r
  }

  /** Every listed player's career figure is at least the season one. */
  lemma CareerAtLeastSeason(t: Table, d: Discipline, i: nat)
    requires Consistent(t)
    requires i < |GetStatistics(t, Season, d)|
    ensures var s, c := GetStatistics(t, Season, d), GetStatistics(t, Career, d);
      |c| == |s| && s[i].entry == c[i].entry && 0 <= s[i].stat <= c[i].stat
  {
    var s := GetStatistics(t, Season, d);
    var e := s[i].entry;
    assert e == Entries(s)[i];
    InMultiset(Entries(s), i);
    assert e in multiset(t);
  }

  /** After the season reset every season figure reads zero. */
  lemma ResetStatistics(t: Table, d: Discipline, i: nat)
    requires i < |GetStatistics(ResetSeason(t), Season, d)|
    ensures GetStatistics(ResetSeason(t), Season, d)[i].stat == 0
  {
    var t' := ResetSeason(t);
    var s := GetStatistics(t', Season, d);
    assert s[i].entry == Entries(s)[i];
    InMultiset(Entries(s), i);
    assert s[i].entry in multiset(t');
  }
}

=== FILE: result.dfy ===
/** The result of a finished match (`src/screens/MatchSummaryScreen.tsx`
    and `src/components/InningsAlert.tsx`): the winner and the margin
    text, the net run rate handed to the standings, the per-player stats
    of the user's side, the player of the match and the score written to
    the fixture. */
module MatchResult {
  import opened Common
  import opened Text
  import opened Innings

  /** `bothTeam.teamN.name`, which may be missing. */
  datatype Teams = Teams(team1: Option<string>, team2: Option<string>)

  function Team1Name(t: Teams): string { t.team1.GetOr("Team 1") }
  function Team2Name(t: Teams): string { t.team2.GetOr("Team 2") }

  // ---------------------------------------------------------------------
  // Winner and margin
  // ---------------------------------------------------------------------

  /** The second innings' runs and wickets, 0 when it has not started. */
  function Runs2(g: GameState): int { if g.inning2.Some? then g.inning2.value.runs else 0 }
  function Wickets2(g: GameState): int { if g.inning2.Some? then g.inning2.value.wickets else 0 }

  function RunDiff(g: GameState): int { g.inning1.runs - Runs2(g) }

  /** The side batting first wins only with strictly more runs; a tie
      goes to the side batting second. */
  predicate Team1Wins(g: GameState) { RunDiff(g) > 0 }

  function Winner(g: GameState, t: Teams): string {
    if Team1Wins(g) then Team1Name(t) else Team2Name(t)
  }

  /** The margin: runs for the side batting first, wickets in hand
      (`10 - wickets`) for the side batting second. */
  function Margin(g: GameState): int {
    if Team1Wins(g) then RunDiff(g) else 10 - Wickets2(g)
  }

  function WinBy(g: GameState): string {
    if Team1Wins(g) then IntToString(RunDiff(g)) + " run" else IntToString(10 - Wickets2(g)) + " wickets"
  }

  function WinText(g: GameState, t: Teams): string {
    Winner(g, t) + " won by " + WinBy(g)
  }

  /** What a result line says: who won, batting first or second, and by
      how much. */
  datatype Reading = Reading(winner: string, firstWon: bool, margin: nat)

  /** The number of decimal digits at the end of `s`. */
  function TrailingDigits(s: string): (k: nat)
    ensures k <= |s| && AllDigits(s[|s| - k..])
  {
    if |s| == 0 || !IsDigit(s[|s| - 1]) then 0
    else
      var k := TrailingDigits(s[..|s| - 1]);
      assert s[|s| - 1 - k..] == s[..|s| - 1][|s| - 1 - k..] + [s[|s| - 1]];
      k + 1
  }

  predicate EndsWith(s: string, suffix: string) {
    |suffix| <= |s| && s[|s| - |suffix|..] == suffix
  }

  /** `<margin> run` or `<margin> wickets` at the end of a result line,
      after the winner's name and " won by ". */
  function ReadBody(body: string, firstWon: bool): Option<Reading> {
    var k := TrailingDigits(body);
    var head := body[..|body| - k];
    if k == 0 || !EndsWith(head, " won by ") then None
    else Some(Reading(head[..|head| - 8], firstWon, ParseNat(body[|body| - k..])))
  }

  /** Reads a result line back from its end. */
  function ReadWinText(text: string): Option<Reading> {
    if EndsWith(text, " run") then ReadBody(text[..|text| - 4], true)
    else if EndsWith(text, " wickets") then ReadBody(text[..|text| - 8], false)
    else None
  }

  /** The digits written after a non-digit are exactly the trailing
      digits. */
  lemma {:induction false} TrailingDigitsAppend(p: string, d: string)
    requires |p| > 0 && !IsDigit(p[|p| - 1]) && AllDigits(d)
    ensures TrailingDigits(p + d) == |d|
    decreases |d|
  {
    if |d| == 0 {
      assert p + d == p;
    } else {
      assert (p + d)[..|p + d| - 1] == p + d[..|d| - 1];
      TrailingDigitsAppend(p, d[..|d| - 1]);
    }
  }

  lemma ReadBodyOf(w: string, m: nat, firstWon: bool)
    ensures ReadBody(w + " won by " + NatToString(m), firstWon) == Some(Reading(w, firstWon, m))
  {
    var head := w + " won by ";
    var body := head + NatToString(m);
    TrailingDigitsAppend(head, NatToString(m));
    assert body[..|body| - |NatToString(m)|] == head;
    assert body[|body| - |NatToString(m)|..] == NatToString(m);
    assert head[|head| - 8..] == " won by ";
    assert head[..|head| - 8] == w;
    ParseNatToString(m);
  }

  /** The result line can be read back: it names the winner, says whether
      the side batting first won, and gives the margin. */
  lemma WinTextReadsBack(g: GameState, t: Teams)
    requires Wickets2(g) <= 10
    ensures Margin(g) >= 0
    ensures ReadWinText(WinText(g, t)) == Some(Reading(Winner(g, t), Team1Wins(g), Margin(g)))
  {
    var w, m := Winner(g, t), Margin(g);
    assert WinText(g, t) == w + " won by " + NatToString(m) + (if Team1Wins(g) then " run" else " wickets");
    ReadLineOf(w, m, Team1Wins(g));
  }

  lemma ReadLineOf(w: string, m: nat, firstWon: bool)
    ensures ReadWinText(w + " won by " + NatToString(m) + (if firstWon then " run" else " wickets")) ==
            Some(Reading(w, firstWon, m))
  {
    var body := w + " won by " + NatToString(m);
    if firstWon {
      assert (body + " run")[..|body + " run"| - 4] == body;
    } else {
      assert (body + " wickets")[..|body + " wickets"| - 8] == body;
      assert !EndsWith(body + " wickets", " run") by {
        assert (body + " wickets")[|body + " wickets"| - 4..] == "kets";
      }
    }
    ReadBodyOf(w, m, firstWon);
  }

  /** A tie is reported as a win for the side batting second, by the
      wickets it has in hand. */
  lemma TieGoesToSecondSide(g: GameState, t: Teams)
    requires g.inning2.Some? && g.inning2.value.runs == g.inning1.runs
    ensures !Team1Wins(g) && Winner(g, t) == Team2Name(t)
    ensures Margin(g) == 10 - g.inning2.value.wickets
  {
  }

  // ---------------------------------------------------------------------
  // Net run rate
  // ---------------------------------------------------------------------

  function Balls2(g: GameState): int { if g.inning2.Some? then g.inning2.value.balls else 0 }

  /** `balls / 6`, the overs faced as a fraction. */
  function OversFaced(balls: int): real { balls as real / 6.0 }

  /** Runs per over scored minus runs per over conceded; 0 when the side
      has faced nothing, and the opponents' overs count as 1 when they
      faced nothing. */
  function Nrr(runsFor: int, oversFor: real, runsAgainst: int, oversAgainst: real): real {
    if oversFor != 0.0 then
      runsFor as real / oversFor - runsAgainst as real / (if oversAgainst != 0.0 then oversAgainst else 1.0)
    else 0.0
  }

  function Team1Nrr(g: GameState): real {
    Nrr(g.inning1.runs, OversFaced(g.inning1.balls), Runs2(g), OversFaced(Balls2(g)))
  }

  function Team2Nrr(g: GameState): real {
    Nrr(Runs2(g), OversFaced(Balls2(g)), g.inning1.runs, OversFaced(g.inning1.balls))
  }

  /** The winner's name and net run rate handed to the standings: the
      runs per over the winning side scored minus the runs per over it
      conceded, where an opponent that faced nothing counts as one over,
      and 0 when the winning side itself faced nothing. */
  function Standing(g: GameState, t: Teams): (r: (string, real))
    ensures r.0 == Winner(g, t)
    ensures var first := Team1Wins(g);
      var wr, wb := if first then g.inning1.runs else Runs2(g), if first then g.inning1.balls else Balls2(g);
      var lr, lb := if first then Runs2(g) else g.inning1.runs, if first then Balls2(g) else g.inning1.balls;
      (wb == 0 ==> r.1 == 0.0) &&
      (wb != 0 && lb != 0 ==> r.1 == 6.0 * wr as real / wb as real - 6.0 * lr as real / lb as real) &&
      (wb != 0 && lb == 0 ==> r.1 == 6.0 * wr as real / wb as real - lr as real)
  {
    var first := Team1Wins(g);
    var wr, wb := if first then g.inning1.runs else Runs2(g), if first then g.inning1.balls else Balls2(g);
    var lr, lb := if first then Runs2(g) else g.inning1.runs, if first then Balls2(g) else g.inning1.balls;
    PerOver(wr, wb);
    PerOver(lr, lb);
    (Winner(g, t), if RunDiff(g) > 0 then Team1Nrr(g) else Team2Nrr(g))
  }

  /** Runs over a fraction of overs are six times the runs per ball. */
  lemma PerOver(runs: int, balls: int)
    ensures balls != 0 <==> OversFaced(balls) != 0.0
    ensures balls != 0 ==> runs as real / OversFaced(balls) == 6.0 * runs as real / balls as real
  {
    var o := balls as real / 6.0;
    assert o * 6.0 == balls as real;
  }

  /** When both sides faced a ball the two rates are opposite, so the
      standings can credit the winner with `x` and the loser with `-x`. */
  lemma NrrOpposite(g: GameState)
    requires g.inning1.balls != 0 && Balls2(g) != 0
    ensures Team1Nrr(g) == -Team2Nrr(g)
  {
    assert OversFaced(g.inning1.balls) != 0.0;
    assert OversFaced(Balls2(g)) != 0.0;
  }

  // ---------------------------------------------------------------------
  // The innings alert
  // ---------------------------------------------------------------------

  /** The figures the alert is given for one innings. */
  datatype Partial = Partial(run: int, wicket: int, ball: int)

  function PartialOf(inn: InningState): Partial {
    Partial(inn.runs, inn.wickets, inn.balls)
  }

  function AlertDifference(i1: Partial, i2: Option<Partial>): int {
    i1.run - (if i2.Some? then i2.value.run else 0)
  }

  function AlertWinText(t: Teams, i1: Partial, i2: Option<Partial>): string {
    var d := AlertDifference(i1, i2);
    var wicketDiff := 10 - (if i2.Some? then i2.value.wicket else 0);
    var winner := if d > 0 then Team1Name(t) else Team2Name(t);
    var winBy := if d > 0 then IntToString(d) + " run" else IntToString(wicketDiff) + " wickets";
    winner + " won by " + winBy
  }

  /** The alert and the summary screen announce the same result for the
      same game. */
  lemma AlertAgreesWithSummary(g: GameState, t: Teams)
    ensures AlertWinText(t, PartialOf(g.inning1),
                         if g.inning2.Some? then Some(PartialOf(g.inning2.value)) else None) == WinText(g, t)
    ensures AlertDifference(PartialOf(g.inning1),
                            if g.inning2.Some? then Some(PartialOf(g.inning2.value)) else None) == RunDiff(g)
  {
  }

  /** `(ball / 6).toFixed(0)`: the overs rounded to the nearest whole
      number, halves up, rather than the completed overs. */
  function RoundedOvers(balls: nat): (r: nat)
    ensures 6 * r <= balls + 3 < 6 * r + 6
  {
    (balls + 3) / 6
  }

  /** The rounded figure is the count of completed overs only in the first
      half of an over, and one more in the second half. */
  lemma RoundedOversVsCompleted(balls: nat)
    ensures RoundedOvers(balls) == balls / 6 <==> balls % 6 < 3
    ensures balls % 6 >= 3 ==> RoundedOvers(balls) == balls / 6 + 1
  {
  }

  /** The alert's over figure, `(<rounded overs>.<balls % 6>)`. */
  function AlertOvers(balls: nat): string {
    "(" + NatToString((balls + 3) / 6) + "." + NatToString(balls % 6) + ")"
  }

  // ---------------------------------------------------------------------
  // The user's per-player stats
  // ---------------------------------------------------------------------

  datatype PlayerStats = PlayerStats(name: string, runs: int, wickets: int)

  /** The user's batting card and the user's bowling figures: the first
      innings' batsmen and the second innings' bowlers when the record says
      the opponent bats (the user batted first), the other way round
      otherwise. */
  function UserSide(g: GameState): (seq<BatsmanState>, Bowlers) {
    if g.battingTeam == Opp then (g.inning1.batsmen, if g.inning2.Some? then g.inning2.value.bowlers else [])
    else (if g.inning2.Some? then g.inning2.value.batsmen else [], g.inning1.bowlers)
  }

  predicate DistinctNames(acc: seq<PlayerStats>) {
    forall i, j :: 0 <= i < j < |acc| ==> acc[i].name != acc[j].name
  }

  /** The map lookup `statsMap.get(name)`. */
  function FindStats(acc: seq<PlayerStats>, name: string): (r: Option<nat>)
    ensures r.Some? ==> r.value < |acc| && acc[r.value].name == name
    ensures r.None? ==> forall i :: 0 <= i < |acc| ==> acc[i].name != name
  {
    if |acc| == 0 then None
    else if acc[0].name == name then Some(0)
    else match FindStats(acc[1..], name)
      case Some(i) => Some(i + 1)
      case None => None
  }

  function StatRuns(acc: seq<PlayerStats>, name: string): int {
    match FindStats(acc, name)
    case Some(i) => acc[i].runs
    case None => 0
  }

  function StatWickets(acc: seq<PlayerStats>, name: string): int {
    match FindStats(acc, name)
    case Some(i) => acc[i].wickets
    case None => 0
  }

  /** Adds to an existing entry, or appends a new one at the end of the
      map's insertion order. */
  function AddRuns(acc: seq<PlayerStats>, name: string, runs: int): seq<PlayerStats> {
    match FindStats(acc, name)
    case Some(i) => acc[i := acc[i].(runs := acc[i].runs + runs)]
    case None => acc + [PlayerStats(name, runs, 0)]
  }

  function AddWickets(acc: seq<PlayerStats>, name: string, wickets: int): seq<PlayerStats> {
    match FindStats(acc, name)
    case Some(i) => acc[i := acc[i].(wickets := acc[i].wickets + wickets)]
    case None => acc + [PlayerStats(name, 0, wickets)]
  }

  function MergeBatting(acc: seq<PlayerStats>, bs: seq<BatsmanState>): seq<PlayerStats>
    decreases |bs|
  {
    if |bs| == 0 then acc else MergeBatting(AddRuns(acc, bs[0].player.name, bs[0].runs), bs[1..])
  }

  function MergeBowling(acc: seq<PlayerStats>, bs: Bowlers): seq<PlayerStats>
    decreases |bs|
  {
    if |bs| == 0 then acc else MergeBowling(AddWickets(acc, bs[0].player.name, bs[0].wickets), bs[1..])
  }

  /** The merged stats of the user's side. */
  function MergedStats(g: GameState): seq<PlayerStats> {
    var (batsmen, bowlers) := UserSide(g);
    MergeBowling(MergeBatting([], batsmen), bowlers)
  }

  /** Reference definitions: a player's runs over every card entry with
      that name, and wickets over every bowling entry with that name. */
  function BattingRuns(bs: seq<BatsmanState>, name: string): int {
    if |bs| == 0 then 0 else (if bs[0].player.name == name then bs[0].runs else 0) + BattingRuns(bs[1..], name)
  }

  function BowlingWickets(bs: Bowlers, name: string): int {
    if |bs| == 0 then 0 else (if bs[0].player.name == name then bs[0].wickets else 0) + BowlingWickets(bs[1..], name)
  }

  predicate Bats(bs: seq<BatsmanState>, name: string) {
    exists i :: 0 <= i < |bs| && bs[i].player.name == name
  }

  predicate BowlsIn(bs: Bowlers, name: string) {
    exists i :: 0 <= i < |bs| && bs[i].player.name == name
  }

  lemma AddRunsAt(acc: seq<PlayerStats>, name: string, runs: int, n: string)
    requires DistinctNames(acc)
    ensures var r := AddRuns(acc, name, runs);
      DistinctNames(r) &&
      StatRuns(r, n) == StatRuns(acc, n) + (if n == name then runs else 0) &&
      StatWickets(r, n) == StatWickets(acc, n) &&
      (FindStats(r, n).Some? <==> FindStats(acc, n).Some? || n == name)
  {
    var r := AddRuns(acc, name, runs);
    match FindStats(acc, name)
    case Some(i) =>
      FindDistinct(r, i);
      if n != name {
        assert forall j :: 0 <= j < |r| && r[j].name == n ==> acc[j] == r[j];
        SameLookup(acc, r, n);
      }
    case None =>
      FindDistinct(r, |acc|);
      if n != name {
        SameLookupAppend(acc, PlayerStats(name, runs, 0), n);
      }
  }

  lemma AddWicketsAt(acc: seq<PlayerStats>, name: string, wickets: int, n: string)
    requires DistinctNames(acc)
    ensures var r := AddWickets(acc, name, wickets);
      DistinctNames(r) &&
      StatWickets(r, n) == StatWickets(acc, n) + (if n == name then wickets else 0) &&
      StatRuns(r, n) == StatRuns(acc, n) &&
      (FindStats(r, n).Some? <==> FindStats(acc, n).Some? || n == name)
  {
    var r := AddWickets(acc, name, wickets);
    match FindStats(acc, name)
    case Some(i) =>
      FindDistinct(r, i);
      if n != name {
        SameLookup(acc, r, n);
      }
    case None =>
      FindDistinct(r, |acc|);
      if n != name {
        SameLookupAppend(acc, PlayerStats(name, 0, wickets), n);
      }
  }

  /** With distinct names the lookup finds the one entry with the name. */
  lemma FindDistinct(acc: seq<PlayerStats>, i: nat)
    requires DistinctNames(acc) && i < |acc|
    ensures FindStats(acc, acc[i].name) == Some(i)
  {
  }

  /** Entries with other names do not matter to a lookup. */
  lemma SameLookup(a: seq<PlayerStats>, b: seq<PlayerStats>, n: string)
    requires |a| == |b|
    requires forall j :: 0 <= j < |a| ==> (a[j].name == n <==> b[j].name == n)
    requires forall j :: 0 <= j < |a| && a[j].name == n ==> a[j] == b[j]
    ensures FindStats(a, n) == FindStats(b, n)
    ensures StatRuns(a, n) == StatRuns(b, n) && StatWickets(a, n) == StatWickets(b, n)
    decreases |a|
  {
    if |a| > 0 && a[0].name != n {
      SameLookup(a[1..], b[1..], n);
    }
  }

  lemma SameLookupAppend(a: seq<PlayerStats>, x: PlayerStats, n: string)
    requires x.name != n
    ensures FindStats(a + [x], n) == FindStats(a, n)
    ensures StatRuns(a + [x], n) == StatRuns(a, n) && StatWickets(a + [x], n) == StatWickets(a, n)
    decreases |a|
  {
    if |a| > 0 && a[0].name != n {
      assert (a + [x])[1..] == a[1..] + [x];
      SameLookupAppend(a[1..], x, n);
    }
  }

  lemma {:induction false} MergeBattingAt(acc: seq<PlayerStats>, bs: seq<BatsmanState>, n: string)
    requires DistinctNames(acc)
    ensures var r := MergeBatting(acc, bs);
      DistinctNames(r) &&
      StatRuns(r, n) == StatRuns(acc, n) + BattingRuns(bs, n) &&
      StatWickets(r, n) == StatWickets(acc, n) &&
      (FindStats(r, n).Some? <==> FindStats(acc, n).Some? || Bats(bs, n))
    decreases |bs|
  {
    if |bs| > 0 {
      var acc' := AddRuns(acc, bs[0].player.name, bs[0].runs);
      AddRunsAt(acc, bs[0].player.name, bs[0].runs, n);
      MergeBattingAt(acc', bs[1..], n);
      assert Bats(bs, n) <==> bs[0].player.name == n || Bats(bs[1..], n) by {
        if Bats(bs[1..], n) {
          var i :| 0 <= i < |bs[1..]| && bs[1..][i].player.name == n;
          assert bs[i + 1].player.name == n;
        }
        if Bats(bs, n) && bs[0].player.name != n {
          var i :| 0 <= i < |bs| && bs[i].player.name == n;
          assert bs[1..][i - 1].player.name == n;
        }
      }
    }
  }

  lemma {:induction false} MergeBowlingAt(acc: seq<PlayerStats>, bs: Bowlers, n: string)
    requires DistinctNames(acc)
    ensures var r := MergeBowling(acc, bs);
      DistinctNames(r) &&
      StatWickets(r, n) == StatWickets(acc, n) + BowlingWickets(bs, n) &&
      StatRuns(r, n) == StatRuns(acc, n) &&
      (FindStats(r, n).Some? <==> FindStats(acc, n).Some? || BowlsIn(bs, n))
    decreases |bs|
  {
    if |bs| > 0 {
      var acc' := AddWickets(acc, bs[0].player.name, bs[0].wickets);
      AddWicketsAt(acc, bs[0].player.name, bs[0].wickets, n);
      MergeBowlingAt(acc', bs[1..], n);
      assert BowlsIn(bs, n) <==> bs[0].player.name == n || BowlsIn(bs[1..], n) by {
        if BowlsIn(bs[1..], n) {
          var i :| 0 <= i < |bs[1..]| && bs[1..][i].player.name == n;
          assert bs[i + 1].player.name == n;
        }
        if BowlsIn(bs, n) && bs[0].player.name != n {
          var i :| 0 <= i < |bs| && bs[i].player.name == n;
          assert bs[1..][i - 1].player.name == n;
        }
      }
    }
  }

  /** One entry per name of the user's side, carrying that player's runs
      off the bat and wickets with the ball. */
  lemma MergedStatsCorrect(g: GameState, n: string)
    ensures var m := MergedStats(g);
      DistinctNames(m) &&
      StatRuns(m, n) == BattingRuns(UserSide(g).0, n) &&
      StatWickets(m, n) == BowlingWickets(UserSide(g).1, n) &&
      (FindStats(m, n).Some? <==> Bats(UserSide(g).0, n) || BowlsIn(UserSide(g).1, n))
  {
    var (batsmen, bowlers) := UserSide(g);
    MergeBattingAt([], batsmen, n);
    MergeBowlingAt(MergeBatting([], batsmen), bowlers, n);
  }

  /** Hence, entry by entry. */
  lemma MergedEntries(g: GameState)
    ensures var m := MergedStats(g);
      DistinctNames(m) &&
      forall i :: 0 <= i < |m| ==>
        m[i].runs == BattingRuns(UserSide(g).0, m[i].name) &&
        m[i].wickets == BowlingWickets(UserSide(g).1, m[i].name)
  {
    var m := MergedStats(g);
    MergedStatsCorrect(g, "");
    forall i | 0 <= i < |m|
      ensures m[i].runs == BattingRuns(UserSide(g).0, m[i].name)
      ensures m[i].wickets == BowlingWickets(UserSide(g).1, m[i].name)
    {
      MergedStatsCorrect(g, m[i].name);
      FindDistinct(m, i);
    }
  }

  // ---------------------------------------------------------------------
  // Player of the match
  // ---------------------------------------------------------------------

  datatype Motm = Motm(name: string, run: int, wicket: int, points: int)

  /** `losingInning.bowlers[name]?.wickets || 0`. */
  function WicketsAgainst(losing: Bowlers, name: string): int {
    match FindBowler(losing, name)
    case Some(i) => losing[i].wickets
    case None => 0
  }

  /** `losingBowlerPoints.get(name) || 0`: ten a wicket, recorded only for
      bowlers and all-rounders of the same bowlers object. */
  function OppPoints(losing: Bowlers, name: string): int {
    match FindBowler(losing, name)
    case Some(i) => if CanBowl(losing[i].player.role) then losing[i].wickets * 10 else 0
    case None => 0
  }

  /** A candidate's score: runs, plus ten a wicket read from the losing
      innings' bowlers, plus the same ten a wicket again. */
  function Score(b: BatsmanState, losing: Bowlers): Motm {
    var w := WicketsAgainst(losing, b.player.name);
    Motm(b.player.name, b.runs, w, b.runs + w * 10 + OppPoints(losing, b.player.name))
  }

  /** The winning side's bowlers and all-rounders, in card order. */
  function Eligible(bs: seq<BatsmanState>): (r: seq<BatsmanState>)
    ensures |r| <= |bs|
    ensures forall i :: 0 <= i < |r| ==> CanBowl(r[i].player.role) && r[i] in bs
    ensures forall i :: 0 <= i < |bs| && CanBowl(bs[i].player.role) ==> bs[i] in r
  {
    if |bs| == 0 then []
    else if CanBowl(bs[0].player.role) then [bs[0]] + Eligible(bs[1..])
    else Eligible(bs[1..])
  }

  function Candidates(winning: InningState, losing: InningState): (cs: seq<Motm>)
    ensures |cs| == |Eligible(winning.batsmen)|
    ensures forall i :: 0 <= i < |cs| ==> cs[i] == Score(Eligible(winning.batsmen)[i], losing.bowlers)
  {
    var e := Eligible(winning.batsmen);
    seq(|e|, i requires 0 <= i < |e| => Score(e[i], losing.bowlers))
  }

  /** The `reduce` with a strict `>`: the first of the highest scores. */
  function BestIndex(cs: seq<Motm>): (k: nat)
    requires |cs| > 0
    ensures k < |cs|
    ensures forall j :: 0 <= j < |cs| ==> cs[j].points <= cs[k].points
    ensures forall j :: 0 <= j < k ==> cs[j].points < cs[k].points
    decreases |cs|
  {
    if |cs| == 1 then 0
    else
      var k := BestIndex(cs[..|cs| - 1]);
      if cs[|cs| - 1].points > cs[k].points then |cs| - 1 else k
  }

  function WinningInning(g: GameState): InningState
    requires g.inning2.Some?
  {
    if RunDiff(g) > 0 then g.inning1 else g.inning2.value
  }

  function LosingInning(g: GameState): InningState
    requires g.inning2.Some?
  {
    if RunDiff(g) > 0 then g.inning2.value else g.inning1
  }

  /** `calculateMOTM`: nothing before the second innings or when the
      winning card has no bowler or all-rounder; otherwise the earliest of
      the best-scoring candidates. */
  function MotmOf(g: GameState): (r: Option<Motm>)
    ensures r.None? <==> g.inning2.None? || |Eligible(WinningInning(g).batsmen)| == 0
    ensures r.Some? ==>
      var cs := Candidates(WinningInning(g), LosingInning(g));
      exists k :: 0 <= k < |cs| && r.value == cs[k] &&
        (forall j :: 0 <= j < |cs| ==> cs[j].points <= cs[k].points) &&
        (forall j :: 0 <= j < k ==> cs[j].points < cs[k].points)
  {
    if g.inning2.None? then None
    else
      var cs := Candidates(WinningInning(g), LosingInning(g));
      if |cs| == 0 then None else Some(cs[BestIndex(cs)])
  }

  /** Same-named entries on the two sheets are the same kind of player. */
  predicate RolesAgree(bs: seq<BatsmanState>, bowlers: Bowlers) {
    forall i, j :: 0 <= i < |bs| && 0 <= j < |bowlers| && bs[i].player.name == bowlers[j].player.name ==>
      bs[i].player.role == bowlers[j].player.role
  }

  /** A candidate's points are runs plus twenty a wicket. */
  lemma ScorePoints(b: BatsmanState, losing: Bowlers)
    requires CanBowl(b.player.role)
    requires forall j :: 0 <= j < |losing| && losing[j].player.name == b.player.name ==> losing[j].player.role == b.player.role
    ensures Score(b, losing).points == b.runs + 20 * Score(b, losing).wicket
  {
  }

  /** So the player of the match has runs plus twenty a wicket. */
  lemma MotmPoints(g: GameState)
    requires g.inning2.Some? && MotmOf(g).Some?
    requires RolesAgree(WinningInning(g).batsmen, LosingInning(g).bowlers)
    ensures MotmOf(g).value.points == MotmOf(g).value.run + 20 * MotmOf(g).value.wicket
  {
    var e := Eligible(WinningInning(g).batsmen);
    var cs := Candidates(WinningInning(g), LosingInning(g));
    var k := BestIndex(cs);
    var losing := LosingInning(g).bowlers;
    assert e[k] in WinningInning(g).batsmen;
    ScorePoints(e[k], losing);
  }

  // ---------------------------------------------------------------------
  // The fixture score
  // ---------------------------------------------------------------------

  datatype FixtureScore = FixtureScore(yourRun: int, yourWicket: int, oppRun: int, oppWicket: int)

  /** At the end the record names the side batting second; the user batted
      first when that is the opponent. */
  predicate UserBattedFirst(g: GameState) { g.battingTeam == Opp }

  /** The score written by `endGame`, missing figures as 0. */
  function EndGameScore(g: GameState): FixtureScore {
    if g.battingTeam == User then FixtureScore(Runs2(g), Wickets2(g), g.inning1.runs, g.inning1.wickets)
    else FixtureScore(g.inning1.runs, g.inning1.wickets, Runs2(g), Wickets2(g))
  }

  /** The user won exactly when they outscored the opponent, or tied while
      batting second. */
  lemma UserWinsByScore(g: GameState)
    ensures var sc := EndGameScore(g);
      (Team1Wins(g) == UserBattedFirst(g)) <==>
      (if UserBattedFirst(g) then sc.yourRun > sc.oppRun else sc.yourRun >= sc.oppRun)
  {
  }

  /** The score and the stats merge read the same innings for the user. */
  lemma ScoreAndStatsSameSide(g: GameState)
    requires g.inning2.Some?
    ensures var sc, inn := EndGameScore(g), if UserBattedFirst(g) then g.inning1 else g.inning2.value;
      sc.yourRun == inn.runs && sc.yourWicket == inn.wickets && UserSide(g).0 == inn.batsmen
  {
  }
}

=== FILE: scoreboard.dfy ===
/** The scorecard (`src/components/ScoreBoard.tsx`): which innings each tab
    shows, the split of the batting card into the batting table and the
    "Yet to Bat" line, the bowlers listed, and the figures printed in the
    header and the rows. */
module ScoreBoard {
  import opened Common
  import opened Text
  import opened Innings
  import opened MatchHelper
  import MatchResult

  datatype Tab = First | Second

  /** The innings a tab shows: the first always exists, the second only
      once it has started. */
  function Shown(g: GameState, tab: Tab): (r: Option<InningState>)
    ensures r.None? <==> tab == Second && g.inning2.None?
    ensures tab == First ==> r == Some(g.inning1)
    ensures r.Some? && tab == Second ==> g.inning2 == r
  {
    match tab
    case First => Some(g.inning1)
    case Second => g.inning2
  }

  datatype Panel = NotStarted | Card(header: string, batting: seq<BatsmanState>, yetToBat: seq<BatsmanState>, bowlers: Bowlers)

  // ---------------------------------------------------------------------
  // Filtering in card order
  // ---------------------------------------------------------------------

  /** `a` is `b` with some entries dropped and the rest in the same order. */
  predicate Subseq<T(==)>(a: seq<T>, b: seq<T>)
    decreases |b|
  {
    if |a| == 0 then true
    else if |b| == 0 then false
    else (a[0] == b[0] && Subseq(a[1..], b[1..])) || Subseq(a, b[1..])
  }

  /** `Array.prototype.filter`. */
  function Keep<T(==,!new)>(s: seq<T>, f: T -> bool): (r: seq<T>)
    ensures forall i :: 0 <= i < |r| ==> f(r[i])
    ensures forall x :: multiset(r)[x] == if f(x) then multiset(s)[x] else 0
    ensures Subseq(r, s)
    decreases |s|
  {
    if |s| == 0 then []
    else
      assert s == [s[0]] + s[1..];
      var rest := Keep(s[1..], f);
      if f(s[0]) then
        assert ([s[0]] + rest)[1..] == rest;
        [s[0]] + rest
      else rest
  }

  predicate BattedOrBatting(b: BatsmanState) {
    b.status == Active || b.status == Out
  }

  /** The batting table: the players at the crease or out, in card order. */
  function Batting(bs: seq<BatsmanState>): (r: seq<BatsmanState>)
    ensures forall i :: 0 <= i < |r| ==> r[i].status != Inactive
    ensures Subseq(r, bs)
  {
    Keep(bs, BattedOrBatting)
  }

  /** The "Yet to Bat" line: the players still inactive, in card order. */
  function YetToBat(bs: seq<BatsmanState>): (r: seq<BatsmanState>)
    ensures forall i :: 0 <= i < |r| ==> r[i].status == Inactive
    ensures Subseq(r, bs)
  {
    Keep(bs, (b: BatsmanState) => b.status == Inactive)
  }

  /** Every player on the card appears exactly once, in the table or on
      the "Yet to Bat" line. */
  lemma BattingPartition(bs: seq<BatsmanState>)
    ensures multiset(Batting(bs)) + multiset(YetToBat(bs)) == multiset(bs)
    ensures |Batting(bs)| + |YetToBat(bs)| == |bs|
  {
    var a, b := Batting(bs), YetToBat(bs);
    forall x ensures (multiset(a) + multiset(b))[x] == multiset(bs)[x] {
      assert BattedOrBatting(x) <==> x.status != Inactive;
    }
    assert multiset(a) + multiset(b) == multiset(bs);
    assert |multiset(a) + multiset(b)| == |multiset(bs)|;
  }

  /** Bowlers who have bowled a legal ball, `overs * 6 + balls > 0`. */
  predicate HasBowled(b: BowlerState) {
    b.overs * 6 + b.balls > 0
  }

  function ListedBowlers(bs: Bowlers): (r: Bowlers)
    ensures forall i :: 0 <= i < |r| ==> r[i].overs * 6 + r[i].balls > 0
    ensures forall x :: multiset(r)[x] == if HasBowled(x) then multiset(bs)[x] else 0
    ensures Subseq(r, bs)
  {
    Keep(bs, HasBowled)
  }

  /** A bowler whose every delivery was a wide or a no ball is left out of
      the list even though runs stand against the name. */
  lemma ExtrasOnlyBowlerHidden(bs: Bowlers, i: nat)
    requires i < |bs| && bs[i].overs == 0 && bs[i].balls == 0
    ensures bs[i] !in ListedBowlers(bs)
  {
    assert !HasBowled(bs[i]);
    assert multiset(ListedBowlers(bs))[bs[i]] == 0;
  }

  /** With non-negative counters, a bowler is listed exactly when a legal
      ball has been bowled. */
  lemma ListedIffLegalBall(bs: Bowlers, i: nat)
    requires i < |bs| && bs[i].overs >= 0 && bs[i].balls >= 0
    ensures bs[i] in ListedBowlers(bs) <==> bs[i].overs > 0 || bs[i].balls > 0
  {
    assert bs[i] in multiset(bs);
    assert bs[i] in ListedBowlers(bs) <==> multiset(ListedBowlers(bs))[bs[i]] > 0;
  }

  // ---------------------------------------------------------------------
  // Figures
  // ---------------------------------------------------------------------

  /** The whole number nearest `n / d`, a half going up. */
  function HalfUp(n: nat, d: int): (r: nat)
    requires d > 0
    ensures 2 * d * r <= 2 * n + d < 2 * d * r + 2 * d
  {
    (2 * n + d) / (2 * d)
  }

  /** `(num / den).toFixed(0)`: the sign is written first, then the digits
      of the whole number nearest the magnitude of `num / den`, a half
      going up. */
  function ToFixed0(num: int, den: int): (s: string)
    requires den > 0
    ensures num >= 0 ==>
      AllDigits(s) && 2 * den * ParseNat(s) <= 2 * num + den < 2 * den * ParseNat(s) + 2 * den
    ensures num < 0 ==>
      |s| > 1 && s[0] == '-' && AllDigits(s[1..]) &&
      2 * den * ParseNat(s[1..]) <= -2 * num + den < 2 * den * ParseNat(s[1..]) + 2 * den
  {
    if num < 0 then
      var m := HalfUp(-num, den);
      ParseNatToString(m);
      assert ("-" + NatToString(m))[1..] == NatToString(m);
      "-" + NatToString(m)
    else
      ParseNatToString(HalfUp(num, den));
      NatToString(HalfUp(num, den))
  }

  /** The over part of the header, `(balls / 6).toFixed(0)` followed by a
      point and `balls % 6`. */
  function HeaderOvers(balls: int): (s: string)
    ensures balls >= 0 ==>
      s == NatToString(MatchResult.RoundedOvers(balls)) + "." + NatToString(balls % 6)
  {
    HalfUpOfSixth(balls);
    ToFixed0(balls, 6) + "." + IntToString(JsRem(balls, 6))
  }

  /** Rounding a sixth half up is adding three before dividing. */
  lemma HalfUpOfSixth(balls: int)
    ensures balls >= 0 ==> HalfUp(balls, 6) == MatchResult.RoundedOvers(balls)
  {
    if balls >= 0 {
      var h, r := HalfUp(balls, 6), MatchResult.RoundedOvers(balls);
      assert 12 * h <= 2 * balls + 6 < 12 * h + 12;
      assert 6 * r <= balls + 3 < 6 * r + 6;
    }
  }

  /** `runs/wickets (overs)`. */
  function Header(inn: InningState): string {
    IntToString(inn.runs) + "/" + IntToString(inn.wickets) + " (" + HeaderOvers(inn.balls) + ")"
  }

  /** The header shows the same over figure as the innings alert. */
  lemma HeaderMatchesAlert(balls: nat)
    ensures "(" + HeaderOvers(balls) + ")" == MatchResult.AlertOvers(balls)
  {
  }

  /** The header agrees with `ballsToOver` in the first half of an over
      and shows one over more in the second half. */
  lemma HeaderVsBallsToOver(balls: nat)
    ensures HeaderOvers(balls) == BallsToOver(balls) <==> balls % 6 < 3
  {
    var r, m := MatchResult.RoundedOvers(balls), balls % 6;
    MatchResult.RoundedOversVsCompleted(balls);
    BallsToOverRoundTrip(balls);
    assert NatToString(m) == [DigitChar(m)];
    assert HeaderOvers(balls) == NatToString(r) + "." + [DigitChar(m)];
    SameOverTail(r, balls / 6, DigitChar(m));
  }

  /** Two over figures with the same ball digit agree exactly when their
      over counts do. */
  lemma SameOverTail(x: nat, y: nat, c: char)
    ensures NatToString(x) + "." + [c] == NatToString(y) + "." + [c] <==> x == y
  {
    var a, b := NatToString(x) + "." + [c], NatToString(y) + "." + [c];
    if a == b {
      assert NatToString(x) == a[..|a| - 2];
      assert NatToString(y) == b[..|b| - 2];
      NatToStringInjective(x, y);
    }
  }

  /** The card panel of a tab, or the "Innings not started" message. */
  function Render(g: GameState, tab: Tab): (p: Panel)
    ensures p == NotStarted <==> tab == Second && g.inning2.None?
    ensures p.Card? ==>
      var inn := Shown(g, tab).value;
      multiset(p.batting) + multiset(p.yetToBat) == multiset(inn.batsmen) &&
      forall i :: 0 <= i < |p.bowlers| ==> HasBowled(p.bowlers[i])
  {
    match Shown(g, tab)
    case None => NotStarted
    case Some(inn) =>
      BattingPartition(inn.batsmen);
      Card(Header(inn), Batting(inn.batsmen), YetToBat(inn.batsmen), ListedBowlers(inn.bowlers))
  }

  /** The bowler's overs column, `${overs}.${balls}`. */
  function OversDecimal(overs: int, balls: int): string {
    IntToString(overs) + "." + IntToString(balls)
  }

  /** With the ball counter in 0..5, as the reducer keeps it, the column
      is `ballsToOver` of the bowler's legal balls. */
  lemma OversDecimalIsBallsToOver(overs: nat, balls: nat)
    requires balls < 6
    ensures OversDecimal(overs, balls) == BallsToOver(overs * 6 + balls)
  {
    var n := overs * 6 + balls;
    DivMod6(overs, balls);
    BallsToOverRoundTrip(n);
    assert IntToString(balls) == [DigitChar(balls)];
  }

  lemma DivMod6(q: nat, m: int)
    requires 0 <= m < 6
    ensures (q * 6 + m) / 6 == q && (q * 6 + m) % 6 == m
  {
  }

  /** The strike-rate column: `((runs / balls) * 100).toFixed(0)`, or '0.0'
      before the first ball faced. */
  function StrikeRate(b: BatsmanState): (s: string)
    ensures b.balls <= 0 ==> s == "0.0"
    ensures b.balls > 0 && b.runs >= 0 ==>
      var r := HalfUp(100 * b.runs, b.balls);
      s == NatToString(r) && 2 * b.balls * r <= 200 * b.runs + b.balls < 2 * b.balls * r + 2 * b.balls
  {
    if b.balls > 0 then ToFixed0(100 * b.runs, b.balls) else "0.0"
  }

  /** The placeholder can never be mistaken for a computed strike rate,
      which has no decimal point. */
  lemma StrikeRatePlaceholderDistinct(b: BatsmanState, c: BatsmanState)
    requires b.balls <= 0 && c.balls > 0
    ensures StrikeRate(b) != StrikeRate(c)
  {
    var s := StrikeRate(c);
    if c.runs >= 0 {
      assert AllDigits(s);
      assert !IsDigit(StrikeRate(b)[1]);
    } else {
      assert s[0] == '-';
    }
  }

  datatype EconomyFigure = NoEconomy | Econ(value: real)

  /** The economy column: runs per six legal balls, or '0.00' before the
      first legal ball. */
  function Economy(b: BowlerState): (e: EconomyFigure)
    ensures e.NoEconomy? <==> b.overs * 6 + b.balls <= 0
    ensures e.Econ? ==> e.value * (b.overs * 6 + b.balls) as real == 6.0 * b.runs as real
  {
    var total := b.overs * 6 + b.balls;
    if total > 0 then Econ(b.runs as real / (total as real / 6.0)) else NoEconomy
  }

  /** Every listed bowler has an economy figure. */
  lemma ListedHaveEconomy(bs: Bowlers, i: nat)
    requires i < |ListedBowlers(bs)|
    ensures Economy(ListedBowlers(bs)[i]).Econ?
  {
  }
}

=== FILE: season.dfy ===
/** The end of a season (`src/screens/SeasonSummaryScreen.tsx`): the
    champion is recorded and the season's tables are cleared, the user is
    congratulated when the final report puts the user's side first, and
    the best run scorer and wicket taker of the season are picked. */
module SeasonSummary {
  import opened Common
  import Standings
  import opened PlayersDb

  // ---------------------------------------------------------------------
  // The end-of-season sequence
  // ---------------------------------------------------------------------

  /** The calls made into the history and fixtures stores, whose code is
      not part of this model; they are kept as a log in call order. */
  datatype Call =
    | UpdateWinner(year: int, name: string, logo: string, themeColor: string)
    | SetOngoing(year: int, ongoing: bool)
    | ResetFixturesStats

  datatype League = League(standings: Standings.Table, players: PlayersDb.Table, calls: seq<Call>)

  /** `endSeason`: without a team in first place nothing happens; otherwise
      that team is recorded as the year's winner, the next year is opened,
      and the standings, the players' season figures and the fixtures are
      reset, in that order. */
  function EndSeason(l: League, year: int): (r: League)
    ensures Standings.GetTeamByPosition(l.standings, 1).None? ==> r == l
    ensures Standings.GetTeamByPosition(l.standings, 1).Some? ==>
      var c := Standings.GetTeamByPosition(l.standings, 1).value;
      r.calls == l.calls + [UpdateWinner(year, c.name, c.logo, c.themeColor), SetOngoing(year + 1, true),
                            ResetFixturesStats] &&
      r.standings == Standings.ResetStats(l.standings) && r.players == ResetSeason(l.players)
  {
    match Standings.GetTeamByPosition(l.standings, 1)
    case None => l
    case Some(c) =>
      League(Standings.ResetStats(l.standings), ResetSeason(l.players),
             l.calls + [UpdateWinner(year, c.name, c.logo, c.themeColor), SetOngoing(year + 1, true),
                        ResetFixturesStats])
  }

  /** The winner is read before the reset: the team recorded is the leader
      of the finished table, the season only ends when the table has a
      row, and afterwards every team stands at zero while the career
      figures of the players are kept. */
  lemma EndSeasonRecordsChampion(l: League, year: int)
    ensures (EndSeason(l, year) == l) <== |l.standings| == 0
    ensures |l.standings| > 0 ==>
      var r := EndSeason(l, year);
      |r.calls| == |l.calls| + 3 &&
      r.calls[|l.calls|] == UpdateWinner(year, Standings.GetStandings(l.standings)[0].row.name,
                                         Standings.GetStandings(l.standings)[0].row.logo,
                                         Standings.GetStandings(l.standings)[0].row.themeColor) &&
      Standings.Sum(r.standings, Standings.Points) == 0 &&
      (forall i :: 0 <= i < |r.players| ==>
         r.players[i].runs == 0 && r.players[i].totalRuns == l.players[i].totalRuns)
  {
    if |l.standings| > 0 {
      Standings.ResetSums(l.standings, "");
    }
  }

  /** Ending a season keeps every player's career figures at least the
      season figures. */
  lemma EndSeasonConsistent(l: League, year: int)
    requires Consistent(l.players)
    ensures Consistent(EndSeason(l, year).players)
  {
    ResetConsistent(l.players);
  }

  // ---------------------------------------------------------------------
  // "You won the season"
  // ---------------------------------------------------------------------

  /** `result.teams`, `[{team1, position1}, {team2, position2}]`. */
  function Teams(r: Standings.GameEnd): seq<(string, int)>
    requires r.Ended?
  {
    [(r.team1, r.position1), (r.team2, r.position2)]
  }

  /** `Array.prototype.find` by name. */
  function FindTeam(ts: seq<(string, int)>, name: string): (r: Option<(string, int)>)
    ensures r.Some? ==> exists k :: 0 <= k < |ts| && ts[k] == r.value && r.value.0 == name &&
                                    forall j :: 0 <= j < k ==> ts[j].0 != name
    ensures r.None? <==> forall k :: 0 <= k < |ts| ==> ts[k].0 != name
  {
    if |ts| == 0 then None
    else if ts[0].0 == name then Some(ts[0])
    else
      var r := FindTeam(ts[1..], name);
      assert r.Some? ==> ts[1..][0] == ts[1];
      if r.Some? then
        var k :| 0 <= k < |ts[1..]| && ts[1..][k] == r.value && r.value.0 == name &&
                 forall j :: 0 <= j < k ==> ts[1..][j].0 != name;
        assert ts[k + 1] == r.value && forall j :: 0 <= j < k + 1 ==> ts[j].0 != name;
        r
      else r
  }

  /** The congratulation fires when the user's team is known (a non-empty
      name), the season has ended, and the report places that team
      first. */
  predicate YouWon(result: Standings.GameEnd, yourTeam: Option<string>) {
    yourTeam.Some? && yourTeam.value != "" && result.Ended? &&
    match FindTeam(Teams(result), yourTeam.value)
    case None => false
    case Some(t) => t.1 == 1
  }

  /** When the user's side is the first side of the last match, as the
      match screens report it, the user is congratulated exactly when the
      season has ended with that side on top of the final table. */
  lemma YouWonIffChampion(final: Standings.Table, team1: string, team2: string)
    requires team1 != ""
    ensures var result := Standings.GameEndOf(final, team1, team2);
      YouWon(result, Some(team1)) <==>
        result.Ended? && Standings.GetTeamByPosition(final, 1).Some? &&
        Standings.GetTeamByPosition(final, 1).value.name == team1
  {
    var result := Standings.GameEndOf(final, team1, team2);
    var u := Standings.Sort(final);
    if result.Ended? {
      assert FindTeam(Teams(result), team1) == Some((team1, result.position1));
      if u[0].name == team1 {
        assert result.position1 == 1;
      }
    }
  }

  // ---------------------------------------------------------------------
  // Top performers
  // ---------------------------------------------------------------------

  /** `reduce((a, b) => (b.stat > a.stat ? b : a))` from index `i` on, with
      `a` the index kept so far. */
  function Reduce(s: seq<Stat>, a: nat, i: nat): (k: nat)
    requires a < i <= |s|
    requires forall j :: 0 <= j < i ==> s[j].stat <= s[a].stat
    requires forall j :: 0 <= j < a ==> s[j].stat < s[a].stat
    ensures k < |s|
    ensures forall j :: 0 <= j < |s| ==> s[j].stat <= s[k].stat
    ensures forall j :: 0 <= j < k ==> s[j].stat < s[k].stat
    decreases |s| - i
  {
    if i == |s| then a
    else Reduce(s, if s[i].stat > s[a].stat then i else a, i + 1)
  }

  /** Entry `k` holds the largest figure and no earlier entry does. */
  predicate IsFirstMax(s: seq<Stat>, k: nat)
    requires k < |s|
  {
    (forall j :: 0 <= j < |s| ==> s[j].stat <= s[k].stat) &&
    (forall j :: 0 <= j < k ==> s[j].stat < s[k].stat)
  }

  /** The entry a reduce without a seed picks, none for an empty list:
      the first entry holding the largest figure. */
  function Top(s: seq<Stat>): (r: Option<Stat>)
    ensures r.None? <==> |s| == 0
    ensures r.Some? ==>
      exists k :: 0 <= k < |s| && s[k] == r.value && IsFirstMax(s, k)
  {
    if |s| == 0 then None else Some(s[Reduce(s, 0, 1)])
  }

  /** The season's best run scorer among BAT, AR and WK. */
  function TopRunScorer(t: PlayersDb.Table): Option<Stat> {
    Top(GetStatistics(t, Season, Batting))
  }

  /** The season's best wicket taker among BOWL and AR. */
  function TopWicketTaker(t: PlayersDb.Table): Option<Stat> {
    Top(GetStatistics(t, Season, Bowling))
  }

  /** Every listed row of the table is among the statistics. */
  lemma ListedInStatistics(t: PlayersDb.Table, d: Discipline, i: nat)
    requires i < |t| && Listed(t[i].player.role, d)
    ensures exists j :: 0 <= j < |GetStatistics(t, Season, d)| && GetStatistics(t, Season, d)[j].entry == t[i]
  {
    var s := GetStatistics(t, Season, d);
    var es := Entries(s);
    InMultiset(t, i);
    assert t[i] in multiset(es);
    var j :| 0 <= j < |es| && es[j] == t[i];
    assert s[j].entry == t[i];
  }

  /** Every row of the statistics is a listed row of the table with its
      season figure. */
  lemma StatisticsFromTable(t: PlayersDb.Table, d: Discipline, k: nat)
    requires k < |GetStatistics(t, Season, d)|
    ensures var e := GetStatistics(t, Season, d)[k];
      e.entry in multiset(t) && Listed(e.entry.player.role, d) && e.stat == StatOf(e.entry, Season, d)
  {
    var s := GetStatistics(t, Season, d);
    var es := Entries(s);
    InMultiset(es, k);
    assert es[k] == s[k].entry;
  }

  /** The statistics run in position order. */
  lemma StatisticsByPosition(t: PlayersDb.Table, d: Discipline, k: nat, j: nat)
    requires k <= j < |GetStatistics(t, Season, d)|
    ensures var s := GetStatistics(t, Season, d);
      s[k].entry.player.position <= s[j].entry.player.position
  {
    var s := GetStatistics(t, Season, d);
    EntriesByPosition(s, k, j);
  }

  lemma EntriesByPosition(s: seq<Stat>, k: nat, j: nat)
    requires k <= j < |s| && ByPosition(Entries(s))
    ensures s[k].entry.player.position <= s[j].entry.player.position
  {
    var es := Entries(s);
    assert es[k] == s[k].entry && es[j] == s[j].entry;
  }

  /** The pick is a player of the discipline with the most season runs
      (or wickets) of any such player in the table; every other player
      with as many is at the same or a later position; and there is a pick
      exactly when the table has a player of the discipline. */
  lemma TopPerformer(t: PlayersDb.Table, d: Discipline)
    ensures var r := Top(GetStatistics(t, Season, d));
      (r.None? <==> forall i :: 0 <= i < |t| ==> !Listed(t[i].player.role, d)) &&
      (r.Some? ==>
         r.value.entry in multiset(t) && Listed(r.value.entry.player.role, d) &&
         r.value.stat == StatOf(r.value.entry, Season, d) &&
         forall i :: 0 <= i < |t| && Listed(t[i].player.role, d) ==>
           StatOf(t[i], Season, d) <= r.value.stat &&
           (StatOf(t[i], Season, d) == r.value.stat ==> r.value.entry.player.position <= t[i].player.position))
  {
    var s := GetStatistics(t, Season, d);
    var r := Top(s);
    if r.Some? {
      var k :| 0 <= k < |s| && s[k] == r.value && IsFirstMax(s, k);
      StatisticsFromTable(t, d, k);
      forall i | 0 <= i < |t| && Listed(t[i].player.role, d)
        ensures StatOf(t[i], Season, d) <= r.value.stat &&
                (StatOf(t[i], Season, d) == r.value.stat ==> r.value.entry.player.position <= t[i].player.position)
      {
        ListedInStatistics(t, d, i);
        var j :| 0 <= j < |s| && s[j].entry == t[i];
        StatisticsFromTable(t, d, j);
        if s[j].stat == s[k].stat {
          StatisticsByPosition(t, d, k, j);
        }
      }
    } else {
      forall i | 0 <= i < |t| ensures !Listed(t[i].player.role, d) {
        InMultiset(t, i);
        assert multiset(Entries(s))[t[i]] == 0;
      }
    }
  }
}

=== FILE: squad.dfy ===
/** The squad screen (`src/screens/SquadScreen.tsx`): swapping the batting
    positions of two players by pressing one and then the other, the
    positions kept to be written back on leaving, the rating shown for a
    player and the split into the playing eleven and the bench. */
module Squad {
  import opened Common
  import opened PlayersDb

  /** The first player pressed, with the position it had then. */
  datatype Target = Target(name: string, position: int)

  /** `Map<string, number>`: keys in order of first insertion. */
  type Changes = seq<(string, int)>

  datatype Screen = Screen(squad: Table, target: Option<Target>, changed: Changes)

  // ---------------------------------------------------------------------
  // The position map
  // ---------------------------------------------------------------------

  /** No key is recorded twice. */
  predicate DistinctKeys(m: Changes) {
    forall i, j :: 0 <= i < j < |m| ==> m[i].0 != m[j].0
  }

  /** `Map.get`. */
  function Lookup(m: Changes, k: string): (r: Option<int>)
    ensures r.None? <==> forall i :: 0 <= i < |m| ==> m[i].0 != k
    ensures r.Some? ==> exists i :: 0 <= i < |m| && m[i] == (k, r.value)
    decreases |m|
  {
    if |m| == 0 then None
    else if m[0].0 == k then Some(m[0].1)
    else
      var r := Lookup(m[1..], k);
      assert r.Some? ==> exists i :: 0 <= i < |m[1..]| && m[1..][i] == (k, r.value);
      r
  }

  /** `Map.set`: a new key goes to the end, an existing one keeps its place
      and takes the new value. */
  function MapSet(m: Changes, k: string, v: int): (r: Changes)
    ensures Lookup(m, k).Some? ==> |r| == |m| && forall i :: 0 <= i < |m| ==> r[i].0 == m[i].0
    ensures Lookup(m, k).None? ==> r == m + [(k, v)]
    decreases |m|
  {
    if |m| == 0 then [(k, v)]
    else if m[0].0 == k then [(k, v)] + m[1..]
    else [m[0]] + MapSet(m[1..], k, v)
  }

  /** The key set reads the new value and every other key its old one. */
  lemma {:induction false} MapSetLookup(m: Changes, k: string, v: int, k': string)
    ensures Lookup(MapSet(m, k, v), k') == if k' == k then Some(v) else Lookup(m, k')
    decreases |m|
  {
    if |m| > 0 && m[0].0 != k {
      MapSetLookup(m[1..], k, v, k');
      assert MapSet(m, k, v)[1..] == MapSet(m[1..], k, v);
    }
  }

  /** Setting a key keeps the keys distinct. */
  lemma MapSetDistinct(m: Changes, k: string, v: int)
    requires DistinctKeys(m)
    ensures DistinctKeys(MapSet(m, k, v))
  {
  }

  // ---------------------------------------------------------------------
  // `handleSwapPress`
  // ---------------------------------------------------------------------

  function Swapped(squad: Table, t: Target, p: Player): (r: Table)
    ensures |r| == |squad|
  {
    seq(|squad|, i requires 0 <= i < |squad| =>
      var q := squad[i];
      if q.player.name == t.name then q.(player := q.player.(position := p.position))
      else if q.player.name == p.name then q.(player := q.player.(position := t.position))
      else q)
  }

  /** Pressing player `p`: the first press marks it, pressing the marked
      player again unmarks it, pressing another player exchanges the two
      positions and records both new positions. */
  function Press(s: Screen, p: Player): (r: Screen)
    ensures s.target.None? ==> r == s.(target := Some(Target(p.name, p.position)))
    ensures s.target.Some? && s.target.value.name == p.name ==> r == s.(target := None)
    ensures s.target.Some? && s.target.value.name != p.name ==>
      var t := s.target.value;
      r.target.None? && |r.squad| == |s.squad| &&
      forall i :: 0 <= i < |s.squad| ==>
        var q, q' := s.squad[i], r.squad[i];
        q'.player.name == q.player.name &&
        (q.player.name == t.name ==> q' == q.(player := q.player.(position := p.position))) &&
        (q.player.name == p.name ==> q' == q.(player := q.player.(position := t.position))) &&
        (q.player.name != t.name && q.player.name != p.name ==> q' == q)
  {
    match s.target
    case None => s.(target := Some(Target(p.name, p.position)))
    case Some(t) =>
      if t.name == p.name then s.(target := None)
      else
        Screen(Swapped(s.squad, t, p), None, MapSet(MapSet(s.changed, t.name, p.position), p.name, t.position))
  }

  /** A swap records the new positions of both players, later swaps
      overwriting earlier ones, and leaves the other records alone. */
  lemma PressRecords(s: Screen, p: Player)
    requires s.target.Some? && s.target.value.name != p.name
    ensures var t, r := s.target.value, Press(s, p);
      Lookup(r.changed, t.name) == Some(p.position) && Lookup(r.changed, p.name) == Some(t.position) &&
      forall k :: k != t.name && k != p.name ==> Lookup(r.changed, k) == Lookup(s.changed, k)
  {
    var t := s.target.value;
    var m1 := MapSet(s.changed, t.name, p.position);
    forall k ensures Lookup(MapSet(m1, p.name, t.position), k) ==
                     if k == p.name then Some(t.position) else if k == t.name then Some(p.position)
                     else Lookup(s.changed, k) {
      MapSetLookup(m1, p.name, t.position, k);
      MapSetLookup(s.changed, t.name, p.position, k);
    }
  }

  /** The marked player is on the screen with the position it had when
      marked, names are unique, and every recorded position is the
      player's current one. */
  predicate Coherent(s: Screen) {
    UniqueNames(s.squad) && DistinctKeys(s.changed) &&
    (s.target.Some? ==> exists i :: 0 <= i < |s.squad| && s.squad[i].player.name == s.target.value.name &&
                                   s.squad[i].player.position == s.target.value.position) &&
    forall i :: 0 <= i < |s.squad| && Lookup(s.changed, s.squad[i].player.name).Some? ==>
      Lookup(s.changed, s.squad[i].player.name) == Some(s.squad[i].player.position)
  }

  /** An exchange of two entries leaves the multiset alone. */
  lemma SwapMultiset(ps: seq<int>, qs: seq<int>, i: nat, j: nat)
    requires i < |ps| && j < |ps| && i != j && |qs| == |ps|
    requires qs[i] == ps[j] && qs[j] == ps[i]
    requires forall k :: 0 <= k < |ps| && k != i && k != j ==> qs[k] == ps[k]
    ensures multiset(qs) == multiset(ps)
  {
    assert qs == ps[i := ps[j]][j := ps[i]];
  }

  /** Pressing a player on the screen leaves the positions a rearrangement
      of the ones before. */
  lemma PressPermutes(s: Screen, k: nat)
    requires Coherent(s) && k < |s.squad|
    ensures multiset(Positions(Press(s, s.squad[k].player).squad)) == multiset(Positions(s.squad))
  {
    var p := s.squad[k].player;
    var r := Press(s, p);
    if s.target.Some? && s.target.value.name != p.name {
      var t := s.target.value;
      var j :| 0 <= j < |s.squad| && s.squad[j].player.name == t.name && s.squad[j].player.position == t.position;
      forall m | 0 <= m < |s.squad| && m != j && m != k
        ensures Positions(r.squad)[m] == Positions(s.squad)[m]
      {
        assert s.squad[m].player.name != t.name && s.squad[m].player.name != p.name;
      }
      SwapMultiset(Positions(s.squad), Positions(r.squad), j, k);
    }
  }

  /** Pressing a player on the screen keeps the screen coherent. */
  lemma PressCoherent(s: Screen, k: nat)
    requires Coherent(s) && k < |s.squad|
    ensures Coherent(Press(s, s.squad[k].player))
  {
    var p := s.squad[k].player;
    var r := Press(s, p);
    if s.target.Some? && s.target.value.name != p.name {
      var t := s.target.value;
      var j :| 0 <= j < |s.squad| && s.squad[j].player.name == t.name && s.squad[j].player.position == t.position;
      PressRecords(s, p);
      MapSetDistinct(s.changed, t.name, p.position);
      MapSetDistinct(MapSet(s.changed, t.name, p.position), p.name, t.position);
      assert UniqueNames(r.squad);
      forall m | 0 <= m < |r.squad| && Lookup(r.changed, r.squad[m].player.name).Some?
        ensures Lookup(r.changed, r.squad[m].player.name) == Some(r.squad[m].player.position)
      {
        if m != j && m != k {
          assert r.squad[m] == s.squad[m];
        }
      }
    }
  }

  // ---------------------------------------------------------------------
  // `handleBack`
  // ---------------------------------------------------------------------

  /** Writes every recorded position to the table, in the map's order. */
  function WriteBack(t: Table, m: Changes): (r: Table)
    ensures |r| == |t|
    ensures forall i :: 0 <= i < |t| ==> r[i].player.name == t[i].player.name
    decreases |m|
  {
    if |m| == 0 then t else WriteBack(UpdatePosition(t, m[0].0, m[0].1), m[1..])
  }

  /** With distinct keys, every row named in the map ends at the recorded
      position and every other row is unchanged. */
  lemma {:induction false} WriteBackPositions(t: Table, m: Changes, i: nat)
    requires DistinctKeys(m) && i < |t|
    ensures var r, n := WriteBack(t, m)[i], t[i].player.name;
      (Lookup(m, n).Some? ==> r == t[i].(player := t[i].player.(position := Lookup(m, n).value))) &&
      (Lookup(m, n).None? ==> r == t[i])
    decreases |m|
  {
    if |m| > 0 {
      var t1 := UpdatePosition(t, m[0].0, m[0].1);
      WriteBackPositions(t1, m[1..], i);
    }
  }

  /** Leaving the screen stores exactly the squad's positions for every
      player that took part in a swap, so reading the table back shows the
      screen's order. */
  lemma BackStoresScreen(t: Table, s: Screen, i: nat)
    requires Coherent(s) && i < |t| && i < |s.squad| && t[i].player.name == s.squad[i].player.name
    requires Lookup(s.changed, t[i].player.name).Some?
    ensures WriteBack(t, s.changed)[i].player.position == s.squad[i].player.position
  {
    WriteBackPositions(t, s.changed, i);
  }

  // ---------------------------------------------------------------------
  // The rating shown and the eleven
  // ---------------------------------------------------------------------

  datatype View = Overall | BatView | BallView

  /** The rating of `renderPlayer`: the batting figure for BAT and WK, the
      bowling figure for BOWL, the floored mean otherwise; the Bat and Ball
      views override it. */
  function Rating(p: Player, v: View): (r: int)
    ensures v == BatView ==> r == p.batting
    ensures v == BallView ==> r == p.bowling
    ensures v == Overall && (p.role == Bat || p.role == Keeper) ==> r == p.batting
    ensures v == Overall && p.role == Bowl ==> r == p.bowling
    ensures v == Overall && !(p.role == Bat || p.role == Keeper || p.role == Bowl) ==>
      2 * r <= p.batting + p.bowling < 2 * r + 2
  {
    var avg := if p.role == Bat || p.role == Keeper then p.batting
               else if p.role == Bowl then p.bowling
               else (p.batting + p.bowling) / 2;
    match v
    case BatView => p.batting
    case BallView => p.bowling
    case Overall => avg
  }

  /** Whatever the view, the rating lies between the two skills. */
  lemma RatingBetween(p: Player, v: View)
    ensures var r := Rating(p, v);
      (p.batting <= r || p.bowling <= r) && (r <= p.batting || r <= p.bowling)
  {
  }

  /** The eleven shown first and the bench below, after sorting by
      position. */
  function Split(squad: Table): (r: (Table, Table))
    ensures r.0 + r.1 == Sort(squad)
    ensures |r.0| == if |squad| < 11 then |squad| else 11
    ensures forall i, j :: 0 <= i < |r.0| && 0 <= j < |r.1| ==>
      r.0[i].player.position <= r.1[j].player.position
  {
    var u := Sort(squad);
    SortByPosition(squad);
    var n := if |u| < 11 then |u| else 11;
    assert u == u[..n] + u[n..];
    (u[..n], u[n..])
  }
}

=== FILE: standings.dfy ===
/** The league table (`src/database/standings.ts`). The SQL table is a
    sequence of rows in id order and every statement is a function on it.
    `ORDER BY points DESC, nrr DESC` leaves ties to the database; here
    the order is an insertion sort over the rows in id order. */
module Standings {
  import opened Common

  datatype Row = Row(id: int, name: string, logo: string, themeColor: string,
                     win: int, lose: int, tie: int, points: int, nrr: real)

  type Table = seq<Row>

  // ---------------------------------------------------------------------
  // Column sums
  // ---------------------------------------------------------------------

  datatype Column = Wins | Losses | Ties | Points

  function Get(r: Row, c: Column): int {
    match c
    case Wins => r.win
    case Losses => r.lose
    case Ties => r.tie
    case Points => r.points
  }

  function Sum(t: Table, c: Column): int {
    if |t| == 0 then 0 else Get(t[0], c) + Sum(t[1..], c)
  }

  function SumNrr(t: Table): real {
    if |t| == 0 then 0.0 else t[0].nrr + SumNrr(t[1..])
  }

  /** The number of rows with the given name. */
  function Named(t: Table, n: string): nat {
    if |t| == 0 then 0 else (if t[0].name == n then 1 else 0) + Named(t[1..], n)
  }

  function TableNames(t: Table): (ns: seq<string>)
    ensures |ns| == |t| && forall i :: 0 <= i < |t| ==> ns[i] == t[i].name
  {
    seq(|t|, i requires 0 <= i < |t| => t[i].name)
  }

  // ---------------------------------------------------------------------
  // Recording one result
  // ---------------------------------------------------------------------

  /** `team1 === winningTeam ? team2 : team1`. */
  function Loser(team1: string, team2: string, winner: string): string {
    if team1 == winner then team2 else team1
  }

  /** The `UPDATE ... WHERE name IN (team1, team2)` on one row. */
  function RecordRow(r: Row, team1: string, team2: string, winner: string, x: real): (r': Row)
    ensures r'.id == r.id && r'.name == r.name && r'.logo == r.logo && r'.themeColor == r.themeColor
    ensures r'.tie == r.tie
    ensures r.name != team1 && r.name != team2 ==> r' == r
  {
    if r.name != team1 && r.name != team2 then r
    else
      var loser := Loser(team1, team2, winner);
      r.(win := r.win + (if r.name == winner then 1 else 0),
         lose := r.lose + (if r.name == loser then 1 else 0),
         points := r.points + (if r.name == winner then 2 else 0),
         nrr := r.nrr + (if r.name == winner then x else -x))
  }

  /** Records that `winner` beat the other of `team1`, `team2` with net run
      rate `x`. */
  function Record(t: Table, team1: string, team2: string, winner: string, x: real): (t': Table)
    ensures |t'| == |t|
    ensures forall i :: 0 <= i < |t| ==> t'[i] == RecordRow(t[i], team1, team2, winner, x)
    decreases |t|
  {
    if |t| == 0 then [] else [RecordRow(t[0], team1, team2, winner, x)] + Record(t[1..], team1, team2, winner, x)
  }

  /** What one result does to each row of the two sides: a win and two
      points and `+x` for the winner, a loss and `-x` for the loser, no
      tie for anyone; every other row is untouched. */
  lemma RecordRows(t: Table, team1: string, team2: string, winner: string, x: real, i: nat)
    requires i < |t| && team1 != team2 && (winner == team1 || winner == team2)
    ensures var r, r' := t[i], Record(t, team1, team2, winner, x)[i];
      (r.name == winner ==> r' == r.(win := r.win + 1, points := r.points + 2, nrr := r.nrr + x)) &&
      (r.name == Loser(team1, team2, winner) ==> r' == r.(lose := r.lose + 1, nrr := r.nrr - x)) &&
      (r.name != team1 && r.name != team2 ==> r' == r)
  {
    RowEffect(t[i], team1, team2, winner, x);
  }

  lemma RowEffect(r: Row, team1: string, team2: string, winner: string, x: real)
    requires team1 != team2 && (winner == team1 || winner == team2)
    ensures var r' := RecordRow(r, team1, team2, winner, x);
      (r.name == winner ==> r' == r.(win := r.win + 1, points := r.points + 2, nrr := r.nrr + x)) &&
      (r.name == Loser(team1, team2, winner) ==> r' == r.(lose := r.lose + 1, nrr := r.nrr - x))
  {
  }

  /** The column sums move by the number of rows of each side: wins and
      points with the winner's rows, losses with the loser's, ties not at
      all. */
  lemma {:induction false} RecordSums(t: Table, team1: string, team2: string, winner: string, x: real)
    requires team1 != team2 && (winner == team1 || winner == team2)
    ensures var t', loser := Record(t, team1, team2, winner, x), Loser(team1, team2, winner);
      Sum(t', Wins) == Sum(t, Wins) + Named(t, winner) &&
      Sum(t', Losses) == Sum(t, Losses) + Named(t, loser) &&
      Sum(t', Ties) == Sum(t, Ties) &&
      Sum(t', Points) == Sum(t, Points) + 2 * Named(t, winner)
    decreases |t|
  {
    if |t| > 0 {
      RecordSums(t[1..], team1, team2, winner, x);
      assert Record(t, team1, team2, winner, x)[1..] == Record(t[1..], team1, team2, winner, x);
    }
  }

  /** With at most one row per side, the net run rates move by `x` for the
      winner's row and by `-x` for the loser's. */
  lemma {:induction false} RecordNrr(t: Table, team1: string, team2: string, winner: string, x: real)
    requires team1 != team2 && (winner == team1 || winner == team2)
    requires Named(t, winner) <= 1 && Named(t, Loser(team1, team2, winner)) <= 1
    ensures var loser := Loser(team1, team2, winner);
      SumNrr(Record(t, team1, team2, winner, x)) ==
      SumNrr(t) + (if Named(t, winner) == 1 then x else 0.0) - (if Named(t, loser) == 1 then x else 0.0)
    decreases |t|
  {
    if |t| > 0 {
      RecordNrr(t[1..], team1, team2, winner, x);
      assert Record(t, team1, team2, winner, x)[1..] == Record(t[1..], team1, team2, winner, x);
    }
  }

  /** With one row per side, a result adds one win, one loss and two points
      to the table and leaves the net run rates summing to the same. */
  lemma RecordConserves(t: Table, team1: string, team2: string, winner: string, x: real)
    requires team1 != team2 && (winner == team1 || winner == team2)
    requires Named(t, team1) == 1 && Named(t, team2) == 1
    ensures var t' := Record(t, team1, team2, winner, x);
      Sum(t', Wins) == Sum(t, Wins) + 1 && Sum(t', Losses) == Sum(t, Losses) + 1 &&
      Sum(t', Ties) == Sum(t, Ties) && Sum(t', Points) == Sum(t, Points) + 2 &&
      SumNrr(t') == SumNrr(t)
  {
    RecordSums(t, team1, team2, winner, x);
    RecordNrr(t, team1, team2, winner, x);
  }

  /** Every row keeps two points per win. */
  predicate PointsForWins(t: Table) {
    forall i :: 0 <= i < |t| ==> t[i].points == 2 * t[i].win
  }

  lemma RecordKeepsPoints(t: Table, team1: string, team2: string, winner: string, x: real)
    requires PointsForWins(t)
    ensures PointsForWins(Record(t, team1, team2, winner, x))
  {
  }

  /** Names are never touched, so the count of each name stays. */
  lemma {:induction false} RecordKeepsNames(t: Table, team1: string, team2: string, winner: string, x: real, n: string)
    ensures Named(Record(t, team1, team2, winner, x), n) == Named(t, n)
    ensures TableNames(Record(t, team1, team2, winner, x)) == TableNames(t)
    decreases |t|
  {
    if |t| > 0 {
      RecordKeepsNames(t[1..], team1, team2, winner, x, n);
      assert Record(t, team1, team2, winner, x)[1..] == Record(t[1..], team1, team2, winner, x);
    }
  }

  // ---------------------------------------------------------------------
  // The table order: points, then net run rate, both descending
  // ---------------------------------------------------------------------

  /** `a` sorts strictly before `b`. */
  predicate Better(a: Row, b: Row) {
    a.points > b.points || (a.points == b.points && a.nrr > b.nrr)
  }

  predicate Ordered(t: Table) {
    forall i, j :: 0 <= i < j < |t| ==> !Better(t[j], t[i])
  }

  function Insert(r: Row, s: Table): (u: Table)
    ensures |u| == |s| + 1 && multiset(u) == multiset(s) + multiset{r}
    decreases |s|
  {
    if |s| == 0 || !Better(s[0], r) then [r] + s
    else
      assert s == [s[0]] + s[1..];
      [s[0]] + Insert(r, s[1..])
  }

  /** An element of a sequence is in its multiset's support. */
  lemma InMultiset(u: Table, k: nat)
    requires k < |u|
    ensures u[k] in multiset(u)
  {
  }

  lemma {:induction false} InsertOrdered(r: Row, s: Table)
    requires Ordered(s)
    ensures Ordered(Insert(r, s))
    decreases |s|
  {
    if |s| > 0 && Better(s[0], r) {
      var u := Insert(r, s[1..]);
      InsertOrdered(r, s[1..]);
      assert Insert(r, s) == [s[0]] + u;
      forall k | 0 <= k < |u| ensures !Better(u[k], s[0]) {
        InMultiset(u, k);
        if u[k] != r {
          assert u[k] in multiset(s[1..]);
          var j :| 0 <= j < |s[1..]| && s[1..][j] == u[k];
          assert s[j + 1] == u[k];
        }
      }
    }
  }

  /** `ORDER BY points DESC, nrr DESC`. The same insertion sort as
      `PlayersDb.Sort`, kept per table so that each ordering lemma is
      proved against its own key. */
  function Sort(t: Table): (u: Table)
    ensures |u| == |t| && multiset(u) == multiset(t)
    decreases |t|
  {
    if |t| == 0 then []
    else
      assert t == [t[0]] + t[1..];
      Insert(t[0], Sort(t[1..]))
  }

  lemma {:induction false} SortOrdered(t: Table)
    ensures Ordered(Sort(t))
    decreases |t|
  {
    if |t| > 0 {
      SortOrdered(t[1..]);
      InsertOrdered(t[0], Sort(t[1..]));
    }
  }

  lemma {:induction false} InsertNamed(r: Row, s: Table, n: string)
    ensures Named(Insert(r, s), n) == Named(s, n) + (if r.name == n then 1 else 0)
    decreases |s|
  {
    if |s| > 0 && Better(s[0], r) {
      InsertNamed(r, s[1..], n);
      assert Insert(r, s)[1..] == Insert(r, s[1..]);
    } else {
      assert ([r] + s)[1..] == s;
    }
  }

  /** Sorting neither adds nor drops a team. */
  lemma {:induction false} SortNamed(t: Table, n: string)
    ensures Named(Sort(t), n) == Named(t, n)
    decreases |t|
  {
    if |t| > 0 {
      SortNamed(t[1..], n);
      InsertNamed(t[0], Sort(t[1..]), n);
    }
  }

  /** A row of `getStandings`: the table row and its 1-based position. */
  datatype Standing = Standing(row: Row, position: nat)

  /** `getStandings`: the rows in table order, numbered from 1. */
  function GetStandings(t: Table): (r: seq<Standing>)
    ensures |r| == |t|
    ensures forall i :: 0 <= i < |r| ==> r[i].position == i + 1 && r[i].row == Sort(t)[i]
  {
    var u := Sort(t);
    seq(|u|, i requires 0 <= i < |u| => Standing(u[i], i + 1))
  }

  lemma GetStandingsOrdered(t: Table)
    ensures var r := GetStandings(t);
      (forall i, j :: 0 <= i < j < |r| ==> !Better(r[j].row, r[i].row)) &&
      multiset(Sort(t)) == multiset(t)
  {
    SortOrdered(t);
  }

  // ---------------------------------------------------------------------
  // Names and uniqueness
  // ---------------------------------------------------------------------

  ghost predicate UniqueNames(t: Table) {
    forall n :: Named(t, n) <= 1
  }

  lemma {:induction false} NamedPositive(t: Table, i: nat)
    requires i < |t|
    ensures Named(t, t[i].name) >= 1
    decreases i
  {
    if i > 0 {
      NamedPositive(t[1..], i - 1);
    }
  }

  /** With at most one row per name, names are distinct. */
  lemma UniqueDistinct(t: Table, i: nat, j: nat)
    requires UniqueNames(t) && i < j < |t|
    ensures t[i].name != t[j].name
  {
    NamedSplit(t, i, j);
  }

  /** Two rows with one name count twice. */
  lemma {:induction false} NamedSplit(t: Table, i: nat, j: nat)
    requires i < j < |t|
    ensures t[i].name == t[j].name ==> Named(t, t[i].name) >= 2
    decreases i
  {
    if i > 0 {
      NamedSplit(t[1..], i - 1, j - 1);
    } else {
      NamedPositive(t[1..], j - 1);
    }
  }

  lemma SortUnique(t: Table)
    requires UniqueNames(t)
    ensures UniqueNames(Sort(t))
  {
    forall n ensures Named(Sort(t), n) <= 1 {
      SortNamed(t, n);
    }
  }

  lemma RecordUnique(t: Table, team1: string, team2: string, winner: string, x: real)
    requires UniqueNames(t)
    ensures UniqueNames(Record(t, team1, team2, winner, x))
  {
    forall n ensures Named(Record(t, team1, team2, winner, x), n) <= 1 {
      RecordKeepsNames(t, team1, team2, winner, x, n);
    }
  }

  // ---------------------------------------------------------------------
  // The other fixtures of the round
  // ---------------------------------------------------------------------

  /** The names in table order, without the two sides that just played. */
  function Remaining(ns: seq<string>, team1: string, team2: string): (r: seq<string>)
    ensures |r| <= |ns|
    ensures forall i :: 0 <= i < |r| ==> r[i] in ns && r[i] != team1 && r[i] != team2
    ensures forall i :: 0 <= i < |ns| && ns[i] != team1 && ns[i] != team2 ==> ns[i] in r
    ensures Distinct(ns) ==> Distinct(r)
    decreases |ns|
  {
    if |ns| == 0 then []
    else
      var rest := Remaining(ns[1..], team1, team2);
      assert forall i :: 0 <= i < |rest| ==> rest[i] in ns[1..];
      if ns[0] != team1 && ns[0] != team2 then
        assert Distinct(ns) ==> ns[0] !in ns[1..];
        [ns[0]] + rest
      else rest
  }

  /** Consecutive names are paired; the loop stops at an odd one out (or a
      falsy second name). */
  function Pairs(rem: seq<string>): (p: seq<(string, string)>)
    ensures 2 * |p| <= |rem|
    ensures forall k :: 0 <= k < |p| ==> p[k] == (rem[2 * k], rem[2 * k + 1])
    ensures (forall i :: 0 <= i < |rem| ==> rem[i] != "") ==> |p| == |rem| / 2
    decreases |rem|
  {
    if |rem| < 2 || rem[1] == "" then []
    else
      var p := Pairs(rem[2..]);
      assert forall k :: 0 <= k < |p| ==> rem[2..][2 * k] == rem[2 * k + 2];
      [(rem[0], rem[1])] + p
  }

  /** The two random draws of a simulated match: who wins, and by what net
      run rate (`draw * 1.8 + 0.2`). */
  datatype SimDraw = SimDraw(coin: real, margin: real)

  predicate ValidSimDraws(ds: seq<SimDraw>) {
    forall i :: 0 <= i < |ds| ==> 0.0 <= ds[i].coin < 1.0 && 0.0 <= ds[i].margin < 1.0
  }

  function SimWinner(p: (string, string), d: SimDraw): string {
    if d.coin > 0.5 then p.0 else p.1
  }

  function SimNrr(d: SimDraw): (x: real)
    requires 0.0 <= d.margin < 1.0
    ensures 0.2 <= x < 2.0
  {
    d.margin * 1.8 + 0.2
  }

  /** Plays the simulated matches in order, one draw each. */
  function Simulate(t: Table, ps: seq<(string, string)>, ds: seq<SimDraw>): Table
    requires |ds| >= |ps| && ValidSimDraws(ds)
    decreases |ps|
  {
    if |ps| == 0 then t
    else Simulate(Record(t, ps[0].0, ps[0].1, SimWinner(ps[0], ds[0]), SimNrr(ds[0])), ps[1..], ds[1..])
  }

  /** Two different teams, one row each. */
  predicate Fixture(t: Table, a: string, b: string) {
    a != b && Named(t, a) == 1 && Named(t, b) == 1
  }

  /** The simulated matches keep the sums balanced: as many wins as losses
      added, two points a win, no ties, net run rates summing to the
      same. */
  lemma {:induction false} SimulateConserves(t: Table, ps: seq<(string, string)>, ds: seq<SimDraw>)
    requires |ds| >= |ps| && ValidSimDraws(ds)
    requires forall k :: 0 <= k < |ps| ==> Fixture(t, ps[k].0, ps[k].1)
    ensures var t' := Simulate(t, ps, ds);
      Sum(t', Wins) == Sum(t, Wins) + |ps| && Sum(t', Losses) == Sum(t, Losses) + |ps| &&
      Sum(t', Ties) == Sum(t, Ties) && Sum(t', Points) == Sum(t, Points) + 2 * |ps| &&
      SumNrr(t') == SumNrr(t)
    ensures forall n :: Named(Simulate(t, ps, ds), n) == Named(t, n)
    decreases |ps|
  {
    if |ps| > 0 {
      var w := SimWinner(ps[0], ds[0]);
      var t1 := Record(t, ps[0].0, ps[0].1, w, SimNrr(ds[0]));
      assert Fixture(t, ps[0].0, ps[0].1);
      RecordConserves(t, ps[0].0, ps[0].1, w, SimNrr(ds[0]));
      forall n ensures Named(t1, n) == Named(t, n) {
        RecordKeepsNames(t, ps[0].0, ps[0].1, w, SimNrr(ds[0]), n);
      }
      assert forall k :: 0 <= k < |ps[1..]| ==> Fixture(t, ps[1..][k].0, ps[1..][k].1);
      SimulateConserves(t1, ps[1..], ds[1..]);
    }
  }

  lemma {:induction false} SimulateKeepsPoints(t: Table, ps: seq<(string, string)>, ds: seq<SimDraw>)
    requires |ds| >= |ps| && ValidSimDraws(ds) && PointsForWins(t)
    ensures PointsForWins(Simulate(t, ps, ds))
    decreases |ps|
  {
    if |ps| > 0 {
      var t1 := Record(t, ps[0].0, ps[0].1, SimWinner(ps[0], ds[0]), SimNrr(ds[0]));
      RecordKeepsPoints(t, ps[0].0, ps[0].1, SimWinner(ps[0], ds[0]), SimNrr(ds[0]));
      SimulateKeepsPoints(t1, ps[1..], ds[1..]);
    }
  }

  // ---------------------------------------------------------------------
  // `updateStanding`
  // ---------------------------------------------------------------------

  /** `findIndex` on the standings: -1 when no row has the name. */
  function IndexOfName(ns: seq<string>, n: string): (k: int)
    ensures -1 <= k < |ns|
    ensures k >= 0 ==> ns[k] == n && forall j :: 0 <= j < k ==> ns[j] != n
    ensures k == -1 ==> forall j :: 0 <= j < |ns| ==> ns[j] != n
    decreases |ns|
  {
    if |ns| == 0 then -1
    else if ns[0] == n then 0
    else
      var k := IndexOfName(ns[1..], n);
      if k == -1 then -1 else k + 1
  }

  /** `{gameEnded: false}` or `{gameEnded: true, teams: [...]}` with the
      two sides' 1-based positions. */
  datatype GameEnd = NotEnded | Ended(team1: string, position1: int, team2: string, position2: int)

  datatype Update = Update(table: Table, result: GameEnd)

  /** The simulated fixtures of the round: the other teams, in table
      order after the user's match is recorded, paired off. */
  function RoundPairs(t1: Table, team1: string, team2: string): (ps: seq<(string, string)>)
    ensures |ps| <= |t1|
  {
    Pairs(Remaining(TableNames(Sort(t1)), team1, team2))
  }

  /** The table after the round: the user's match, then the simulated
      ones. */
  function Round(t: Table, team1: string, team2: string, winner: string, x: real, ds: seq<SimDraw>): Table
    requires |ds| >= |t| && ValidSimDraws(ds)
  {
    var t1 := Record(t, team1, team2, winner, x);
    Simulate(t1, RoundPairs(t1, team1, team2), ds)
  }

  /** The season is over once `team1` has played seven matches; the
      report gives both sides' places in the final table (0 for a side
      with no row). */
  function GameEndOf(final: Table, team1: string, team2: string): (r: GameEnd)
    ensures var u := Sort(final);
      (r.Ended? <==> exists k :: 0 <= k < |u| && u[k].name == team1 &&
                       (forall j :: 0 <= j < k ==> u[j].name != team1) &&
                       u[k].win + u[k].lose + u[k].tie == 7)
    ensures var u := Sort(final);
      r.Ended? ==>
        r.team1 == team1 && r.team2 == team2 &&
        1 <= r.position1 <= |u| && u[r.position1 - 1].name == team1 &&
        (forall j :: 0 <= j < r.position1 - 1 ==> u[j].name != team1) &&
        0 <= r.position2 <= |u| &&
        (r.position2 == 0 <==> forall j :: 0 <= j < |u| ==> u[j].name != team2) &&
        (r.position2 > 0 ==> u[r.position2 - 1].name == team2)
  {
    EndOfSorted(Sort(final), team1, team2)
  }

  /** The report read off a table already in standings order. */
  function EndOfSorted(u: Table, team1: string, team2: string): (r: GameEnd)
    ensures r.Ended? <==> (exists k :: 0 <= k < |u| && u[k].name == team1 &&
                                       (forall j :: 0 <= j < k ==> u[j].name != team1) &&
                                       u[k].win + u[k].lose + u[k].tie == 7)
    ensures r.Ended? ==>
      r.team1 == team1 && r.team2 == team2 &&
      1 <= r.position1 <= |u| && u[r.position1 - 1].name == team1 &&
      (forall j :: 0 <= j < r.position1 - 1 ==> u[j].name != team1) &&
      0 <= r.position2 <= |u| &&
      (r.position2 == 0 <==> forall j :: 0 <= j < |u| ==> u[j].name != team2) &&
      (r.position2 > 0 ==> u[r.position2 - 1].name == team2)
  {
    var ns := TableNames(u);
    var k := IndexOfName(ns, team1);
    if k < 0 then NotEnded
    else
      var row := u[k];
      if row.win + row.lose + row.tie == 7 then Ended(team1, k + 1, team2, IndexOfName(ns, team2) + 1)
      else NotEnded
  }

  /** `updateStanding`: the user's match and the simulated round are
      recorded, and the report is read off the table after both. With one
      row per team and a real fixture, the round adds as many wins as
      losses (at least the user's match), two points a win, no ties, and
      leaves the net run rate sum where it was; two points a win
      survive. */
  function UpdateStanding(t: Table, team1: string, team2: string, winner: string, x: real,
                          ds: seq<SimDraw>): (r: Update)
    requires |ds| >= |t| && ValidSimDraws(ds)
    ensures r.result == GameEndOf(r.table, team1, team2)
    ensures UniqueNames(t) && Fixture(t, team1, team2) && (winner == team1 || winner == team2) ==>
      Sum(r.table, Wins) - Sum(t, Wins) == Sum(r.table, Losses) - Sum(t, Losses) >= 1 &&
      Sum(r.table, Points) - Sum(t, Points) == 2 * (Sum(r.table, Wins) - Sum(t, Wins)) &&
      Sum(r.table, Ties) == Sum(t, Ties) && SumNrr(r.table) == SumNrr(t)
    ensures PointsForWins(t) ==> PointsForWins(r.table)
  {
    var t2 := Round(t, team1, team2, winner, x, ds);
    assert UniqueNames(t) && Fixture(t, team1, team2) && (winner == team1 || winner == team2) ==>
      Sum(t2, Wins) - Sum(t, Wins) == Sum(t2, Losses) - Sum(t, Losses) >= 1 &&
      Sum(t2, Points) - Sum(t, Points) == 2 * (Sum(t2, Wins) - Sum(t, Wins)) &&
      Sum(t2, Ties) == Sum(t, Ties) && SumNrr(t2) == SumNrr(t) by {
      if UniqueNames(t) && Fixture(t, team1, team2) && (winner == team1 || winner == team2) {
        RoundConserves(t, team1, team2, winner, x, ds);
      }
    }
    assert PointsForWins(t) ==> PointsForWins(t2) by {
      if PointsForWins(t) {
        RoundKeepsPoints(t, team1, team2, winner, x, ds);
      }
    }
    Update(t2, GameEndOf(t2, team1, team2))
  }

  /** Every name left over after the two sides is a team with one row,
      so each simulated fixture is between two different teams. */
  lemma RoundFixtures(t1: Table, team1: string, team2: string)
    requires UniqueNames(t1)
    ensures var ps := RoundPairs(t1, team1, team2);
      forall k :: 0 <= k < |ps| ==> Fixture(t1, ps[k].0, ps[k].1)
  {
    var u := Sort(t1);
    var ns := TableNames(u);
    SortUnique(t1);
    forall i, j | 0 <= i < j < |ns| ensures ns[i] != ns[j] {
      UniqueDistinct(u, i, j);
    }
    var rem := Remaining(ns, team1, team2);
    forall i | 0 <= i < |rem| ensures Named(t1, rem[i]) == 1 {
      var j :| 0 <= j < |ns| && ns[j] == rem[i];
      NamedPositive(u, j);
      SortNamed(t1, rem[i]);
    }
    var ps := Pairs(rem);
    forall k | 0 <= k < |ps| ensures Fixture(t1, ps[k].0, ps[k].1) {
      assert ps[k] == (rem[2 * k], rem[2 * k + 1]);
    }
  }

  /** With one row per team and the winner one of the two sides, the round
      adds as many wins as losses, two points a win, no ties, and leaves
      the net run rates summing to the same. */
  lemma RoundConserves(t: Table, team1: string, team2: string, winner: string, x: real,
                       ds: seq<SimDraw>)
    requires |ds| >= |t| && ValidSimDraws(ds)
    requires UniqueNames(t) && Fixture(t, team1, team2) && (winner == team1 || winner == team2)
    ensures var t' := Round(t, team1, team2, winner, x, ds);
      Sum(t', Wins) - Sum(t, Wins) == Sum(t', Losses) - Sum(t, Losses) >= 1 &&
      Sum(t', Points) - Sum(t, Points) == 2 * (Sum(t', Wins) - Sum(t, Wins)) &&
      Sum(t', Ties) == Sum(t, Ties) && SumNrr(t') == SumNrr(t)
  {
    var t1 := Record(t, team1, team2, winner, x);
    RecordConserves(t, team1, team2, winner, x);
    RecordUnique(t, team1, team2, winner, x);
    RoundFixtures(t1, team1, team2);
    SimulateConserves(t1, RoundPairs(t1, team1, team2), ds);
  }

  /** Two points a win survives the round. */
  lemma RoundKeepsPoints(t: Table, team1: string, team2: string, winner: string, x: real,
                         ds: seq<SimDraw>)
    requires |ds| >= |t| && ValidSimDraws(ds) && PointsForWins(t)
    ensures PointsForWins(Round(t, team1, team2, winner, x, ds))
  {
    var t1 := Record(t, team1, team2, winner, x);
    RecordKeepsPoints(t, team1, team2, winner, x);
    SimulateKeepsPoints(t1, RoundPairs(t1, team1, team2), ds);
  }

  // ---------------------------------------------------------------------
  // Positions
  // ---------------------------------------------------------------------

  /** `getUserPosition`: the user team's 1-based place, or nothing when
      there is no user team or it has no row. */
  function GetUserPosition(t: Table, user: Option<string>): (r: Option<nat>)
    ensures user.None? ==> r.None?
    ensures user.Some? && r.Some? ==>
      1 <= r.value <= |t| && GetStandings(t)[r.value - 1].row.name == user.value &&
      GetStandings(t)[r.value - 1].position == r.value &&
      forall j :: 0 <= j < r.value - 1 ==> GetStandings(t)[j].row.name != user.value
    ensures user.Some? && r.None? ==> forall j :: 0 <= j < |t| ==> GetStandings(t)[j].row.name != user.value
  {
    if user.None? then None
    else
      var k := IndexOfName(TableNames(Sort(t)), user.value);
      if k == -1 then None else Some(k + 1)
  }

  datatype SimpleTeam = SimpleTeam(name: string, logo: string, themeColor: string, position: int)

  /** `LIMIT 1 OFFSET position - 1`; a negative offset reads as 0. */
  function GetTeamByPosition(t: Table, position: int): (r: Option<SimpleTeam>)
    ensures 1 <= position <= |t| ==>
      var s := GetStandings(t)[position - 1];
      s.position == position && r == Some(SimpleTeam(s.row.name, s.row.logo, s.row.themeColor, position))
    ensures position > |t| ==> r.None?
    ensures position < 1 && |t| > 0 ==> r.Some? && r.value.name == GetStandings(t)[0].row.name
    ensures position < 1 && |t| == 0 ==> r.None?
  {
    var offset := if position - 1 < 0 then 0 else position - 1;
    var u := Sort(t);
    if offset >= |u| then None
    else Some(SimpleTeam(u[offset].name, u[offset].logo, u[offset].themeColor, position))
  }

  // ---------------------------------------------------------------------
  // `resetStandingsStats`
  // ---------------------------------------------------------------------

  function ResetRow(r: Row): Row {
    r.(win := 0, lose := 0, tie := 0, points := 0, nrr := 0.0)
  }

  /** Clears every result column of every row; ids, names, logos and
      colours stay. */
  function ResetStats(t: Table): (t': Table)
    ensures |t'| == |t|
    ensures forall i :: 0 <= i < |t| ==>
      t'[i].id == t[i].id && t'[i].name == t[i].name && t'[i].logo == t[i].logo &&
      t'[i].themeColor == t[i].themeColor
    ensures forall i :: 0 <= i < |t| ==>
      t'[i].win == 0 && t'[i].lose == 0 && t'[i].tie == 0 && t'[i].points == 0 && t'[i].nrr == 0.0
  {
    seq(|t|, i requires 0 <= i < |t| => ResetRow(t[i]))
  }

  /** After a reset every sum is zero and the table still holds the same
      teams. */
  lemma {:induction false} ResetSums(t: Table, n: string)
    ensures var t' := ResetStats(t);
      Sum(t', Wins) == 0 && Sum(t', Losses) == 0 && Sum(t', Ties) == 0 && Sum(t', Points) == 0 &&
      SumNrr(t') == 0.0 && PointsForWins(t') && Named(t', n) == Named(t, n)
    decreases |t|
  {
    if |t| > 0 {
      ResetSums(t[1..], n);
      assert ResetStats(t)[1..] == ResetStats(t[1..]);
    }
  }
}

=== FILE: text.dfy ===
/** Decimal rendering of integers (JavaScript template literals `${n}`),
    its inverse, lower-casing and substring search. */
module Text {

  predicate IsDigit(c: char) {
    '0' <= c <= '9'
  }

  predicate AllDigits(s: string) {
    forall i :: 0 <= i < |s| ==> IsDigit(s[i])
  }

  function DigitChar(d: nat): (c: char)
    requires d < 10
    ensures IsDigit(c)
  {
    ['0', '1', '2', '3', '4', '5', '6', '7', '8', '9'][d]
  }

  function DigitValue(c: char): (d: nat)
    requires IsDigit(c)
    ensures d < 10
  {
    (c as int - '0' as int)
  }

  lemma DigitRoundTrip(d: nat)
    requires d < 10
    ensures DigitValue(DigitChar(d)) == d
  {
  }

  /** `${n}` for a non-negative integer: no sign, no leading zeros. */
  function NatToString(n: nat): (s: string)
    ensures |s| > 0
    ensures AllDigits(s)
    ensures n < 10 <==> |s| == 1
    decreases n
  {
    if n < 10 then [DigitChar(n)]
    else NatToString(n / 10) + [DigitChar(n % 10)]
  }

  /** `${n}` for any integer. */
  function IntToString(n: int): (s: string)
    ensures |s| > 0
    ensures n >= 0 ==> s == NatToString(n)
    ensures n < 0 ==> s[0] == '-' && s[1..] == NatToString(-n)
  {
    if n < 0 then "-" + NatToString(-n) else NatToString(n)
  }

  /** The value of a string of decimal digits. */
  function ParseNat(s: string): nat
    requires AllDigits(s)
  {
    if |s| == 0 then 0
    else ParseNat(s[..|s| - 1]) * 10 + DigitValue(s[|s| - 1])
  }

  /** Reading back what `NatToString` wrote gives the number. */
  lemma {:induction false} ParseNatToString(n: nat)
    ensures ParseNat(NatToString(n)) == n
    decreases n
  {
    var s := NatToString(n);
    if n < 10 {
      assert s[..0] == [];
      DigitRoundTrip(n);
    } else {
      var p := NatToString(n / 10);
      assert s == p + [DigitChar(n % 10)];
      assert s[..|s| - 1] == p;
      ParseNatToString(n / 10);
      DigitRoundTrip(n % 10);
    }
  }

  /** Distinct numbers render as distinct strings. */
  lemma NatToStringInjective(a: nat, b: nat)
    requires NatToString(a) == NatToString(b)
    ensures a == b
  {
    ParseNatToString(a);
    ParseNatToString(b);
  }

  /** ASCII `toLowerCase`. */
  function LowerChar(c: char): char {
    if 'A' <= c <= 'Z' then (c as int + 32) as char else c
  }

  function ToLower(s: string): (r: string)
    ensures |r| == |s|
    ensures forall i :: 0 <= i < |s| ==> r[i] == LowerChar(s[i])
  {
    if |s| == 0 then [] else [LowerChar(s[0])] + ToLower(s[1..])
  }

  /** `s.includes(sub)`. */
  predicate Contains(s: string, sub: string)
    decreases |s|
  {
    (|sub| <= |s| && s[..|sub|] == sub) || (|s| > 0 && Contains(s[1..], sub))
  }

  /** `sub` occurs in `s` starting at offset `i`. */
  predicate OccursAt(s: string, sub: string, i: int) {
    0 <= i && i + |sub| <= |s| && s[i..i + |sub|] == sub
  }

  /** `includes` holds exactly when `sub` occurs at some offset. */
  lemma {:induction false} ContainsAt(s: string, sub: string)
    ensures Contains(s, sub) <==> exists i :: OccursAt(s, sub, i)
    decreases |s|
  {
    if |s| > 0 {
      ContainsAt(s[1..], sub);
      if |sub| <= |s| && s[..|sub|] == sub {
        assert OccursAt(s, sub, 0);
      }
      if Contains(s[1..], sub) {
        var i :| OccursAt(s[1..], sub, i);
        DropSlice(s, i, |sub|);
        assert OccursAt(s, sub, i + 1);
      }
      if exists i :: OccursAt(s, sub, i) {
        var i :| OccursAt(s, sub, i);
        if i > 0 {
          DropSlice(s, i - 1, |sub|);
          assert OccursAt(s[1..], sub, i - 1);
        } else {
          assert s[..|sub|] == sub;
        }
      }
    } else {
      if exists i :: OccursAt(s, sub, i) {
        var i :| OccursAt(s, sub, i);
        assert i == 0 && |sub| == 0;
        assert s[..|sub|] == sub;
      }
      if Contains(s, sub) {
        assert OccursAt(s, sub, 0);
      }
    }
  }

  lemma DropSlice<T>(s: seq<T>, i: nat, n: nat)
    requires 1 + i + n <= |s|
    ensures s[1..][i..i + n] == s[i + 1..i + 1 + n]
  {
    var t := s[1..][i..i + n];
    assert forall k :: 0 <= k < n ==> t[k] == s[i + 1 + k];
  }
}

=== FILE: toss.dfy ===
/** The toss screen (`src/screens/TossScreen.tsx`): the coin flip against
    the user's call, the opponent's choice when it wins, the user's choice
    when the user wins, and the win percentage shown from the two sides'
    ratings. The two coin draws are parameters in [0,1). */
module Toss {
  import opened Common
  import opened Innings
  import InningsStart

  datatype Coin = Head | Tail

  /** `Math.random() < 0.5 ? 'HEAD' : 'TAIL'`. */
  function Flip(d: real): Coin {
    if d < 0.5 then Head else Tail
  }

  /** The toss: the user wins when the call matches the flip and then has
      not chosen yet; otherwise the opponent wins and picks bat or ball
      with a second draw. */
  function TossResult(call: Coin, flip: real, choiceDraw: real): (r: TossState)
    ensures r.winner == User <==> call == Flip(flip)
    ensures r.winner == User ==> r.choice.None?
    ensures r.winner == Opp ==> r.choice == Some(if choiceDraw < 0.5 then BatFirst else BowlFirst)
  {
    if call == Flip(flip) then TossState(User, None)
    else TossState(Opp, Some(if choiceDraw < 0.5 then BatFirst else BowlFirst))
  }

  /** Whatever the call, it wins on exactly one half of the draws. */
  lemma CallWinsHalf(call: Coin, flip: real, choiceDraw: real)
    ensures TossResult(call, flip, choiceDraw).winner == User <==>
            (call == Head && flip < 0.5) || (call == Tail && flip >= 0.5)
  {
  }

  /** `handleBatBallChoice`: nothing without a toss result; otherwise the
      choice is set and the winner kept. */
  function BatBallChoice(t: Option<TossState>, c: Choice): (r: Option<TossState>)
    ensures t.None? ==> r.None?
    ensures t.Some? ==> r.Some? && r.value.winner == t.value.winner && r.value.choice == Some(c)
  {
    match t
    case None => None
    case Some(s) => Some(s.(choice := Some(c)))
  }

  /** After winning the toss the user bats first exactly when choosing to
      bat; after losing, exactly when the opponent chose to bowl. */
  lemma WhoBatsFirst(call: Coin, flip: real, choiceDraw: real, c: Choice)
    ensures var t := TossResult(call, flip, choiceDraw);
      (t.winner == User ==> (InningsStart.UserBats(BatBallChoice(Some(t), c).value) <==> c == BatFirst)) &&
      (t.winner == Opp ==> (InningsStart.UserBats(t) <==> choiceDraw >= 0.5))
  {
  }

  // ---------------------------------------------------------------------
  // Win percentage
  // ---------------------------------------------------------------------

  /** `getOverallRating`: the mean of the two skills. */
  function OverallRating(p: Player): (r: real)
    ensures 2.0 * r == (p.batting + p.bowling) as real
  {
    (p.batting + p.bowling) as real / 2.0
  }

  function TeamRating(ps: seq<Player>): real {
    if |ps| == 0 then 0.0 else OverallRating(ps[0]) + TeamRating(ps[1..])
  }

  predicate NonNegativeSkills(ps: seq<Player>) {
    forall i :: 0 <= i < |ps| ==> ps[i].batting >= 0 && ps[i].bowling >= 0
  }

  lemma {:induction false} TeamRatingNonNegative(ps: seq<Player>)
    requires NonNegativeSkills(ps)
    ensures TeamRating(ps) >= 0.0
    decreases |ps|
  {
    if |ps| > 0 {
      assert ps[0].batting >= 0 && ps[0].bowling >= 0;
      TeamRatingNonNegative(ps[1..]);
    }
  }

  /** The floored share, as a percentage, of `y` in `y + o`; 50 when both
      are zero. */
  function Percentage(y: real, o: real): (r: int)
    ensures y + o == 0.0 ==> r == 50
    ensures y + o != 0.0 ==> r as real <= 100.0 * y / (y + o) < r as real + 1.0
  {
    if y + o == 0.0 then 50 else (100.0 * y / (y + o)).Floor
  }

  /** `getWinPercentage`: a missing opponent list counts as zero. */
  function WinPercentage(yours: seq<Player>, opp: Option<seq<Player>>): int {
    Percentage(TeamRating(yours), if opp.Some? then TeamRating(opp.value) else 0.0)
  }

  /** For non-negative ratings the percentage lies in 0..100. */
  lemma PercentageBounds(y: real, o: real)
    requires y >= 0.0 && o >= 0.0
    ensures 0 <= Percentage(y, o) <= 100
  {
    if y + o != 0.0 {
      assert 100.0 * y <= 100.0 * (y + o);
      DivBounds(100.0 * y, y + o);
    }
  }

  lemma WholeShare(y: real)
    requires y > 0.0
    ensures 100.0 * y / (y + 0.0) == 100.0
  {
    assert y + 0.0 == y;
  }

  lemma DivBounds(a: real, b: real)
    requires b > 0.0 && 0.0 <= a <= 100.0 * b
    ensures 0.0 <= a / b <= 100.0
  {
  }

  /** The two sides' percentages add up to 100, or 99 when the shares are
      not whole numbers. */
  lemma PercentagesComplement(y: real, o: real)
    requires y >= 0.0 && o >= 0.0 && y + o > 0.0
    ensures var s := Percentage(y, o) + Percentage(o, y);
      s == 100 || s == 99
  {
    var a := 100.0 * y / (y + o);
    var b := 100.0 * o / (y + o);
    assert a + b == 100.0 by {
      assert a + b == (100.0 * y + 100.0 * o) / (y + o);
    }
  }

  lemma WinPercentageBounds(yours: seq<Player>, opp: Option<seq<Player>>)
    requires NonNegativeSkills(yours) && (opp.Some? ==> NonNegativeSkills(opp.value))
    ensures 0 <= WinPercentage(yours, opp) <= 100
    ensures opp.None? && TeamRating(yours) > 0.0 ==> WinPercentage(yours, opp) == 100
  {
    TeamRatingNonNegative(yours);
    if opp.Some? {
      TeamRatingNonNegative(opp.value);
    }
    PercentageBounds(TeamRating(yours), if opp.Some? then TeamRating(opp.value) else 0.0);
    if opp.None? && TeamRating(yours) > 0.0 {
      WholeShare(TeamRating(yours));
    }
  }
}
